=== FILE: README.md ===
# PromptHub clients in Dafny

PromptHub keeps a user's prompts on a web service and brings them to wherever the user types. This project models the decision logic of its clients:

- **Browser extension.** The content script detects a `/p<N>` command at the end of a field, asks the service worker for prompt `N`, and writes it in place of the command. The service worker holds the token and base URL, answers the page's messages and relays API requests. The prompt cards extract `{{variables}}`, ask for their values and fill them in. The API client builds list queries and normalises replies. The settings panel shows the keyboard bindings.
- **Electron desktop app.**
  - The main process does the same `/p<N>` replacement through the clipboard.
  - It captures a selection for quick save and chooses the global shortcut keys.
  - The renderer records new key combinations, checks them for conflicts and pages through prompts.
  - Messages are looked up with a language fallback chain, and tag catalogues are loaded and cached per locale.
  - Each interface language has its own base URL.
- **Drive importer.** A Python script resolves Drive resource ids. It turns each nested-list response into a prompt record.

The browser, Electron, the clipboard, the network and the key/value stores are not modelled as code: what they return is a parameter, and what they hold is a field. One Dafny module stands for each source file. The `/p<N>` detector and the template functions are shared, because the two copies of each in the source are the same code. Objects whose state the source updates in place are classes:
- the service worker's token and base URL;
- the content script's pending checks;
- a page element;
- the desktop host's clipboard;
- the prompt cards' modal state;
- the shortcut recorder;
- the message cache;
- the tag cache;
- the settings panel.

Loops in the source are loops here, proved against a specification function:
- the conflict scan;
- the `exec` scan and the replacement loop of the templates;
- the selector loop;
- the clipboard polling;
- the importer's loops.

Shared helpers:
- `Wrappers`: `Option` and `Result`.
- `Strings`: JavaScript's `trim`, `split`, `replace`, decimal printing and `substring` on characters, with their properties.
- `JsValues`: JavaScript values with truthiness and object spread.

## Model

| member | source | states |
|---|---|---|
| Command.Detect | chrome/content.js:67-85 | a detected command splits the text back exactly: the stripped text, then `/p`, then the digits |
| Command.DetectSound | chrome/content.js:67-71 | a detected command is a match of `/\/p(\d+)$/`, and its index is the decimal value of the digits minus one |
| Command.DetectComplete | chrome/content.js:67-70 | nothing is detected exactly when the end-anchored pattern matches at no position |
| Command.MatchIsUnique | chrome/content.js:67-70 | the pattern can match at one position at most, so the split is unambiguous |
| Command.DetectSplit | desktop/src/main/index.ts:493-510 | any `before + "/p" + digits` is detected with exactly that split and index `value - 1`, even when `before` holds another command |
| Command.DetectNumber | chrome/content.js:67-85 | typing `/p` and a number `n` after any text asks for index `n - 1` and strips back to that text |
| Command.TrailingDigitCountSpec | chrome/content.js:67-70 | the digit run the pattern captures is the whole trailing run of digits |
| Command.FirstPromptExample | chrome/content.js:71 | `/p1` asks for index 0 |
| Command.LeadingZerosExample | chrome/content.js:71 | `/p007` asks for index 6 |
| Command.ZeroExample | chrome/content.js:71 | `/p0` is still a command, with index -1 |
| Command.NonCommands | chrome/content.js:67-70 | `/p`, `/p3 bar` and `x/p3` followed by a newline are not commands, because the pattern has no `m` flag |
| ContentScript.TargetKey | chrome/content.js:36 | the pending-check key is the id, else the name, else tag name plus class name |
| ContentScript.Selector | chrome/content.js:98-117 | the element is found again by `#id`, else by `[name="…"]`; there is no selector exactly when it has neither |
| ContentScript.FillReadsBack | chrome/content.js:147-173 | after a fill, reading the element back gives the content, and the element is focused |
| ContentScript.StripReadsBack | chrome/content.js:77-85 | stripping a detected command from a form field leaves exactly the text before `/p<N>` |
| ContentScript.FillInputField | chrome/content.js:147-173 | a found content-editable element gets the content as its inner text, with `input` and `change` events; any other element gets it as its value, with five events; then it is focused; a missing element is untouched |
| ContentScript.CheckForCommand | chrome/content.js:63-127 | a non-string input or text without a command changes nothing and requests nothing. Otherwise it requests the detected index and strips the command. A delivered prompt then goes by `#id` or `[name]` to the element found, or straight into an element without a selector (`CheckOutcome` states each element's new state) |
| ContentScript.CommandListener.HandleInput | chrome/content.js:32-47 | only an INPUT, a TEXTAREA or a content-editable target is considered; its input replaces the pending check under its key, so at most one check is pending per key |
| ContentScript.CommandListener.FireTimer | chrome/content.js:41-45 | a pending check that fires runs the check on the text captured when it was set, with the target's and the found element's new states as `CheckForCommand` leaves them, and then is removed |
| ContentScript.CommandListener.HandleKeyDown | chrome/content.js:49-61 | Enter on an editable target drops its pending check and checks its current text at once, leaving the elements as `CheckForCommand` does; any other key changes nothing, on the target or the element its selector finds |
| ContentScript.HandlePageMessage | chrome/content.js:131-145 | a fill message fills the element found and gives no reply; a selection request answers the trimmed selection; any other action answers `Unknown action: …` |
| Background.HandlePromptResponse | chrome/background.js:476-502 | prompt `index` is found exactly when a list was returned and the index is in range; the flat envelope is read first; a missing list and an out-of-range index give their error messages |
| Background.FlatEnvelopeWins | chrome/background.js:477-487 | when both envelopes are present the flat one decides, whatever the nested one holds |
| Background.EmptyListRange | chrome/background.js:484-485 | an empty list reports the range `0--1` |
| Background.CommandIndexFound | chrome/background.js:479-482 | the index the detector derives from `/pN`, for `N` from 1 to the list's length, finds prompt `N - 1` |
| Background.ConfiguredBaseUrl | chrome/background.js:125-131 | the stored `WEB_APP_BASE_URL` when it is non-empty, else `http://localhost` |
| Background.QuickImportTitle | chrome/background.js:285-286 | the title is `Quickly: ` followed by the first 15 characters of the trimmed selection |
| Background.QuickImportTitleIgnoresPadding | chrome/background.js:285-286 | white space around the selection never reaches the title |
| Background.AllClashesMembers | chrome/background.js:54-67 | a pair is reported exactly when two commands differ by name and share a non-empty shortcut |
| Background.NoSelfClash | chrome/background.js:54-67 | no command is reported as clashing with itself |
| Background.CheckShortcutConflicts | chrome/background.js:47-100 | the nested loops push exactly the clashing pairs, in loop order |
| Background.NoClashesWhenUnbound | chrome/background.js:54-67 | a command without a shortcut clashes with nothing |
| Background.Worker.PlatformShortcut | chrome/background.js:24-30 | the shortcut is unchanged off Mac, and on a Mac only its first `Alt` becomes `Cmd` |
| Background.Worker.FullUrl | chrome/background.js:252 | a URL starting with `http` is kept; any other is prefixed with the base URL and still ends with itself |
| Background.Worker.LoadStored | chrome/background.js:125-131 | start-up sets the token and the base URL from storage, with the `http://localhost` default |
| Background.Worker.OnStorageChanged | chrome/background.js:136-146 | only changes in the local area update the token or the base URL, each independently |
| Background.Worker.OnPlatformInfo | chrome/background.js:9-13 | the platform becomes the reported one, or Windows when the query fails |
| Background.Worker.PromptByIndex | chrome/background.js:451-473 | without a token there is no request and a token error; otherwise the fixed list query is made, and its answer or error is resolved |
| Background.Worker.ApiRequestReply | chrome/background.js:244-269 | without a token there is no request and a token error; otherwise the completed URL is requested with the verb, the `Bearer` token and the message's data as the body only when it is truthy, and the response body or the error is relayed |
| Background.Worker.QuickImportRequest | chrome/background.js:271-302 | a create request is made exactly when there is a token, and carries it as a `Bearer` token; its content is untrimmed, and its title follows the trimmed-title rule |
| Background.Worker.HandleMessage | chrome/background.js:200-241 | only `setAuthToken` changes the worker, and it makes no request; each action gets its reply, and an unknown action gets an error |
| DesktopMain.PromptByIndex | desktop/src/main/index.ts:435-475 | no request without a token; content is returned exactly when the reply is ok and carries a list and the index is in range |
| DesktopMain.OutOfRangeFindsNothing | desktop/src/main/index.ts:464 | the index from `/p0`, or from any `N` past the end of the list, finds nothing |
| DesktopMain.FirstFresh | desktop/src/main/index.ts:266-276 | the first reading that differs from the saved clipboard and is not blank, or none |
| DesktopMain.SelectionFound | desktop/src/main/index.ts:266-281 | a fresh reading ends the polling and is returned trimmed; later readings do not matter |
| DesktopMain.SelectionNeverBlank | desktop/src/main/index.ts:278-281 | a returned selection is never blank |
| DesktopMain.StaleClipboardReturned | desktop/src/main/index.ts:266-281 | when the copy never changes the clipboard, the unchanged non-blank clipboard is returned as the selection |
| DesktopMain.Host.GetSelectedText | desktop/src/main/index.ts:248-286 | the polling loop returns the selection `SelectionResult` defines, and the saved clipboard is written back |
| DesktopMain.Host.GetCurrentInputText | desktop/src/main/index.ts:395-432 | the clipboard is restored; the copied text is returned untrimmed exactly when it is not blank |
| DesktopMain.Host.HandleCheckCommand | desktop/src/main/index.ts:478-540 | the field is replaced exactly when it holds a command and the prompt is found; the new text is the stripped text followed by the prompt, and it stays on the clipboard; otherwise nothing changes |
| DesktopMain.PastedReplacesCommand | desktop/src/main/index.ts:515 | `/pN` at the end of a field is replaced by prompt `N - 1`, and the text before it is kept |
| DesktopMain.DesktopTitle | desktop/src/main/index.ts:293-303 | the quick-save title is `Quickly: ` followed by the first 15 characters of the untrimmed content |
| DesktopMain.Host.QuickImportPrompt | desktop/src/main/index.ts:289-361 | with no token, `authenticationRequired` is reported and no request is made; otherwise one create request is made; the result counts as saved only for an ok, successful reply; a notice is shown only when the window is open |
| DesktopMain.Host.HandleQuickSaveSelection | desktop/src/main/index.ts:364-392 | `noTextSelected` when the selection comes back empty, else a quick import of the trimmed selection |
| DesktopMain.DefaultKey | desktop/src/main/index.ts:46-71 | each default is non-empty, with `Cmd+Alt+` on macOS and `Ctrl+Alt+` elsewhere |
| DesktopMain.UserShortcutSettings | desktop/src/main/index.ts:574-588 | the `shortcuts` map of a stored settings object is used as it is; with nothing stored, all three actions get their defaults |
| DesktopMain.RegisteredKey | desktop/src/main/index.ts:599 | the user's binding when present and non-empty, else the default; never empty |
| DesktopMain.RegisteredKeys | desktop/src/main/index.ts:591-627 | three non-empty keys, in registration order, which are all defaults when nothing is stored |
| Template.Dedup | chrome/src/utils/helpers.ts:51 | the same elements, without repeats |
| Template.DedupOrder | chrome/src/utils/helpers.ts:51 | the elements appear in the order of their first occurrence |
| Template.ExecSpec | chrome/src/utils/helpers.ts:45-50 | `exec` finds the leftmost match at or after `lastIndex`, ending at the first `}}` on the same line, and no match only when there is none |
| Template.ExtractVariables | chrome/src/utils/helpers.ts:44-52 | the `exec` loop collects the trimmed inner text of every non-overlapping match, left to right, then drops repeats |
| Template.NoMatchNoPlaceholders | chrome/src/utils/helpers.ts:45-49 | no variable is collected exactly when the pattern matches nowhere |
| Template.NoOpeningNoPlaceholders | desktop/src/renderer/src/utils/helpers.ts:45-51 | content without `{{` yields no variable |
| Template.SplitLineExample | chrome/src/utils/helpers.ts:45-49 | a placeholder split over two lines is not one, because `.` does not cross a line break |
| Template.KeyMatchSound | chrome/src/utils/helpers.ts:36 | what the replacement pattern matches is `{{`, white space, the key, white space, `}}` |
| Template.KeyMatchComplete | chrome/src/utils/helpers.ts:36 | every such placeholder for a key that does not start with white space is matched whole |
| Template.ProcessPromptWithVariables | chrome/src/utils/helpers.ts:31-41 | the loop rewrites the running text once per variable, in `Object.keys` order (`OwnKeyOrder`), as `ApplyAll` defines |
| Template.OwnKeyOrderSpec | chrome/src/utils/helpers.ts:35 | `Object.keys` lists every entry once: array-index names first in ascending numeric order, then the other names in insertion order; entries under one name keep their order |
| Template.OwnKeyOrderNoIndex | chrome/src/utils/helpers.ts:35 | without array-index names the key order is the insertion order |
| Template.IndexNameFirst | chrome/src/utils/helpers.ts:35 | a variable named `2` is processed before an earlier-added `name` |
| Template.IndexNamesByValue | chrome/src/utils/helpers.ts:35 | array-index names are ordered by value: `9` before `10` |
| Template.InsertKeeps | chrome/src/utils/helpers.ts:35 | placing an entry in index order loses and adds nothing |
| Template.InsertKeyEntries | chrome/src/utils/helpers.ts:35 | placing an entry keeps the order of the entries sharing a name |
| Template.InsertAscending | chrome/src/utils/helpers.ts:35 | placing an entry keeps an ascending sequence ascending |
| Template.SortByIndexSpec | chrome/src/utils/helpers.ts:35 | the index sort is a stable, sorted permutation |
| Template.PartitionKeeps | chrome/src/utils/helpers.ts:35 | splitting array-index names from the others loses nothing |
| Template.PartitionNames | chrome/src/utils/helpers.ts:35 | the first part holds only array-index names, the second none |
| Template.PartitionKeyEntries | chrome/src/utils/helpers.ts:35 | each part holds all the entries of its names, in order |
| Template.KeyEntriesAppend | chrome/src/utils/helpers.ts:35 | the entries under a name of two sequences joined are those of each, joined |
| Template.ScanNamesUnpadded | chrome/src/utils/helpers.ts:45-50 | every name the scan collects is trimmed |
| Template.ExtractedNamesUnpadded | chrome/src/utils/helpers.ts:44-52 | no extracted variable name starts with white space, so `KeyMatchComplete` covers every key the cards use |
| Template.ApplyAllNoMatch | chrome/src/utils/helpers.ts:32-40 | no variables, or keys with no placeholder, leave the content unchanged |
| Template.SequentialExample | desktop/src/renderer/src/utils/helpers.ts:35-38 | a value holding a later key's placeholder is itself replaced |
| Template.ReplaceExampleB | desktop/src/renderer/src/utils/helpers.ts:35-38 | white space inside the braces is part of the placeholder that is replaced |
| Template.ReplaceRendered | chrome/src/utils/helpers.ts:35-38 | on a well-formed template, replacing a plain key fills exactly the placeholders with that name |
| Template.FillSpec | chrome/src/utils/helpers.ts:35-38 | a fill with a value without `{` keeps the template well formed and removes exactly the placeholders of that name |
| Template.ApplyRendered | chrome/src/utils/helpers.ts:31-41 | processing fills the named placeholders one variable after another, and keeps exactly the placeholders whose names are not keys |
| Template.ProcessRemovesPlaceholders | chrome/src/utils/helpers.ts:35-40 | for plain keys and values without `{`, no placeholder for any key remains anywhere, and processing again changes nothing |
| Template.NestedPlaceholderSurvives | chrome/src/utils/helpers.ts:35-40 | outside well-formed templates that fails: `{{a{{b}}}}` with `a` then `b` set to `''` leaves the placeholder `{{a}}` |
| Template.ExtractRendered | desktop/src/renderer/src/utils/helpers.ts:45-50 | on a well-formed template the scan collects exactly the placeholder names, in order |
| Template.FilledTemplateHasNoVariables | chrome/src/utils/helpers.ts:31-52 | processing a template with a value for every extracted variable leaves nothing to extract |
| PromptCard.VariablesPassGate | chrome/src/components/PromptCard.tsx:22 | content with any extracted variable passes the `hasVariables` gate |
| PromptCard.GateWithoutVariables | desktop/src/renderer/src/components/PromptCard.tsx:21 | the converse fails: `}}{{` passes the gate with no variable to fill |
| PromptCard.SetValueSpec | chrome/src/components/PromptCard.tsx:141-146 | the edited variable reads as the typed value, and no other variable changes |
| PromptCard.InitialValues | chrome/src/components/PromptCard.tsx:68-77 | every extracted variable reads as `''`, and nothing else is set |
| PromptCard.ModalFieldsAreVariables | desktop/src/renderer/src/components/PromptCard.tsx:24-33 | the modal gets one field per extracted variable, in order, because the extracted list has no repeats |
| PromptCard.AllFilledMeansNoBlank | chrome/src/components/PromptCard.tsx:110-114 | confirm goes ahead exactly when no value is empty or white space only |
| PromptCard.CardPreview | chrome/src/components/PromptCard.tsx:206 | content up to 100 characters is shown whole; longer content shows its first 100 characters and `...` |
| PromptCard.TokenLengthSound | chrome/src/components/PromptCard.tsx:285 | what the preview pattern matches is `{{`, characters other than `}`, `}}` |
| PromptCard.TokenLengthComplete | chrome/src/components/PromptCard.tsx:285 | the preview pattern matches at a position in exactly that one way |
| PromptCard.SplitConcat | chrome/src/components/PromptCard.tsx:285-299 | the split parts spell the content again |
| PromptCard.SplitTokens | desktop/src/renderer/src/components/PromptCard.tsx:181-195 | every part at an odd position is a match of the pattern |
| PromptCard.LivePreviewUnfilled | chrome/src/components/PromptCard.tsx:285-299 | before any value is typed the live preview is the content itself |
| PromptCard.PreviewRendered | desktop/src/renderer/src/components/PromptCard.tsx:181-195 | a placeholder of a well-formed template shows its value when that value is non-empty, and shows itself otherwise |
| PromptCard.PreviewShowsConfirmed | chrome/src/components/PromptCard.tsx:117-132 | once every placeholder has a non-blank value, the live preview shows exactly the text that confirm copies, processed in `Object.keys` order |
| PromptCard.LookupFirstEntry | chrome/src/components/PromptCard.tsx:289 | reading a key gives the first entry under it |
| PromptCard.OwnKeyOrderLookup | chrome/src/utils/helpers.ts:35 | listing the values in `Object.keys` order changes no key's value |
| PromptCard.FillWithSameLookup | chrome/src/utils/helpers.ts:35-38 | filling depends only on what each key reads as |
| ExtensionPromptCard.FillMessages | chrome/src/components/PromptCard.tsx:30-65 | one `fillInput` message per selector, in the selectors' order |
| ExtensionPromptCard.FillReachesEverySelector | chrome/src/components/PromptCard.tsx:31-64 | each of the eight selectors gets the content exactly once |
| ExtensionPromptCard.TagLabel | chrome/src/components/PromptCard.tsx:250 | a tag without a localised name renders as nothing |
| ExtensionPromptCard.Card.FillPromptToInput | chrome/src/components/PromptCard.tsx:30-65 | the loop sends all eight messages and does not stop after one succeeds |
| ExtensionPromptCard.Card.HandleUse | chrome/src/components/PromptCard.tsx:67-92 | content with variables opens the modal with every variable set to `''`; other content is copied, filled into the page and counted as a use, token or not |
| ExtensionPromptCard.Card.HandleCopy | chrome/src/components/PromptCard.tsx:94-104 | the raw content is copied; a use is counted only with a token |
| ExtensionPromptCard.Card.HandleVariableChange | chrome/src/components/PromptCard.tsx:141-146 | only the edited variable's value changes |
| ExtensionPromptCard.Card.CloseModal | chrome/src/components/PromptCard.tsx:259 | the modal closes and nothing else changes |
| ExtensionPromptCard.Card.HandleModalConfirm | chrome/src/components/PromptCard.tsx:106-139 | with a blank value it reports the error and changes nothing else; otherwise it copies and fills the processed content, closes the modal, and counts a use only with a token |
| DesktopPromptCard.TagLabel | desktop/src/renderer/src/components/PromptCard.tsx:146 | the localised name, else the raw tag |
| DesktopPromptCard.TagNeverBlank | desktop/src/renderer/src/components/PromptCard.tsx:146 | a non-empty tag never renders blank |
| DesktopPromptCard.Card.HandleUse | desktop/src/renderer/src/components/PromptCard.tsx:23-40 | content with variables sets each variable to `''` and opens the modal; other content is copied and sent to the active window unchanged |
| DesktopPromptCard.Card.HandleCopy | desktop/src/renderer/src/components/PromptCard.tsx:42-45 | only the raw content is copied |
| DesktopPromptCard.Card.HandleVariableChange | desktop/src/renderer/src/components/PromptCard.tsx:84-89 | only the edited variable's value changes |
| DesktopPromptCard.Card.CloseModal | desktop/src/renderer/src/components/PromptCard.tsx:155 | the modal closes and nothing else changes |
| DesktopPromptCard.Card.HandleModalConfirm | desktop/src/renderer/src/components/PromptCard.tsx:57-82 | with a blank value it reports the error and sends nothing; otherwise it copies and sends the processed content and closes the modal |
| ApiClient.SendApiRequest | chrome/src/utils/api.ts:19-36 | a runtime error rejects; a truthy `data.error` rejects with it; otherwise the promise resolves with `data` (`undefined` for a falsy response such as `0`); a null or undefined response, or a truthy one without `data`, never settles |
| ApiClient.FalsyResponseResolves | chrome/src/utils/api.ts:27-33 | a falsy but present response resolves with `undefined`; a null one never settles |
| ApiClient.ErrorReplyNeverSettles | chrome/src/utils/api.ts:27-33 | the worker's `{ error }` reply leaves the promise unsettled |
| ApiClient.DataReplySettles | chrome/src/utils/api.ts:27-33 | the worker's `{ data }` reply resolves with the data unless the data carries a truthy `error` |
| ApiClient.BuildQuery | chrome/src/utils/api.ts:62-69 | one pair per truthy parameter, in the order page, limit, search, sortBy, sortOrder, tag |
| ApiClient.FalsyParamsOmitted | chrome/src/utils/api.ts:62-69 | a parameter that is absent, zero or empty never reaches the query |
| ApiClient.TruthyParamsSent | chrome/src/utils/api.ts:62-69 | every truthy parameter reaches the query with its text |
| ApiClient.FormEncodeNoSeparator | chrome/src/utils/api.ts:70 | an encoded name or value holds no `&` and no `=`, so the query splits back into its pairs |
| ApiClient.SerializeEmpty | chrome/src/utils/api.ts:70 | the query string is empty exactly when no parameter is truthy |
| ApiClient.PromptsListPath | chrome/src/utils/api.ts:70 | the list endpoint, followed by `?` and the query only when some parameter is truthy |
| ApiClient.ListPathMarked | chrome/src/utils/api.ts:70 | without truthy parameters the request is the bare endpoint, and with one it carries a query |
| ApiClient.NormalizePage | chrome/src/utils/api.ts:73-79 | each page field is kept when truthy, else gets its default: `[]`, 0, 1, 10, 1 |
| ApiClient.NormalizePageKeeps | chrome/src/utils/api.ts:73-79 | normalising a normalised page changes nothing |
| ApiClient.FetchPrompts | chrome/src/utils/api.ts:56-83 | the list request carries the query; it resolves exactly when the request resolves with a readable `data.data`, and then with the normalised page; a resolved reply without it rejects with the prefixed TypeError; a rejected request rejects with the `Failed to fetch prompts: ` prefix and its message; it hangs exactly when the request hangs |
| ApiClient.DataOrThrow | chrome/src/utils/api.ts:93-97 | `data` is returned exactly when `success` and `data` are both truthy; otherwise the message, or `Invalid response format`, is thrown |
| ApiClient.FetchUserStats | chrome/src/utils/api.ts:86-101 | with stats not wanted, `{}` and no request; otherwise the stats request and its data |
| ApiClient.FetchUserInfo | chrome/src/utils/api.ts:219-230 | the user-info request; it resolves with `data.data` exactly when `success` and `data` are both truthy; a readable reply otherwise rejects with its `message` or `Invalid response format`, prefixed; a rejected request keeps its message under the prefix; it hangs exactly when the request hangs |
| ApiClient.InvalidFormat | chrome/src/utils/api.ts:222-226 | a successful reply without `data` and without a message rejects with `Invalid response format` |
| ApiClient.IncrementPromptUsage | chrome/src/utils/api.ts:142-151 | it posts `{ promptId }`; it resolves with nothing exactly when `success` is truthy; a readable reply with a falsy `success` rejects with its `message` or the default text, prefixed; a rejected request keeps its message under the prefix; it hangs exactly when the request hangs |
| ApiClient.DeletePrompt | chrome/src/utils/api.ts:206-216 | it posts `{ id }`; it resolves with nothing exactly when `success` is truthy; a readable reply with a falsy `success` rejects with its `message` or `Failed to delete prompt`, prefixed; a rejected request keeps its message under the prefix; it hangs exactly when the request hangs |
| ApiClient.IncrementRejected | chrome/src/utils/api.ts:145-147 | `success: false` with no message rejects with the default message |
| ApiClient.NormalizePromptSpec | chrome/src/utils/api.ts:166-173 | a returned prompt keeps every other property of the server's object; tags, visibility and use count are the server's when truthy, else `[]`, `false` and `0` |
| ApiClient.CreatePrompt | chrome/src/utils/api.ts:154-177 | it posts the data as given; it resolves exactly when the reply is successful and carries a prompt, with that prompt normalised (`NormalizePromptSpec`); it hangs exactly when the request does; a rejected request rejects with the prefixed message |
| ApiClient.UpdateBody | chrome/src/utils/api.ts:186 | the body carries the id and every changed field |
| ApiClient.UpdatePrompt | chrome/src/utils/api.ts:180-204 | it posts the id with the changes; it resolves exactly when the reply is successful and carries a prompt, with that prompt normalised; it hangs exactly when the request does; a rejected request rejects with the prefixed message |
| ApiClient.MapTagsSpec | chrome/src/utils/api.ts:248-253 | the mapping keeps every tag in order, and fails exactly when some item cannot be read |
| ApiClient.FetchPromptTags | chrome/src/utils/api.ts:243-265 | it resolves exactly when `success` and `data` are truthy and, for array data, every item can be read; it keeps the reply's message, with no tags when the data is not an array; a readable reply without `success` and `data` rejects with its `message` or `Invalid response format`, prefixed; it hangs exactly when the request does; a rejected request rejects with the prefixed message |
| ApiClient.TagsResolve | chrome/src/utils/api.ts:246-253 | a reply's tags resolve exactly when it is successful with data and every item of array data can be read |
| ApiClient.FetchedTagsInOrder | chrome/src/utils/api.ts:247-257 | an array of tags is mapped to `{ name, count }`, one per item, in order; it rejects exactly when an item is null or undefined |
| ApiClient.TagsNotArray | chrome/src/utils/api.ts:248-253 | a successful reply whose `data` is not an array yields no tags |
| DesktopApp.MappedKey | desktop/src/renderer/src/App.tsx:503-515 | space, `+` and the arrows get their names; any other key is upper-cased |
| DesktopApp.Modifiers | desktop/src/renderer/src/App.tsx:496-500 | only modifier names, in the order CmdOrCtrl/Ctrl/Cmd, Alt, Shift |
| DesktopApp.ModifierKeyNotMain | desktop/src/renderer/src/App.tsx:503-504 | pressing a modifier key alone records only the held modifiers |
| DesktopApp.CombinationShape | desktop/src/renderer/src/App.tsx:494-515 | the parts are distinct and non-empty, the modifiers come first, and the main key, if any, is the mapped key |
| DesktopApp.FourPartsNotRecordable | desktop/src/renderer/src/App.tsx:524-527 | Ctrl, Alt and Shift with a letter make four parts, which are not recorded |
| DesktopApp.FormatShortcutKeys | desktop/src/renderer/src/App.tsx:555-558 | no parts format to `''` |
| DesktopApp.FormatNonEmpty | desktop/src/renderer/src/App.tsx:555-558 | parts whose last element is non-empty never format to `''` |
| DesktopApp.FormatSplitsBack | desktop/src/renderer/src/App.tsx:555-558 | the formatted shortcut splits on `+` back into the recorded parts |
| DesktopApp.RecordedFormatNonEmpty | desktop/src/renderer/src/App.tsx:524-527 | a combination that can be recorded never formats to `''` |
| DesktopApp.CheckShortcutConflict | desktop/src/renderer/src/App.tsx:561-569 | true exactly when an action other than the excluded one has the same shortcut |
| DesktopApp.SavedBindingUnique | desktop/src/renderer/src/App.tsx:597-610 | a binding saved without a conflict stays unique: the action reads it back, and no other action holds it |
| DesktopApp.ShortcutEditor.StartRecording | desktop/src/renderer/src/App.tsx:572-575 | recording starts for the action with an empty combination |
| DesktopApp.ShortcutEditor.CancelRecording | desktop/src/renderer/src/App.tsx:578-581 | recording ends; the combination and the held keys are cleared |
| DesktopApp.ShortcutEditor.HandleKeyDown | desktop/src/renderer/src/App.tsx:477-530 | a key already held is ignored; otherwise it is held, and a combination of one to three parts is kept and shown |
| DesktopApp.ShortcutEditor.HandleKeyUp | desktop/src/renderer/src/App.tsx:535-545 | the key is released; once none is held the kept combination is shown again, and otherwise the shown combination is unchanged |
| DesktopApp.ShortcutEditor.SaveRecordedShortcut | desktop/src/renderer/src/App.tsx:584-624 | an empty recording or a conflict sets the error and keeps recording; otherwise only that action is rebound, the bindings become current once stored, and recording ends |
| DesktopApp.PromptFeed.ApplyPage | desktop/src/renderer/src/App.tsx:218-223 | a reset load replaces the list; a further page is appended; more pages remain while the page number is below the total |
| DesktopApp.LoadedHoldsEveryPage | desktop/src/renderer/src/App.tsx:218-223 | the list is as long as all pages together and starts with the first page |
| DesktopApp.LoadedPrefix | desktop/src/renderer/src/App.tsx:218-223 | appending pages never changes what was loaded before |
| DesktopApp.LoadedPageInOrder | desktop/src/renderer/src/App.tsx:218-223 | each further page sits whole, in order, right after the pages loaded before it |
| DesktopApp.LoadNextPage | desktop/src/renderer/src/App.tsx:218-223 | applying the next page to a feed that holds the pages so far gives the list with that page appended |
| I18n.TranslateChain | desktop/src/common/i18n.ts:120-140 | the current language's message wins; then English's; then the fallback; then the key; a non-empty key never translates to `''` |
| I18n.FailedLanguageShowsEnglish | desktop/src/common/i18n.ts:51-56 | a language cached as `{}` after a failed load shows English's messages |
| I18n.LanguageDisplayName | desktop/src/common/i18n.ts:188-195 | English, 简体中文 and 日本語 for the three languages, and any other code as itself |
| I18n.DisplayNamesDistinct | desktop/src/common/i18n.ts:188-195 | the three display names differ |
| I18n.SavedChoice | desktop/src/common/i18n.ts:85-88 | the saved language when supported, else English |
| I18n.Localizer.LoadMessages | desktop/src/common/i18n.ts:17-58 | a cached language is never reloaded; otherwise its messages, or `{}` after a failure, are cached |
| I18n.Localizer.InitI18n | desktop/src/common/i18n.ts:66-112 | a passed supported language wins; then the saved one; else English, which the main process writes back; a store error gives English; the main process reads the store's own `language` entry; the returned language is current, and its messages (or `{}` after a failure) are cached unless it was cached already |
| I18n.Localizer.SetLanguage | desktop/src/common/i18n.ts:154-183 | an unsupported language changes nothing; otherwise it becomes current, its messages (or `{}` after a failure) are cached unless it was cached already, and it is saved unless saving fails |
| I18n.LoadTwice | desktop/src/common/i18n.ts:18-20 | a second load of the same language changes nothing, whatever it reads |
| Tags.FileLocale | desktop/src/renderer/src/utils/tags.ts:24-35 | a case-sensitive prefix test: `zh` gives `cn`, `ja` gives `ja`, anything else `en` |
| Tags.LocaleCase | desktop/src/renderer/src/utils/tags.ts:11-35 | the browser language's case does not matter, but the file locale's does |
| Tags.CurrentIsFileLocaleOfLower | desktop/src/renderer/src/utils/tags.ts:13-21 | the current locale is the file locale of the lower-cased browser language |
| Tags.DefaultLocaleThroughFileLocale | desktop/src/renderer/src/utils/tags.ts:24-35 | `cn` is not a `zh` code, so a Chinese default locale reads the English catalogue once it passes through `getFileLocale` |
| Tags.TagsConfigPath | desktop/src/renderer/src/utils/tags.ts:42-46 | `./tags/tags-`, the locale, `.json` |
| Tags.TagsConfigPathInjective | desktop/src/renderer/src/utils/tags.ts:42-46 | different locales read different files |
| Tags.ResolveSources | desktop/src/renderer/src/utils/tags.ts:80-101 | a failed locale falls back only to the English catalogue, and nothing is found only when both fail |
| Tags.Labels | desktop/src/renderer/src/utils/tags.ts:155-163 | a label is listed exactly when some category holds it |
| Tags.AllTagsMembers | desktop/src/renderer/src/utils/tags.ts:170-175 | a label is listed exactly when a scenario or intent category holds it; a missing catalogue lists none |
| Tags.ScenarioFirst | desktop/src/renderer/src/utils/tags.ts:155-163 | scenario labels come first, then intent labels, each in category order |
| Tags.FindFirstSpec | desktop/src/renderer/src/utils/tags.ts:183-197 | the first matching label is returned, and none only when none matches |
| Tags.TagsCatalog.LoadTagsConfig | desktop/src/renderer/src/utils/tags.ts:53-103 | a cached entry, a cached null included, is returned without fetching; otherwise the resolved catalogue is cached under the requested locale |
| Tags.TagsCatalog.GetAllTagClassifications | desktop/src/renderer/src/utils/tags.ts:110-120 | no classifications for a missing catalogue, else scenario then intent |
| Tags.TagsCatalog.GetAllTags | desktop/src/renderer/src/utils/tags.ts:170-175 | the tags of the catalogue for the language's file locale, loaded through the cache |
| Tags.TagsCatalog.FindTagByKey | desktop/src/renderer/src/utils/tags.ts:183-186 | the first of those tags with that key, or null |
| Tags.TagsCatalog.FindTagByName | desktop/src/renderer/src/utils/tags.ts:194-197 | the first of those tags with that name, or null |
| Config.BaseUrlByLanguage | desktop/src/renderer/src/config.ts:44-47 | the table entry when present and non-empty, else the default |
| Config.CurrentLanguageBaseUrl | desktop/src/renderer/src/config.ts:54-56 | the base URL for the language, English when none is given |
| Config.BaseUrlShape | desktop/src/renderer/src/config.ts:8-18 | every base URL is the default, or the default followed by `/` and the language |
| Config.EnglishIsDefault | desktop/src/renderer/src/config.ts:8-21 | the English entry is the default URL in both modes |
| ShortcutSettings.ConfigOf | chrome/src/components/KeyboardShortcutSettings.tsx:108-112 | the config stored under the action, or none when no entry has that action |
| ShortcutSettings.PlatformDefaultKey | chrome/src/components/KeyboardShortcutSettings.tsx:108-112 | `''` for an unknown action, else the Mac default on a Mac and the other default elsewhere |
| ShortcutSettings.StockDefaults | chrome/src/components/KeyboardShortcutSettings.tsx:19-41 | Alt+O and Alt+P, Cmd+O and Cmd+P on a Mac, and `/p<number>` on both |
| ShortcutSettings.FromCommandsLookup | chrome/src/components/KeyboardShortcutSettings.tsx:76-82 | each action reads as its last command's shortcut, else its default; unknown commands add nothing |
| ShortcutSettings.SettingsPanel.DetectPlatform | chrome/src/components/KeyboardShortcutSettings.tsx:49-61 | Mac exactly when the platform reports `mac` |
| ShortcutSettings.SettingsPanel.LoadShortcutSettings | chrome/src/components/KeyboardShortcutSettings.tsx:68-105 | without the commands all three defaults; otherwise the commands' bindings, with `/p<number>` added |
| ShortcutSettings.LoadedBindings | chrome/src/components/KeyboardShortcutSettings.tsx:76-85 | after loading, quickInsertPrompt is always its default, and every other action reads as its last command's binding |
| ShortcutSettings.StockRowsNeverBlank | chrome/src/components/KeyboardShortcutSettings.tsx:130 | with the stock defaults no row shows a blank binding |
| ShortcutSettings.MacRowShowsMountDefault | chrome/src/components/KeyboardShortcutSettings.tsx:68-105 | on a Mac an unbound side-panel command shows `Alt+O`, because the loader captured the non-Mac flag of the first render |
| DriveImporter.EntryFor | resolve_drive_resources.py:116-130 | an entry carries the data when it resolved, else `Failed to resolve resource` |
| DriveImporter.ResolveResources | resolve_drive_resources.py:103-135 | one entry per id, in input order |
| DriveImporter.FirstHundred | resolve_drive_resources.py:176 | a string or list title keeps exactly its first `min(len, 100)` elements; any other value raises |
| DriveImporter.ExtractPromptData | resolve_drive_resources.py:137-193 | every record is private and untagged; a title taken from the response has at most 100 elements, and only the fixed default and error records are exempt |
| DriveImporter.UnparsableResponse | resolve_drive_resources.py:180-185 | a response that is not a non-empty list gives the default record naming the id |
| DriveImporter.TitleFromFifthElement | resolve_drive_resources.py:153-170 | the head of the fifth element is the title, cut to 100 characters; the head of the second-to-last element is the content |
| DriveImporter.MissingTitle | resolve_drive_resources.py:153-160 | without a usable fifth element the title is `未找到标题_` and the id |
| DriveImporter.UnsliceableTitle | resolve_drive_resources.py:186-193 | a title that is a number, a boolean or a dict makes the slice raise, which gives the error record |
| DriveImporter.SingleElementResponse | resolve_drive_resources.py:153-170 | a one-element response has neither a title element nor a content element |
| DriveImporter.SixElementsShareHead | resolve_drive_resources.py:153-170 | in a six-element response the fifth element is also the second-to-last |
| DriveImporter.RaiseEndsRun | resolve_drive_resources.py:201-217 | once an entry raises, the whole run raises |
| DriveImporter.ProcessApiResponses | resolve_drive_resources.py:195-224 | the loop computes exactly what `Processed` defines |
| DriveImporter.ProcessedLength | resolve_drive_resources.py:201-217 | one record per kept entry, and never more records than entries |
| DriveImporter.ErrorEntriesTagged | resolve_drive_resources.py:210-215 | each error entry becomes the failure record, tagged `error`, naming its id |
| DriveImporter.ResolvedEntriesProcess | resolve_drive_resources.py:103-217 | entries from `resolve_resources` never make processing raise; every failed id becomes a failure record, and a body that is not a list is dropped |

## Left out

- Host effects are inputs or fields, not code: the DOM, `chrome.*` messaging and storage, Electron IPC, nut-js keystrokes, the clipboard, `fetch`/`node-fetch`, electron-store and Python `requests`. Their results are parameters and their state is fields.
- Timing is not modelled: the 200 ms debounce, the clipboard polling waits, the 500 ms and 2 s delays and the `setTimeout` that clears the recorder's error. The pending-check map stands for the debounce timers, and a timer firing is an explicit call.
- Asynchronous interleaving is not modelled. Each handler runs to completion, and replies are delivered in order.
- `chrome/src/components/SidePanelApp.tsx` is not part of this model: its token bootstrap is timer polling, and its paging duplicates the desktop app's.
- The recorder's Enter/Escape handler (desktop/src/renderer/src/App.tsx:627-641) and the JSX rendering are left out: they are UI wiring.
- `apiRequest`, `getAuthToken` and `setAuthToken` in the API client are left out: they only wrap storage or the request.
- JsValues.ToText: `String()` of an array is written `[array]` and of a `Date` `[date]`, not the comma-joined items or the date text, so a rejection message built from such a value differs. Numbers are integers only: fractions, NaN and infinities are not modelled.
- Template.ProcessPromptWithVariables: keys are treated as plain text. The source interpolates them into a regular expression unescaped, and `$` patterns in values are not interpreted.
- Template.KeyMatch: the first `\s*` takes the whole run of white space and gives none back, where the regular expression would backtrack. This differs only for a key that starts with white space, and Template.ExtractedNamesUnpadded shows that no extracted variable name does.
- Template.ProcessRemovesPlaceholders: holds only for well-formed templates. Template.NestedPlaceholderSurvives shows that it fails for nested braces.
- Strings.ToUpper and Strings.ToLower map ASCII letters only, not all of Unicode as `toUpperCase` and `toLowerCase` do. White space is the full ECMAScript set.
- Background.QuickImportTitle, DesktopMain.DesktopTitle and PromptCard.CardPreview: lengths and cuts count characters (Unicode scalar values), not UTF-16 code units as JavaScript's `length` and `substring` do. Text outside the Basic Multilingual Plane, such as emoji, is therefore cut at a different place, and a surrogate pair is never split.
- DesktopMain.UserShortcutSettings: `stored` stands for the `shortcuts` map of the stored settings. A stored object without `shortcuts` makes the registration throw a TypeError (desktop/src/main/index.ts:599), so no key is registered; that case and non-string bindings are not modelled.
- Command.Detect: the digits' value is an unbounded integer, not `parseInt`'s double, which loses precision on very long digit runs.
- ContentScript.FillInputField: the `sendResponse` call after the write refers to nothing in scope, so the call throws and never answers. The model stops after the write.
- ApiClient.SendApiRequest: the never-settling promise is a distinct outcome (a null or undefined response, or a truthy response without `data`). Nothing that waits on it is modelled.
- Background.Worker.ApiRequestReply and Background.Worker.QuickImportRequest: the body is the JSON value before `JSON.stringify`, and the constant `Content-Type: application/json` header is not recorded.
- DriveImporter.ResolveResources: resource ids are strings. The decoded body of `resolve_resource` is an input, and its HTTP, logging and sleeps are left out.
- DriveImporter.ExtractPromptData: Python numbers are integers. Floats are not modelled.
- DriveImporter.ProcessApiResponses: the file write and the printing are left out.
- ExtensionPromptCard.TagLabel: the extension's tag label has no fallback to the raw tag, unlike the desktop one. This follows the code.

## Behaviour that follows the code

- When the simulated copy never changes the clipboard, `getSelectedText` returns the last reading (desktop/src/main/index.ts:266-281). A non-blank clipboard that did not change is therefore returned as the selection, not as "no selection". DesktopMain.StaleClipboardReturned states this.
- `hasVariables` tests only that `{{` and `}}` both occur, so `}}{{` opens the modal with no field (PromptCard.GateWithoutVariables).
- `getCurrentLocale` returns `cn` for Chinese, and `getFileLocale` maps `cn` to `en`. A Chinese default locale that passes through `getFileLocale` therefore reads the English tag catalogue (Tags.DefaultLocaleThroughFileLocale).
- The settings panel's loader is the first render's closure. On a Mac it fills unbound commands with the non-Mac default (ShortcutSettings.MacRowShowsMountDefault).

=== FILE: api_client.dfy ===
/**
 * The extension's API client (chrome/src/utils/api.ts). Each call posts an
 * `apiRequest` message to the background worker. The reply (or the
 * runtime's `lastError`) is an input here. What the client models is the
 * URL and body it asks for, and how it turns the reply into a result or a
 * thrown message.
 */
module ApiClient {
  import opened Wrappers
  import opened Strings
  import opened JsValues
  import Background

  // ---------------------------------------------------------------------
  // The message round trip
  // ---------------------------------------------------------------------

  /** What the `sendMessage` callback sees: the runtime's `lastError`, or the worker's response object. */
  datatype ChannelReply = LastError(message: string) | Response(response: Value)

  /** The response object the worker sends for an `apiRequest`: `{ data }` or `{ error }`. */
  function ApiReplyValue(reply: Background.Reply): Value
    requires reply.ApiData? || reply.ApiError?
  {
    if reply.ApiData? then Obj(map["data" := reply.data]) else Obj(map["error" := Str(reply.error)])
  }

  /**
   * How a promise of the client ends: resolved, rejected with a message,
   * or never settled (the callback threw before calling `resolve` or `reject`).
   */
  datatype Outcome<T> = Done(value: T) | Failed(message: string) | Stuck

  /** The `apiRequest` message: the URL (prefixed with the build's base URL), the verb and the body. */
  datatype ApiCall = ApiCall(url: string, verb: string, data: Value)

  /** A value whose properties can be read (anything but null and undefined). */
  predicate Readable(v: Value) {
    !v.Undefined? && !v.Null?
  }

  /** `v.key` on a readable value. */
  function Get(v: Value, key: string): Value
    requires Readable(v)
  {
    Prop(v, key).value
  }

  /**
   * `sendApiRequest`'s callback: `lastError` rejects. A response whose
   * `data.error` is truthy rejects with that error. Otherwise the promise
   * resolves with `response.data`, which for a falsy response such as `0`
   * or `""` is `undefined`. Reading `.data` of a null or undefined response,
   * or `.error` of a missing `data`, throws inside the callback, and the
   * promise never settles.
   */
  function SendApiRequest(reply: ChannelReply): (r: Outcome<Value>)
    ensures reply.LastError? ==> r == Failed(reply.message)
    ensures r.Done? ==> reply.Response? && Readable(reply.response) && r.value == Get(reply.response, "data")
    ensures r.Stuck? <==> reply.Response? && (!Readable(reply.response) || (Truthy(reply.response) && !Readable(Get(reply.response, "data"))))
  {
    match reply
    case LastError(message) => Failed(message)
    case Response(response) =>
      if !Truthy(response) then (if Readable(response) then Done(Get(response, "data")) else Stuck)
      else
        var data := Get(response, "data");
        if !Readable(data) then Stuck
        else if Truthy(Get(data, "error")) then Failed(ToText(Get(data, "error")))
        else Done(data)
  }

  /** The worker's `{ error }` reply has no `data`, so the client's promise never settles. */
  lemma ErrorReplyNeverSettles(error: string)
    ensures SendApiRequest(Response(ApiReplyValue(Background.ApiError(error)))) == Stuck
  {
  }

  /** A falsy but present response, such as `0`, resolves with `undefined` rather than hanging. */
  lemma FalsyResponseResolves()
    ensures SendApiRequest(Response(Num(0))) == Done(Undefined)
    ensures SendApiRequest(Response(Null)) == Stuck
  {
  }

  /** The worker's `{ data }` reply resolves with the data unless the data carries a truthy `error`. */
  lemma DataReplySettles(data: Value)
    requires Readable(data)
    ensures !Truthy(Get(data, "error")) ==> SendApiRequest(Response(ApiReplyValue(Background.ApiData(data)))) == Done(data)
    ensures Truthy(Get(data, "error")) ==> SendApiRequest(Response(ApiReplyValue(Background.ApiData(data)))) == Failed(ToText(Get(data, "error")))
  {
  }

  /** `catch (error) { throw new Error(prefix + error.message) }`. */
  function Rethrow<T>(prefix: string, o: Outcome<T>): (r: Outcome<T>)
    ensures o.Done? ==> r == o
    ensures o.Stuck? ==> r.Stuck?
    ensures o.Failed? ==> r == Failed(prefix + o.message)
  {
    match o
    case Done(v) => Done(v)
    case Failed(m) => Failed(prefix + m)
    case Stuck => Stuck
  }

  // ---------------------------------------------------------------------
  // fetchPrompts: the query string
  // ---------------------------------------------------------------------

  /** `FetchPromptsParams`; every parameter optional. */
  datatype FetchParams = FetchParams(
    page: Option<int>, limit: Option<int>, search: Option<string>,
    sortBy: Option<string>, sortOrder: Option<string>, tag: Option<string>)

  /** The parameters `fetchPrompts` may send. */
  datatype Param = Page | Limit | Search | SortBy | SortOrder | Tag

  /** The name a parameter is sent under. */
  function Name(p: Param): string {
    match p
    case Page => "page"
    case Limit => "limit"
    case Search => "search"
    case SortBy => "sortBy"
    case SortOrder => "sortOrder"
    case Tag => "tag"
  }

  /** The parameters in the order `fetchPrompts` appends them. */
  const ParamOrder: seq<Param> := [Page, Limit, Search, SortBy, SortOrder, Tag]

  /** The text appended for a parameter: its string form when it is truthy (a non-zero number, a non-empty string). */
  function ParamText(params: FetchParams, p: Param): Option<string> {
    match p
    case Page => if params.page.Some? && params.page.value != 0 then Some(IntToString(params.page.value)) else None
    case Limit => if params.limit.Some? && params.limit.value != 0 then Some(IntToString(params.limit.value)) else None
    case Search => if params.search.Some? && params.search.value != "" then params.search else None
    case SortBy => if params.sortBy.Some? && params.sortBy.value != "" then params.sortBy else None
    case SortOrder => if params.sortOrder.Some? && params.sortOrder.value != "" then params.sortOrder else None
    case Tag => if params.tag.Some? && params.tag.value != "" then params.tag else None
  }

  /** The pair one parameter contributes: none, or its name and text. */
  function Appended(params: FetchParams, p: Param): seq<(string, string)> {
    if ParamText(params, p).Some? then [(Name(p), ParamText(params, p).value)] else []
  }

  /** The `(name, text)` pairs of the truthy parameters among the first `k` of the order, in that order. */
  function Sent(params: FetchParams, k: nat): seq<(string, string)>
    requires k <= |ParamOrder|
  {
    if k == 0 then [] else Sent(params, k - 1) + Appended(params, ParamOrder[k - 1])
  }

  /**
   * The `URLSearchParams` of `fetchPrompts`, built by one `append` per
   * truthy parameter: page, limit, search, sortBy, sortOrder, tag.
   */
  method BuildQuery(params: FetchParams) returns (query: seq<(string, string)>)
    ensures query == Sent(params, |ParamOrder|)
  {
    query := [];
    if params.page.Some? && params.page.value != 0 {
      query := query + [("page", IntToString(params.page.value))];
    }
    assert query == Sent(params, 1);
    if params.limit.Some? && params.limit.value != 0 {
      query := query + [("limit", IntToString(params.limit.value))];
    }
    assert query == Sent(params, 2);
    if params.search.Some? && params.search.value != "" {
      query := query + [("search", params.search.value)];
    }
    assert query == Sent(params, 3);
    if params.sortBy.Some? && params.sortBy.value != "" {
      query := query + [("sortBy", params.sortBy.value)];
    }
    assert query == Sent(params, 4);
    if params.sortOrder.Some? && params.sortOrder.value != "" {
      query := query + [("sortOrder", params.sortOrder.value)];
    }
    assert query == Sent(params, 5);
    if params.tag.Some? && params.tag.value != "" {
      query := query + [("tag", params.tag.value)];
    }
  }

  /** A parameter that is absent, zero or empty never reaches the query. */
  lemma {:induction false} FalsyParamsOmitted(params: FetchParams, k: nat, p: Param)
    requires k <= |ParamOrder| && ParamText(params, p).None?
    ensures forall i :: 0 <= i < |Sent(params, k)| ==> Sent(params, k)[i].0 != Name(p)
  {
    if k != 0 {
      FalsyParamsOmitted(params, k - 1, p);
    }
  }

  /** Every truthy parameter among the first `k` reaches the query with its text. */
  lemma {:induction false} TruthyParamsSent(params: FetchParams, k: nat, p: Param)
    requires k <= |ParamOrder| && p in ParamOrder[..k] && ParamText(params, p).Some?
    ensures (Name(p), ParamText(params, p).value) in Sent(params, k)
  {
    if ParamOrder[k - 1] != p {
      assert ParamOrder[..k] == ParamOrder[..k - 1] + [ParamOrder[k - 1]];
      TruthyParamsSent(params, k - 1, p);
    }
  }

  // ---------------------------------------------------------------------
  // URLSearchParams serialisation (application/x-www-form-urlencoded)
  // ---------------------------------------------------------------------

  /** The UTF-8 bytes of a character. */
  function Utf8(c: char): (bytes: seq<nat>)
    ensures 1 <= |bytes| <= 4
  {
    var n := c as int;
    if n < 0x80 then [n]
    else if n < 0x800 then [0xC0 + n / 0x40, 0x80 + n % 0x40]
    else if n < 0x10000 then [0xE0 + n / 0x1000, 0x80 + n / 0x40 % 0x40, 0x80 + n % 0x40]
    else [0xF0 + n / 0x40000, 0x80 + n / 0x1000 % 0x40, 0x80 + n / 0x40 % 0x40, 0x80 + n % 0x40]
  }

  function HexDigit(d: nat): char
    requires d < 16
  {
    if d < 10 then ('0' as int + d) as char else ('A' as int + d - 10) as char
  }

  /** Bytes the form encoding leaves as they are: ASCII letters, digits and `*-._`. */
  predicate KeptByte(b: nat) {
    (0x30 <= b <= 0x39) || (0x41 <= b <= 0x5A) || (0x61 <= b <= 0x7A)
    || b == 0x2A || b == 0x2D || b == 0x2E || b == 0x5F
  }

  /** A byte as the form encoding writes it: kept, `+` for a space, otherwise `%XX`. */
  function EncodeByte(b: nat): (r: string)
    ensures r != []
  {
    if b == 0x20 then "+"
    else if KeptByte(b) then [b as char]
    else ['%', HexDigit(b / 16 % 16), HexDigit(b % 16)]
  }

  function EncodeBytes(bytes: seq<nat>): string {
    if bytes == [] then "" else EncodeByte(bytes[0]) + EncodeBytes(bytes[1..])
  }

  function FormEncode(s: string): string {
    if s == [] then "" else EncodeBytes(Utf8(s[0])) + FormEncode(s[1..])
  }

  /** Characters that separate the serialised pairs and their halves. */
  predicate NoSeparator(s: string) {
    forall i :: 0 <= i < |s| ==> s[i] != '&' && s[i] != '='
  }

  lemma NoSeparatorAppend(a: string, b: string)
    requires NoSeparator(a) && NoSeparator(b)
    ensures NoSeparator(a + b)
  {
    assert forall i :: |a| <= i < |a + b| ==> (a + b)[i] == b[i - |a|];
  }

  lemma {:induction false} EncodeBytesNoSeparator(bytes: seq<nat>)
    ensures NoSeparator(EncodeBytes(bytes))
  {
    if bytes != [] {
      EncodeBytesNoSeparator(bytes[1..]);
      NoSeparatorAppend(EncodeByte(bytes[0]), EncodeBytes(bytes[1..]));
    }
  }

  /** An encoded name or value holds no `&` and no `=`, so the serialised query splits back into its pairs. */
  lemma {:induction false} FormEncodeNoSeparator(s: string)
    ensures NoSeparator(FormEncode(s))
  {
    if s != [] {
      EncodeBytesNoSeparator(Utf8(s[0]));
      FormEncodeNoSeparator(s[1..]);
      NoSeparatorAppend(EncodeBytes(Utf8(s[0])), FormEncode(s[1..]));
    }
  }

  /** The serialised pairs, `name=value`, joined with `&`. */
  function EncodePairs(pairs: seq<(string, string)>): (parts: seq<string>)
    ensures |parts| == |pairs|
    ensures forall i :: 0 <= i < |parts| ==> parts[i] == FormEncode(pairs[i].0) + "=" + FormEncode(pairs[i].1)
  {
    if pairs == [] then [] else EncodePairs(pairs[..|pairs| - 1]) + [FormEncode(pairs[|pairs| - 1].0) + "=" + FormEncode(pairs[|pairs| - 1].1)]
  }

  /** `queryParams.toString()`. */
  function Serialize(pairs: seq<(string, string)>): string {
    Join(EncodePairs(pairs), '&')
  }

  lemma {:induction false} JoinNonEmpty(parts: seq<string>)
    requires parts != [] && parts[|parts| - 1] != []
    ensures Join(parts, '&') != []
  {
  }

  /** The query string is empty exactly when no pair was appended. */
  lemma SerializeEmpty(pairs: seq<(string, string)>)
    ensures Serialize(pairs) == "" <==> pairs == []
  {
    var parts := EncodePairs(pairs);
    if pairs != [] {
      assert '=' in parts[|parts| - 1];
      JoinNonEmpty(parts);
    }
  }

  /** The list endpoint and, only when some parameter is truthy, `?` and the query string. */
  function PromptsListPath(params: FetchParams): (path: string)
    ensures Sent(params, |ParamOrder|) == [] ==> path == "/api/prompts/list"
    ensures Sent(params, |ParamOrder|) != [] ==> path == "/api/prompts/list?" + Serialize(Sent(params, |ParamOrder|))
  {
    var q := Serialize(Sent(params, |ParamOrder|));
    SerializeEmpty(Sent(params, |ParamOrder|));
    "/api/prompts/list" + (if q != "" then "?" + q else "")
  }

  /** Without any truthy parameter the request is the bare list endpoint, and with one it carries a query. */
  lemma ListPathMarked(params: FetchParams)
    ensures PromptsListPath(params) == "/api/prompts/list"
      <==> forall p :: ParamText(params, p).None?
  {
    if exists p :: ParamText(params, p).Some? {
      var p :| ParamText(params, p).Some?;
      assert ParamOrder[..|ParamOrder|] == ParamOrder;
      TruthyParamsSent(params, |ParamOrder|, p);
      assert |PromptsListPath(params)| > |"/api/prompts/list"|;
    } else {
      NoneSent(params, |ParamOrder|);
    }
  }

  lemma {:induction false} NoneSent(params: FetchParams, k: nat)
    requires k <= |ParamOrder| && forall p :: ParamText(params, p).None?
    ensures Sent(params, k) == []
  {
    if k != 0 {
      NoneSent(params, k - 1);
    }
  }

  // ---------------------------------------------------------------------
  // fetchPrompts: the response
  // ---------------------------------------------------------------------

  /** `FetchPromptsResponse`. */
  datatype PromptPage = PromptPage(prompts: Value, total: Value, page: Value, limit: Value, totalPages: Value)

  /** `data.data.x || default` for each field. */
  function NormalizePage(body: Value): (r: PromptPage)
    requires Readable(body)
    ensures Truthy(r.prompts) && Truthy(r.page) && Truthy(r.limit) && Truthy(r.totalPages)
  {
    PromptPage(
      Or(Get(body, "prompts"), Arr([])),
      Or(Get(body, "total"), Num(0)),
      Or(Get(body, "page"), Num(1)),
      Or(Get(body, "limit"), Num(10)),
      Or(Get(body, "totalPages"), Num(1)))
  }

  /** A page as the object the server would send. */
  function PageValue(p: PromptPage): Value {
    Obj(map["prompts" := p.prompts, "total" := p.total, "page" := p.page, "limit" := p.limit, "totalPages" := p.totalPages])
  }

  /** Truthy fields are kept and falsy ones replaced, so normalising a normalised page changes nothing. */
  lemma NormalizePageKeeps(body: Value)
    requires Readable(body)
    ensures Truthy(Get(body, "page")) ==> NormalizePage(body).page == Get(body, "page")
    ensures !Truthy(Get(body, "page")) ==> NormalizePage(body).page == Num(1)
    ensures NormalizePage(PageValue(NormalizePage(body))) == NormalizePage(body)
  {
    var p := NormalizePage(body);
    assert Get(PageValue(p), "total") == p.total;
    assert Truthy(p.total) || p.total == Num(0);
  }

  /**
   * `fetchPrompts`: the list request with the query, then the normalised
   * page; a rejection, or a reply without `data.data`, rethrown with the
   * `Failed to fetch prompts: ` prefix.
   */
  function FetchPrompts(apiBase: string, params: FetchParams, reply: ChannelReply): (r: (ApiCall, Outcome<PromptPage>))
    ensures r.0 == ApiCall(apiBase + PromptsListPath(params), "GET", Undefined)
    ensures r.1.Failed? ==> StartsWith(r.1.message, "Failed to fetch prompts: ")
    ensures SendApiRequest(reply).Failed? ==> r.1 == Failed("Failed to fetch prompts: " + SendApiRequest(reply).message)
    ensures r.1.Stuck? <==> SendApiRequest(reply).Stuck?
    ensures r.1.Done? <==>
      var sent := SendApiRequest(reply);
      sent.Done? && Readable(sent.value) && Readable(Get(sent.value, "data"))
    ensures r.1.Done? ==> r.1.value == NormalizePage(Get(SendApiRequest(reply).value, "data"))
    ensures SendApiRequest(reply).Done? && !r.1.Done? ==> r.1 == Failed("Failed to fetch prompts: " + TypeErrorMessage)
  {
    var call := ApiCall(apiBase + PromptsListPath(params), "GET", Undefined);
    var prefix := "Failed to fetch prompts: ";
    var result :=
      match SendApiRequest(reply)
      case Done(data) =>
        if !Readable(data) || !Readable(Get(data, "data")) then Failed(prefix + TypeErrorMessage)
        else Done(NormalizePage(Get(data, "data")))
      case Failed(m) => Failed(prefix + m)
      case Stuck => Stuck;
    (call, result)
  }

  // ---------------------------------------------------------------------
  // Calls that return data.data or throw
  // ---------------------------------------------------------------------

  /** `if (data.success && data.data) return data.data; else throw new Error(data.message || 'Invalid response format')`. */
  function DataOrThrow(data: Value): (r: Outcome<Value>)
    ensures r.Done? <==> Readable(data) && Truthy(Get(data, "success")) && Truthy(Get(data, "data"))
    ensures r.Done? ==> r.value == Get(data, "data")
    ensures Readable(data) && !r.Done? ==> r == Failed(ToText(Or(Get(data, "message"), Str("Invalid response format"))))
    ensures !r.Stuck?
  {
    if !Readable(data) then Failed(TypeErrorMessage)
    else if Truthy(Get(data, "success")) && Truthy(Get(data, "data")) then Done(Get(data, "data"))
    else Failed(ToText(Or(Get(data, "message"), Str("Invalid response format"))))
  }

  function Then<T>(o: Outcome<Value>, f: Value -> Outcome<T>): Outcome<T> {
    match o
    case Done(v) => f(v)
    case Failed(m) => Failed(m)
    case Stuck => Stuck
  }

  /** `fetchUserStats`: `{}` with no request when stats are not wanted. */
  function FetchUserStats(apiBase: string, withStats: bool, reply: ChannelReply): (r: (Option<ApiCall>, Outcome<Value>))
    ensures !withStats ==> r == (None, Done(Obj(map[])))
    ensures withStats ==> r.0 == Some(ApiCall(apiBase + "/api/dashboard/stats", "GET", Undefined))
    ensures withStats ==> r.1 == Rethrow("Failed to fetch user stats: ", Then(SendApiRequest(reply), DataOrThrow))
  {
    if !withStats then (None, Done(Obj(map[])))
    else (Some(ApiCall(apiBase + "/api/dashboard/stats", "GET", Undefined)),
          Rethrow("Failed to fetch user stats: ", Then(SendApiRequest(reply), DataOrThrow)))
  }

  /** `fetchUserInfo`. */
  function FetchUserInfo(apiBase: string, reply: ChannelReply): (r: (ApiCall, Outcome<Value>))
    ensures r.0 == ApiCall(apiBase + "/api/auth/me", "GET", Undefined)
    ensures r.1.Failed? ==> StartsWith(r.1.message, "Failed to fetch user info: ")
    ensures SendApiRequest(reply).Failed? ==> r.1 == Failed("Failed to fetch user info: " + SendApiRequest(reply).message)
    ensures r.1.Stuck? <==> SendApiRequest(reply).Stuck?
    ensures r.1.Done? <==>
      var sent := SendApiRequest(reply);
      sent.Done? && Readable(sent.value) && Truthy(Get(sent.value, "success")) && Truthy(Get(sent.value, "data"))
    ensures r.1.Done? ==> r.1.value == Get(SendApiRequest(reply).value, "data")
    ensures var sent := SendApiRequest(reply);
      sent.Done? && Readable(sent.value) && !r.1.Done? ==>
        r.1 == Failed("Failed to fetch user info: " + ToText(Or(Get(sent.value, "message"), Str("Invalid response format"))))
  {
    (ApiCall(apiBase + "/api/auth/me", "GET", Undefined),
     Rethrow("Failed to fetch user info: ", Then(SendApiRequest(reply), DataOrThrow)))
  }

  /** A successful reply without `message` rejects with `Invalid response format` when it lacks `data`. */
  lemma InvalidFormat(apiBase: string, body: map<string, Value>)
    requires "error" !in body && "message" !in body && "data" !in body
    ensures FetchUserInfo(apiBase, Response(Obj(map["data" := Obj(body)]))).1
      == Failed("Failed to fetch user info: " + "Invalid response format")
  {
  }

  // ---------------------------------------------------------------------
  // Calls that only check success
  // ---------------------------------------------------------------------

  /** `if (!data.success) throw new Error(data.message || fallback)`. */
  function RequireSuccess(data: Value, fallback: string): (r: Outcome<Value>)
    ensures r.Done? <==> Readable(data) && Truthy(Get(data, "success"))
    ensures r.Done? ==> r.value == data
    ensures Readable(data) && !r.Done? ==> r == Failed(ToText(Or(Get(data, "message"), Str(fallback))))
  {
    if !Readable(data) then Failed(TypeErrorMessage)
    else if !Truthy(Get(data, "success")) then Failed(ToText(Or(Get(data, "message"), Str(fallback))))
    else Done(data)
  }

  /** `incrementPromptUsage`: posts `{ promptId }`, throws when `success` is falsy, and otherwise resolves with nothing. */
  function IncrementPromptUsage(apiBase: string, promptId: string, reply: ChannelReply): (r: (ApiCall, Outcome<Value>))
    ensures r.0 == ApiCall(apiBase + "/api/prompts/use", "POST", Obj(map["promptId" := Str(promptId)]))
    ensures r.1.Failed? ==> StartsWith(r.1.message, "Failed to increment prompt usage: ")
    ensures SendApiRequest(reply).Failed? ==> r.1 == Failed("Failed to increment prompt usage: " + SendApiRequest(reply).message)
    ensures r.1.Stuck? <==> SendApiRequest(reply).Stuck?
    ensures r.1.Done? <==>
      var sent := SendApiRequest(reply);
      sent.Done? && Readable(sent.value) && Truthy(Get(sent.value, "success"))
    ensures r.1.Done? ==> r.1.value == Undefined
    ensures var sent := SendApiRequest(reply);
      sent.Done? && Readable(sent.value) && !r.1.Done? ==>
        r.1 == Failed("Failed to increment prompt usage: "
                      + ToText(Or(Get(sent.value, "message"), Str("Failed to increment prompt usage"))))
  {
    (ApiCall(apiBase + "/api/prompts/use", "POST", Obj(map["promptId" := Str(promptId)])),
     Rethrow("Failed to increment prompt usage: ",
       Then(SendApiRequest(reply), (data: Value) => Then(RequireSuccess(data, "Failed to increment prompt usage"), _ => Done(Undefined)))))
  }

  /** `deletePrompt`: posts `{ id }`, throws when `success` is falsy, and otherwise resolves with nothing. */
  function DeletePrompt(apiBase: string, promptId: string, reply: ChannelReply): (r: (ApiCall, Outcome<Value>))
    ensures r.0 == ApiCall(apiBase + "/api/prompts/delete", "POST", Obj(map["id" := Str(promptId)]))
    ensures r.1.Failed? ==> StartsWith(r.1.message, "Failed to delete prompt: ")
    ensures SendApiRequest(reply).Failed? ==> r.1 == Failed("Failed to delete prompt: " + SendApiRequest(reply).message)
    ensures r.1.Stuck? <==> SendApiRequest(reply).Stuck?
    ensures r.1.Done? <==>
      var sent := SendApiRequest(reply);
      sent.Done? && Readable(sent.value) && Truthy(Get(sent.value, "success"))
    ensures r.1.Done? ==> r.1.value == Undefined
    ensures var sent := SendApiRequest(reply);
      sent.Done? && Readable(sent.value) && !r.1.Done? ==>
        r.1 == Failed("Failed to delete prompt: " + ToText(Or(Get(sent.value, "message"), Str("Failed to delete prompt"))))
  {
    (ApiCall(apiBase + "/api/prompts/delete", "POST", Obj(map["id" := Str(promptId)])),
     Rethrow("Failed to delete prompt: ",
       Then(SendApiRequest(reply), (data: Value) => Then(RequireSuccess(data, "Failed to delete prompt"), _ => Done(Undefined)))))
  }

  /** A reply with `success: false` and no message rejects with the default message. */
  lemma IncrementRejected(apiBase: string, promptId: string)
    ensures IncrementPromptUsage(apiBase, promptId, Response(Obj(map["data" := Obj(map["success" := Bool(false)])]))).1
      == Failed("Failed to increment prompt usage: " + "Failed to increment prompt usage")
  {
    var data := Obj(map["success" := Bool(false)]);
    assert SendApiRequest(Response(Obj(map["data" := data]))) == Done(data);
    assert RequireSuccess(data, "Failed to increment prompt usage") == Failed("Failed to increment prompt usage");
  }

  // ---------------------------------------------------------------------
  // createPrompt / updatePrompt
  // ---------------------------------------------------------------------

  /** The overrides `createPrompt`/`updatePrompt` apply to the returned prompt. */
  function PromptOverrides(p: Value): map<string, Value>
    requires Readable(p)
  {
    map["createdAt" := Date(Get(p, "createdAt")),
        "updatedAt" := Date(Get(p, "updatedAt")),
        "tags" := Or(Get(p, "tags"), Arr([])),
        "isPublic" := Or(Get(p, "isPublic"), Bool(false)),
        "useCount" := Or(Get(p, "useCount"), Num(0))]
  }

  /** `{ ...p, createdAt: new Date(..), updatedAt: new Date(..), tags: p.tags || [], isPublic: p.isPublic || false, useCount: p.useCount || 0 }`. */
  function NormalizePrompt(p: Value): (r: Value)
    requires Readable(p)
    ensures r.Obj?
  {
    Obj(Spread(OwnProps(p), PromptOverrides(p)))
  }

  /**
   * A returned prompt keeps every other property of the server's object,
   * and always has its tags, visibility and use count: the server's when
   * truthy, else `[]`, `false` and `0`.
   */
  lemma NormalizePromptSpec(p: Value)
    requires Readable(p)
    ensures var r := NormalizePrompt(p).props;
      && (forall k :: k in OwnProps(p) && k !in PromptOverrides(p) ==> k in r && r[k] == OwnProps(p)[k])
      && r["tags"] == (if Truthy(Get(p, "tags")) then Get(p, "tags") else Arr([]))
      && r["isPublic"] == (if Truthy(Get(p, "isPublic")) then Get(p, "isPublic") else Bool(false))
      && r["useCount"] == (if Truthy(Get(p, "useCount")) then Get(p, "useCount") else Num(0))
      && r["createdAt"].Date? && r["updatedAt"].Date?
  {
  }

  /** The prompt in a successful reply, normalised; a missing prompt throws a TypeError. */
  function PromptFromReply(data: Value, fallback: string): Outcome<Value> {
    match RequireSuccess(data, fallback)
    case Done(d) => if Readable(Get(d, "data")) then Done(NormalizePrompt(Get(d, "data"))) else Failed(TypeErrorMessage)
    case Failed(m) => Failed(m)
    case Stuck => Stuck
  }

  /** `createPrompt`: posts the prompt data as given, and returns the normalised created prompt. */
  function CreatePrompt(apiBase: string, promptData: Value, reply: ChannelReply): (r: (ApiCall, Outcome<Value>))
    ensures r.0 == ApiCall(apiBase + "/api/prompts/create", "POST", promptData)
    ensures r.1.Failed? ==> StartsWith(r.1.message, "Failed to create prompt: ")
    ensures SendApiRequest(reply).Failed? ==> r.1 == Failed("Failed to create prompt: " + SendApiRequest(reply).message)
    ensures r.1.Stuck? <==> SendApiRequest(reply).Stuck?
    ensures r.1.Done? <==>
      var sent := SendApiRequest(reply);
      sent.Done? && Readable(sent.value) && Truthy(Get(sent.value, "success")) && Readable(Get(sent.value, "data"))
    ensures r.1.Done? ==> r.1.value == NormalizePrompt(Get(SendApiRequest(reply).value, "data"))
  {
    (ApiCall(apiBase + "/api/prompts/create", "POST", promptData),
     Rethrow("Failed to create prompt: ",
       Then(SendApiRequest(reply), (data: Value) => PromptFromReply(data, "Failed to create prompt"))))
  }

  /** The body of `updatePrompt`: `{ id: promptId, ...updateData }`. */
  function UpdateBody(promptId: string, updateData: Value): (body: Value)
    ensures body.Obj? && "id" in body.props
    ensures "id" !in OwnProps(updateData) ==> body.props["id"] == Str(promptId)
    ensures forall k :: k in OwnProps(updateData) ==> k in body.props && body.props[k] == OwnProps(updateData)[k]
  {
    Obj(Spread(map["id" := Str(promptId)], OwnProps(updateData)))
  }

  /** `updatePrompt`: posts the id with the changed fields, and returns the normalised updated prompt. */
  function UpdatePrompt(apiBase: string, promptId: string, updateData: Value, reply: ChannelReply): (r: (ApiCall, Outcome<Value>))
    ensures r.0 == ApiCall(apiBase + "/api/prompts/update", "POST", UpdateBody(promptId, updateData))
    ensures r.1.Failed? ==> StartsWith(r.1.message, "Failed to update prompt: ")
    ensures SendApiRequest(reply).Failed? ==> r.1 == Failed("Failed to update prompt: " + SendApiRequest(reply).message)
    ensures r.1.Stuck? <==> SendApiRequest(reply).Stuck?
    ensures r.1.Done? <==>
      var sent := SendApiRequest(reply);
      sent.Done? && Readable(sent.value) && Truthy(Get(sent.value, "success")) && Readable(Get(sent.value, "data"))
    ensures r.1.Done? ==> r.1.value == NormalizePrompt(Get(SendApiRequest(reply).value, "data"))
  {
    (ApiCall(apiBase + "/api/prompts/update", "POST", UpdateBody(promptId, updateData)),
     Rethrow("Failed to update prompt: ",
       Then(SendApiRequest(reply), (data: Value) => PromptFromReply(data, "Failed to update prompt"))))
  }

  // ---------------------------------------------------------------------
  // fetchPromptTags
  // ---------------------------------------------------------------------

  /** `PromptTag`. */
  datatype TagCount = TagCount(name: Value, count: Value)

  /** `items.map(tag => ({ name: tag.name, count: tag.count }))`; `None` when an item is null or undefined. */
  function MapTags(items: seq<Value>): Option<seq<TagCount>> {
    if items == [] then Some([])
    else if !Readable(items[0]) then None
    else
      match MapTags(items[1..])
      case None => None
      case Some(rest) => Some([TagCount(Get(items[0], "name"), Get(items[0], "count"))] + rest)
  }

  /** The mapping keeps every item, in order, and fails exactly when some item cannot be read. */
  lemma {:induction false} MapTagsSpec(items: seq<Value>)
    ensures MapTags(items).Some? <==> forall i :: 0 <= i < |items| ==> Readable(items[i])
    ensures MapTags(items).Some? ==>
      (|MapTags(items).value| == |items|
       && forall i :: 0 <= i < |items| ==> MapTags(items).value[i] == TagCount(Get(items[i], "name"), Get(items[i], "count")))
  {
    if items != [] {
      MapTagsSpec(items[1..]);
      if MapTags(items).Some? {
        var r := MapTags(items).value;
        forall i | 0 <= i < |items|
          ensures Readable(items[i]) && r[i] == TagCount(Get(items[i], "name"), Get(items[i], "count"))
        {
          if i > 0 {
            assert items[i] == items[1..][i - 1];
          }
        }
      } else if Readable(items[0]) {
        var i :| 0 <= i < |items[1..]| && !Readable(items[1..][i]);
        assert items[i + 1] == items[1..][i];
      }
    }
  }

  /** `FetchPromptTagsResponse`. */
  datatype TagsResult = TagsResult(tags: seq<TagCount>, message: Value)

  /** The tags of a successful reply: mapped when `data.data` is an array, `[]` otherwise. */
  function TagsFromReply(data: Value): Outcome<TagsResult> {
    match DataOrThrow(data)
    case Done(list) =>
      if list.Arr? then
        match MapTags(list.items)
        case Some(tags) => Done(TagsResult(tags, Get(data, "message")))
        case None => Failed(TypeErrorMessage)
      else Done(TagsResult([], Get(data, "message")))
    case Failed(m) => Failed(m)
    case Stuck => Stuck
  }

  /** `fetchPromptTags`. */
  function FetchPromptTags(apiBase: string, reply: ChannelReply): (r: (ApiCall, Outcome<TagsResult>))
    ensures r.0 == ApiCall(apiBase + "/api/prompts/tags", "GET", Undefined)
    ensures r.1.Failed? ==> StartsWith(r.1.message, "Failed to fetch prompt tags: ")
    ensures SendApiRequest(reply).Failed? ==> r.1 == Failed("Failed to fetch prompt tags: " + SendApiRequest(reply).message)
    ensures r.1.Stuck? <==> SendApiRequest(reply).Stuck?
    ensures r.1.Done? ==>
      var sent := SendApiRequest(reply);
      && sent.Done? && DataOrThrow(sent.value).Done?
      && r.1.value.message == Get(sent.value, "message")
      && (!Get(sent.value, "data").Arr? ==> r.1.value.tags == [])
    ensures r.1.Done? <==>
      var sent := SendApiRequest(reply);
      && sent.Done? && Readable(sent.value) && Truthy(Get(sent.value, "success")) && Truthy(Get(sent.value, "data"))
      && (Get(sent.value, "data").Arr? ==> forall i :: 0 <= i < |Get(sent.value, "data").items| ==> Readable(Get(sent.value, "data").items[i]))
    ensures var sent := SendApiRequest(reply);
      sent.Done? && Readable(sent.value) && !(Truthy(Get(sent.value, "success")) && Truthy(Get(sent.value, "data"))) ==>
        r.1 == Failed("Failed to fetch prompt tags: " + ToText(Or(Get(sent.value, "message"), Str("Invalid response format"))))
  {
    (ApiCall(apiBase + "/api/prompts/tags", "GET", Undefined),
     Rethrow("Failed to fetch prompt tags: ",
       match SendApiRequest(reply)
       case Done(data) => TagsResolve(data); TagsFromReply(data)
       case Failed(m) => Failed(m)
       case Stuck => Stuck))
  }

  /** A reply's tags resolve exactly when it is successful with data, and every item of array data can be read. */
  lemma TagsResolve(data: Value)
    ensures TagsFromReply(data).Done? <==>
      && Readable(data) && Truthy(Get(data, "success")) && Truthy(Get(data, "data"))
      && (Get(data, "data").Arr? ==> forall i :: 0 <= i < |Get(data, "data").items| ==> Readable(Get(data, "data").items[i]))
  {
    if Readable(data) && Get(data, "data").Arr? {
      MapTagsSpec(Get(data, "data").items);
    }
  }

  /** A successful reply whose `data` is not an array yields no tags. */
  lemma TagsNotArray(data: Value)
    requires Readable(data) && Truthy(Get(data, "success")) && Truthy(Get(data, "data")) && !Get(data, "data").Arr?
    ensures TagsFromReply(data) == Done(TagsResult([], Get(data, "message")))
  {
  }

  /**
   * A successful reply whose `data` is an array yields one tag per item, in
   * order, with the item's name and count; it rejects exactly when some
   * item is null or undefined.
   */
  lemma FetchedTagsInOrder(apiBase: string, reply: ChannelReply)
    requires SendApiRequest(reply).Done? && DataOrThrow(SendApiRequest(reply).value).Done?
    requires Get(SendApiRequest(reply).value, "data").Arr?
    ensures var items := Get(SendApiRequest(reply).value, "data").items;
      var r := FetchPromptTags(apiBase, reply).1;
      && (r.Done? <==> forall i :: 0 <= i < |items| ==> Readable(items[i]))
      && (r.Done? ==>
            |r.value.tags| == |items|
            && forall i :: 0 <= i < |items| ==> r.value.tags[i] == TagCount(Get(items[i], "name"), Get(items[i], "count")))
      && (r.Failed? ==> r.message == "Failed to fetch prompt tags: " + TypeErrorMessage)
  {
    MapTagsSpec(Get(SendApiRequest(reply).value, "data").items);
  }
}

=== FILE: background.dfy ===
/**
 * The extension's background service worker (chrome/background.js): the
 * in-memory token and base URL that storage listeners keep up to date, the
 * message dispatcher, the `/p<N>` index resolver with its two response
 * envelopes, URL completion for relayed API requests, the Mac shortcut
 * rewrite, the quick-import request, and the shortcut conflict scan.
 */
module Background {
  import opened Wrappers
  import opened Strings
  import opened JsValues

  // ------------------------------------------------------- index resolver

  datatype PromptItem = PromptItem(id: string, title: string, content: string)

  /**
   * The list endpoint's JSON reduced to the two shapes the resolver accepts:
   * a top-level `prompts` array, and a `prompts` array under `data`.  None
   * means the field is absent or not an array.
   */
  datatype ListEnvelope = ListEnvelope(flat: Option<seq<PromptItem>>, nested: Option<seq<PromptItem>>)

  /** The reply sent back for `getPromptByIndex`: `{success: true, content}` or `{success: false, error}`. */
  datatype IndexAnswer = Found(content: string) | Failed(error: string)

  const NoTokenError: string := "No authentication token"
  const NoPromptsError: string := "Failed to retrieve prompts from API"
  const ListPath: string := "/api/prompts/list?page=1&limit=100&sortBy=useCount&sortOrder=desc"

  /** The message for an index outside `0 .. count - 1`, with the range printed as `0-(count - 1)`. */
  function OutOfRange(index: int, count: nat): string {
    "Prompt index " + IntToString(index) + " is out of range. Available range: 0-" + IntToString(count - 1)
  }

  /** The prompt list the resolver uses: the flat one when present, else the nested one. */
  function Chosen(result: ListEnvelope): Option<seq<PromptItem>> {
    if result.flat.Some? then result.flat else result.nested
  }

  /** `handlePromptResponse`: the `index`-th prompt's content, or why there is none. */
  function HandlePromptResponse(result: ListEnvelope, index: int): (a: IndexAnswer)
    ensures a.Found? <==> Chosen(result).Some? && 0 <= index < |Chosen(result).value|
    ensures a.Found? ==> a.content == Chosen(result).value[index].content
    ensures Chosen(result).None? ==> a == Failed(NoPromptsError)
    ensures Chosen(result).Some? && !(0 <= index < |Chosen(result).value|) ==>
      a == Failed(OutOfRange(index, |Chosen(result).value|))
  {
    if result.flat.Some? then Pick(result.flat.value, index)
    else if result.nested.Some? then Pick(result.nested.value, index)
    else Failed(NoPromptsError)
  }

  function Pick(prompts: seq<PromptItem>, index: int): IndexAnswer {
    if 0 <= index < |prompts| then Found(prompts[index].content)
    else Failed(OutOfRange(index, |prompts|))
  }

  /** When both envelopes are present the flat one decides, whatever the nested one holds. */
  lemma FlatEnvelopeWins(flat: seq<PromptItem>, nested: Option<seq<PromptItem>>, index: int)
    ensures HandlePromptResponse(ListEnvelope(Some(flat), nested), index)
         == HandlePromptResponse(ListEnvelope(Some(flat), None), index)
  {
  }

  /** An empty list reports the range `0--1`. */
  lemma EmptyListRange(index: int)
    ensures HandlePromptResponse(ListEnvelope(Some([]), None), index)
         == Failed("Prompt index " + IntToString(index) + " is out of range. Available range: 0--1")
  {
    assert IntToString(-1) == "-" + NatToString(1) == "-1";
  }

  // ------------------------------------------------------ messages

  /** A command as `chrome.commands.getAll` lists it; an empty shortcut means unbound. */
  datatype ExtCommand = ExtCommand(name: string, description: string, shortcut: string)

  /** One detected clash: our command and another command bound to the same keys. */
  datatype Conflict = Conflict(ours: ExtCommand, other: ExtCommand)

  /** Messages the worker answers. `Unknown` carries any other action name. */
  datatype Message =
    | GetAuthToken
    | SetAuthToken(token: Option<string>)
    | ApiRequest(url: string, verb: string, data: Value)
    | FillInput(selector: string, content: string)
    | GetPromptByIndex(index: int)
    | Unknown(action: string)

  /**
   * A request the worker sends to the server: the URL, the verb, the
   * `Authorization` header and the JSON body (`Undefined` for none).
   */
  datatype HttpRequest = HttpRequest(url: string, verb: string, authorization: string, body: Value)

  /** What the worker answers through `sendResponse`. */
  datatype Reply =
    | TokenReply(token: Option<string>)
    | Saved
    | ApiData(data: Value)
    | ApiError(error: string)
    | IndexReply(answer: IndexAnswer)
    | FillRelayed(selector: string, content: string)
    | UnknownAction

  /** Outcome of a server round trip: the parsed body, or the message of what was thrown. */
  type Fetched<T> = Result<T, string>

  /** The `Alt` to `Cmd` rewrite applied on Mac to a displayed shortcut. */
  function MacShortcut(shortcut: string): string {
    ReplaceFirst(shortcut, "Alt", "Cmd")
  }

  /** The base URL a stored extension config yields: its `WEB_APP_BASE_URL` when non-empty, else `http://localhost`. */
  function ConfiguredBaseUrl(webAppBaseUrl: Option<string>): (r: string)
    ensures webAppBaseUrl.Some? && webAppBaseUrl.value != "" ==> r == webAppBaseUrl.value
    ensures webAppBaseUrl.None? || webAppBaseUrl.value == "" ==> r == "http://localhost"
  {
    if webAppBaseUrl.Some? && webAppBaseUrl.value != "" then webAppBaseUrl.value else "http://localhost"
  }

  /** The quick-import title: `Quickly: ` and the first 15 characters of the trimmed selection. */
  function QuickImportTitle(content: string): (title: string)
    ensures StartsWith(title, "Quickly: ")
    ensures |title| == 9 + if |Trim(content)| < 15 then |Trim(content)| else 15
    ensures title[9..] == Trim(content)[..|title| - 9]
  {
    "Quickly: " + Take(Trim(content), 15)
  }

  /** Padding around the selection never reaches the title. */
  lemma QuickImportTitleIgnoresPadding(a: string, s: string, b: string)
    requires IsBlank(a) && IsBlank(b)
    requires s == [] || (!IsSpace(s[0]) && !IsSpace(s[|s| - 1]))
    ensures QuickImportTitle(a + s + b) == QuickImportTitle(s)
  {
    TrimPadded(a, s, b);
    TrimUnpadded(s);
  }

  // ------------------------------------------------------- conflicts

  predicate Clashes(ours: ExtCommand, other: ExtCommand) {
    ours.shortcut != "" && other.name != ours.name && other.shortcut != "" && other.shortcut == ours.shortcut
  }

  /** The conflicts one command has with the listed commands, in list order. */
  function ClashesOf(ours: ExtCommand, all: seq<ExtCommand>): seq<Conflict> {
    if all == [] then []
    else ClashesOf(ours, all[..|all| - 1]) + (if Clashes(ours, all[|all| - 1]) then [Conflict(ours, all[|all| - 1])] else [])
  }

  /** All conflicts, outer loop over our commands, inner loop over all commands. */
  function AllClashes(commands: seq<ExtCommand>, all: seq<ExtCommand>): seq<Conflict> {
    if commands == [] then []
    else AllClashes(commands[..|commands| - 1], all) + ClashesOf(commands[|commands| - 1], all)
  }

  lemma {:induction false} ClashesOfMembers(ours: ExtCommand, all: seq<ExtCommand>, c: Conflict)
    ensures c in ClashesOf(ours, all) <==> c.ours == ours && c.other in all && Clashes(ours, c.other)
  {
    if all != [] {
      ClashesOfMembers(ours, all[..|all| - 1], c);
      assert all == all[..|all| - 1] + [all[|all| - 1]];
    }
  }

  /** The scan reports a pair exactly when the two commands are distinct by name and share a non-empty shortcut. */
  lemma {:induction false} AllClashesMembers(commands: seq<ExtCommand>, all: seq<ExtCommand>, c: Conflict)
    ensures c in AllClashes(commands, all) <==> c.ours in commands && c.other in all && Clashes(c.ours, c.other)
  {
    if commands != [] {
      var last := commands[|commands| - 1];
      AllClashesMembers(commands[..|commands| - 1], all, c);
      ClashesOfMembers(last, all, c);
      assert commands == commands[..|commands| - 1] + [last];
    }
  }

  /** A command is never reported as clashing with itself. */
  lemma NoSelfClash(commands: seq<ExtCommand>, c: Conflict)
    requires c in AllClashes(commands, commands)
    ensures c.ours.name != c.other.name
  {
    AllClashesMembers(commands, commands, c);
  }

  /** One more step of the inner loop. */
  lemma ClashesOfSnoc(ours: ExtCommand, all: seq<ExtCommand>, j: nat)
    requires j < |all|
    ensures ClashesOf(ours, all[..j + 1])
      == ClashesOf(ours, all[..j]) + (if Clashes(ours, all[j]) then [Conflict(ours, all[j])] else [])
  {
    assert all[..j + 1][..j] == all[..j];
  }

  /** One more step of the outer loop. */
  lemma AllClashesSnoc(commands: seq<ExtCommand>, i: nat)
    requires i < |commands|
    ensures AllClashes(commands[..i + 1], commands) == AllClashes(commands[..i], commands) + ClashesOf(commands[i], commands)
  {
    assert commands[..i + 1][..i] == commands[..i];
  }

  /** `checkKeyboardShortcutConflicts`: the nested loops that push each clash. */
  method CheckShortcutConflicts(commands: seq<ExtCommand>) returns (conflicts: seq<Conflict>)
    ensures conflicts == AllClashes(commands, commands)
  {
    conflicts := [];
    var i := 0;
    while i < |commands|
      invariant 0 <= i <= |commands|
      invariant conflicts == AllClashes(commands[..i], commands)
    {
      var command := commands[i];
      if command.shortcut != "" {
        ghost var before := conflicts;
        var j := 0;
        while j < |commands|
          invariant 0 <= j <= |commands|
          invariant conflicts == before + ClashesOf(command, commands[..j])
        {
          var other := commands[j];
          ClashesOfSnoc(command, commands, j);
          if other.name != command.name && other.shortcut != "" && other.shortcut == command.shortcut {
            conflicts := conflicts + [Conflict(command, other)];
          }
          j := j + 1;
        }
        assert commands[..|commands|] == commands;
      } else {
        NoClashesWhenUnbound(command, commands);
      }
      AllClashesSnoc(commands, i);
      i := i + 1;
    }
    assert commands[..i] == commands;
  }

  lemma {:induction false} NoClashesWhenUnbound(ours: ExtCommand, all: seq<ExtCommand>)
    requires ours.shortcut == ""
    ensures ClashesOf(ours, all) == []
  {
    if all != [] {
      NoClashesWhenUnbound(ours, all[..|all| - 1]);
    }
  }

  // ------------------------------------------------------- the worker

  class Worker {
    /** The token read from storage or set by a message; None or empty means signed out. */
    var authToken: Option<string>
    /** None until the stored extension config has been read (JavaScript `null`). */
    var baseUrl: Option<string>
    /** The `os` of `getPlatformInfo`, None until it has answered. */
    var platformOs: Option<string>

    constructor ()
      ensures authToken == None && baseUrl == None && platformOs == None
    {
      authToken, baseUrl, platformOs := None, None, None;
    }

    predicate HasToken()
      reads this
    {
      authToken.Some? && authToken.value != ""
    }

    predicate IsMac()
      reads this
    {
      platformOs == Some("mac")
    }

    /** `${baseUrl}` as a template literal prints it: `null` before the config is read. */
    function BaseText(): string
      reads this
    {
      if baseUrl.Some? then baseUrl.value else "null"
    }

    /** `getPlatformShortcut`: unchanged off Mac, first `Alt` turned into `Cmd` on Mac. */
    function PlatformShortcut(shortcut: string): (r: string)
      reads this
      ensures !IsMac() ==> r == shortcut
      ensures IsMac() && !Contains(shortcut, "Alt") ==> r == shortcut
      ensures IsMac() && Contains(shortcut, "Alt") ==>
        exists k | 0 <= k <= |shortcut| - 3 :: FirstOccurrence(shortcut, "Alt", k) && r == shortcut[..k] + "Cmd" + shortcut[k + 3..]
    {
      if IsMac() then MacShortcut(shortcut) else shortcut
    }

    /** The URL a relayed API request goes to: kept when it starts with `http`, else prefixed with the base URL. */
    function FullUrl(url: string): (r: string)
      reads this
      ensures StartsWith(url, "http") ==> r == url
      ensures !StartsWith(url, "http") ==> r == BaseText() + url && EndsWith(r, url)
    {
      if StartsWith(url, "http") then url else BaseText() + url
    }

    /** The storage read at start-up. */
    method LoadStored(token: Option<string>, webAppBaseUrl: Option<string>)
      modifies this
      ensures authToken == token && baseUrl == Some(ConfiguredBaseUrl(webAppBaseUrl))
      ensures platformOs == old(platformOs)
    {
      authToken := token;
      baseUrl := Some(ConfiguredBaseUrl(webAppBaseUrl));
    }

    /**
     * The `storage.onChanged` listener.  `tokenChange` / `configChange` are
     * Some when that key changed (carrying the new value); changes outside
     * the `local` area are ignored.
     */
    method OnStorageChanged(local: bool, tokenChange: Option<Option<string>>, configChange: Option<Option<string>>)
      modifies this
      ensures authToken == if local && tokenChange.Some? then tokenChange.value else old(authToken)
      ensures baseUrl == if local && configChange.Some? then Some(ConfiguredBaseUrl(configChange.value)) else old(baseUrl)
      ensures platformOs == old(platformOs)
    {
      if local && tokenChange.Some? {
        authToken := tokenChange.value;
      }
      if local && configChange.Some? {
        baseUrl := Some(ConfiguredBaseUrl(configChange.value));
      }
    }

    /** `getPlatformInfo` resolving (Some os) or failing (None, which defaults to Windows). */
    method OnPlatformInfo(os: Option<string>)
      modifies this
      ensures platformOs == Some(if os.Some? then os.value else "win")
      ensures authToken == old(authToken) && baseUrl == old(baseUrl)
    {
      platformOs := Some(if os.Some? then os.value else "win");
    }

    /**
     * `getPromptByIndex`: no request and an error without a token; otherwise
     * the fixed list query, and the resolver's answer (or the thrown message).
     */
    function PromptByIndex(index: int, fetched: Fetched<ListEnvelope>): (r: (Option<string>, IndexAnswer))
      reads this
      ensures !HasToken() ==> r == (None, Failed(NoTokenError))
      ensures HasToken() ==> r.0 == Some(BaseText() + ListPath)
      ensures HasToken() && fetched.Ok? ==> r.1 == HandlePromptResponse(fetched.value, index)
      ensures HasToken() && fetched.Err? ==> r.1 == Failed(fetched.error)
    {
      if !HasToken() then (None, Failed(NoTokenError))
      else (Some(BaseText() + ListPath),
            match fetched
            case Ok(envelope) => HandlePromptResponse(envelope, index)
            case Err(message) => Failed(message))
    }

    /**
     * `handleApiRequest`: no request without a token; otherwise the
     * completed URL, the bearer token, the message's data as the body only
     * when it is truthy, and the relayed body or error.
     */
    function ApiRequestReply(url: string, verb: string, data: Value, fetched: Fetched<Value>): (r: (Option<HttpRequest>, Reply))
      reads this
      ensures !HasToken() ==> r == (None, ApiError(NoTokenError))
      ensures HasToken() ==> r.0 == Some(HttpRequest(FullUrl(url), verb, "Bearer " + authToken.value, if Truthy(data) then data else Undefined))
      ensures HasToken() ==> r.1 == if fetched.Ok? then ApiData(fetched.value) else ApiError(fetched.error)
    {
      if !HasToken() then (None, ApiError(NoTokenError))
      else (Some(HttpRequest(FullUrl(url), verb, "Bearer " + authToken.value, if Truthy(data) then data else Undefined)),
            if fetched.Ok? then ApiData(fetched.value) else ApiError(fetched.error))
    }

    /** `quickImportPrompt`: nothing without a token; otherwise a create request with the trimmed-title rule. */
    function QuickImportRequest(content: string): (r: Option<HttpRequest>)
      reads this
      ensures r.None? <==> !HasToken()
      ensures r.Some? ==> r.value.url == BaseText() + "/api/prompts/create" && r.value.verb == "POST"
      ensures r.Some? ==> r.value.authorization == "Bearer " + authToken.value
      ensures r.Some? ==> r.value.body == Obj(map[
        "title" := Str(QuickImportTitle(content)),
        "content" := Str(content),
        "description" := Str("Quickly imported from browser selection")])
    {
      if !HasToken() then None
      else Some(HttpRequest(BaseText() + "/api/prompts/create", "POST", "Bearer " + authToken.value, Obj(map[
        "title" := Str(QuickImportTitle(content)),
        "content" := Str(content),
        "description" := Str("Quickly imported from browser selection")])))
    }

    /**
     * `handleIncomingMessage`.  Only `setAuthToken` changes the worker.
     * `fetchedList` / `fetchedApi` are what the server round trips give.
     */
    method HandleMessage(message: Message, fetchedList: Fetched<ListEnvelope>, fetchedApi: Fetched<Value>)
      returns (request: Option<HttpRequest>, reply: Reply)
      modifies this
      ensures message.SetAuthToken? ==> authToken == message.token && reply == Saved && request.None?
      ensures !message.SetAuthToken? ==> authToken == old(authToken)
      ensures baseUrl == old(baseUrl) && platformOs == old(platformOs)
      ensures message.GetAuthToken? ==> reply == TokenReply(old(authToken)) && request.None?
      ensures message.ApiRequest? ==>
        (request, reply) == ApiRequestReply(message.url, message.verb, message.data, fetchedApi)
      ensures message.GetPromptByIndex? ==>
        reply == IndexReply(PromptByIndex(message.index, fetchedList).1)
        && request == (if HasToken() then Some(HttpRequest(BaseText() + ListPath, "GET", "Bearer " + authToken.value, Undefined)) else None)
      ensures message.FillInput? ==> reply == FillRelayed(message.selector, message.content) && request.None?
      ensures message.Unknown? ==> reply == UnknownAction && request.None?
    {
      request := None;
      match message {
        case GetAuthToken =>
          reply := TokenReply(authToken);
        case SetAuthToken(token) =>
          authToken := token;
          reply := Saved;
        case ApiRequest(url, verb, data) =>
          var r := ApiRequestReply(url, verb, data, fetchedApi);
          request, reply := r.0, r.1;
        case FillInput(selector, content) =>
          reply := FillRelayed(selector, content);
        case GetPromptByIndex(index) =>
          var r := PromptByIndex(index, fetchedList);
          if r.0.Some? {
            request := Some(HttpRequest(r.0.value, "GET", "Bearer " + authToken.value, Undefined));
          }
          reply := IndexReply(r.1);
        case Unknown(_) =>
          reply := UnknownAction;
      }
    }
  }

  /** An index the detector produced from `/pN` with `N` in `1 .. |prompts|` finds prompt `N - 1`. */
  lemma CommandIndexFound(prompts: seq<PromptItem>, n: nat)
    requires 1 <= n <= |prompts|
    ensures HandlePromptResponse(ListEnvelope(Some(prompts), None), n - 1) == Found(prompts[n - 1].content)
  {
  }
}

=== FILE: command.dfy ===
/**
 * The inline `/p<N>` command.  Both the browser content script and the
 * desktop main process look for the same end-anchored pattern `\/p(\d+)$`
 * (no multi-line flag, so `$` is the very end of the text), turn the digits
 * into a 0-based prompt index with `parseInt(digits) - 1`, and strip the
 * match with `text.replace(pattern, '')`.
 */
module Command {
  import opened Wrappers
  import opened Strings

  /** A successful match: the text before the command, the digit run, and the prompt index. */
  datatype CommandMatch = CommandMatch(stripped: string, digits: string, index: int)

  /** The pattern matches `text` starting at position `k`: `/p` at `k`, then only digits (at least one) to the end. */
  predicate MatchesAt(text: string, k: int) {
    0 <= k && k + 2 < |text| && text[k] == '/' && text[k + 1] == 'p' && AllDigits(text[k + 2..])
  }

  /** Length of the longest run of digits that ends the text. */
  function TrailingDigitCount(s: string): (n: nat)
    ensures n <= |s|
  {
    if s == [] || !IsDigit(s[|s| - 1]) then 0
    else TrailingDigitCount(s[..|s| - 1]) + 1
  }

  /** `TrailingDigitCount` counts a run of digits that ends the text and cannot be extended. */
  lemma {:induction false} TrailingDigitCountSpec(s: string)
    ensures var n := TrailingDigitCount(s);
      AllDigits(s[|s| - n..]) && (n < |s| ==> !IsDigit(s[|s| - n - 1]))
  {
    if s != [] && IsDigit(s[|s| - 1]) {
      var p := s[..|s| - 1];
      TrailingDigitCountSpec(p);
      var n := TrailingDigitCount(p);
      assert s[|s| - (n + 1)..] == p[|p| - n..] + [s[|s| - 1]];
      assert n < |p| ==> s[|s| - (n + 1) - 1] == p[|p| - n - 1];
    }
  }

  /**
   * `text.match(/\/p(\d+)$/)` together with the index and the stripped text:
   * the text before the match, the digits and their value minus one.
   */
  function Detect(text: string): (r: Option<CommandMatch>)
    ensures r.Some? ==> text == r.value.stripped + "/p" + r.value.digits
  {
    var n := TrailingDigitCount(text);
    var k := |text| - n - 2;
    if n > 0 && k >= 0 && text[k] == '/' && text[k + 1] == 'p' then
      var stripped, digits := text[..k], text[k + 2..];
      assert text == stripped + "/p" + digits;
      TrailingDigitCountSpec(text);
      Some(CommandMatch(stripped, digits, DecimalValue(digits) - 1))
    else
      None
  }

  /** A detected command is a match of the pattern, and its index is the number typed minus one. */
  lemma DetectSound(text: string)
    ensures var r := Detect(text);
      r.Some? ==>
        && r.value.digits != [] && AllDigits(r.value.digits)
        && r.value.index == DecimalValue(r.value.digits) - 1
        && MatchesAt(text, |r.value.stripped|)
  {
    TrailingDigitCountSpec(text);
  }

  /** `Detect` finds nothing exactly when the pattern matches nowhere. */
  lemma DetectComplete(text: string)
    ensures Detect(text).None? <==> forall k :: !MatchesAt(text, k)
  {
    if Detect(text).None? {
      forall k | MatchesAt(text, k)
        ensures false
      {
        MatchUsesWholeDigitRun(text, k);
      }
    } else {
      DetectSound(text);
    }
  }

  /** Every match ends in a digit run that is the whole trailing run of digits. */
  lemma MatchUsesWholeDigitRun(text: string, k: int)
    requires MatchesAt(text, k)
    ensures k == |text| - TrailingDigitCount(text) - 2
  {
    assert text[|text| - (|text| - k - 2)..] == text[k + 2..];
    TrailingDigitsCounted(text, |text| - k - 2);
    TrailingDigitsBound(text, k + 1);
  }

  /** A run of `m` digits ending the text is counted. */
  lemma {:induction false} TrailingDigitsCounted(s: string, m: nat)
    requires m <= |s| && AllDigits(s[|s| - m..])
    ensures TrailingDigitCount(s) >= m
  {
    if m > 0 {
      assert IsDigit(s[|s| - 1]) by {
        assert s[|s| - m..][m - 1] == s[|s| - 1];
      }
      var p := s[..|s| - 1];
      assert p[|p| - (m - 1)..] == s[|s| - m..][..m - 1];
      TrailingDigitsCounted(p, m - 1);
    }
  }

  /** The trailing run of digits stops after any character that is not a digit. */
  lemma {:induction false} TrailingDigitsBound(s: string, j: nat)
    requires j < |s| && !IsDigit(s[j])
    ensures TrailingDigitCount(s) <= |s| - j - 1
  {
    if IsDigit(s[|s| - 1]) {
      var p := s[..|s| - 1];
      assert p[j] == s[j];
      TrailingDigitsBound(p, j);
    }
  }

  /** The pattern can match at one position at most. */
  lemma MatchIsUnique(text: string, j: int, k: int)
    requires MatchesAt(text, j) && MatchesAt(text, k)
    ensures j == k
  {
    MatchUsesWholeDigitRun(text, j);
    MatchUsesWholeDigitRun(text, k);
  }

  /**
   * Any text of the form `before + "/p" + digits` is detected with exactly that
   * split, whatever `before` holds (even another `/p` command).
   */
  lemma DetectSplit(before: string, digits: string)
    requires digits != [] && AllDigits(digits)
    ensures Detect(before + "/p" + digits) == Some(CommandMatch(before, digits, DecimalValue(digits) - 1))
  {
    var text := before + "/p" + digits;
    var k := |before|;
    SplitParts(text, before, digits);
    assert MatchesAt(text, k);
    DetectComplete(text);
    DetectSound(text);
    var m := Detect(text).value;
    MatchIsUnique(text, |m.stripped|, k);
    SplitParts(text, m.stripped, m.digits);
  }

  /** The parts of `a + "/p" + d`. */
  lemma SplitParts(text: string, a: string, d: string)
    requires text == a + "/p" + d
    ensures |text| == |a| + 2 + |d| && text[..|a|] == a && text[|a|] == '/' && text[|a| + 1] == 'p'
    ensures text[|a| + 2..] == d
  {
  }

  /** Typing `/p` and a number `n` after any text asks for prompt `n - 1` and strips back to that text. */
  lemma DetectNumber(before: string, n: nat)
    ensures Detect(before + "/p" + NatToString(n)) == Some(CommandMatch(before, NatToString(n), n - 1))
  {
    DecimalRoundTrip(n);
    DetectSplit(before, NatToString(n));
  }

  /** `/p1` asks for the first prompt, index 0. */
  lemma FirstPromptExample()
    ensures Detect("/p1") == Some(CommandMatch("", "1", 0))
  {
    assert "" + "/p" + "1" == "/p1";
    DetectSplit("", "1");
  }

  /** Leading zeros are accepted: `/p007` gives index 6. */
  lemma LeadingZerosExample()
    ensures Detect("/p007") == Some(CommandMatch("", "007", 6))
  {
    assert "" + "/p" + "007" == "/p007";
    assert DecimalValue("007") == 7 by {
      assert "007"[..2] == "00" && "00"[..1] == "0" && "0"[..0] == "";
    }
    DetectSplit("", "007");
  }

  /** `/p0` is still a command, with index -1, which no prompt list can satisfy. */
  lemma ZeroExample()
    ensures Detect("/p0") == Some(CommandMatch("", "0", -1))
  {
    assert "" + "/p" + "0" == "/p0";
    DetectSplit("", "0");
  }

  /** Without digits at the very end there is no command: `/p`, `/p3 bar` and a trailing newline defeat the match. */
  lemma NonCommands()
    ensures Detect("/p") == None
    ensures Detect("/p3 bar") == None
    ensures Detect("x/p3\n") == None
  {
    assert TrailingDigitCount("/p") == 0;
    assert TrailingDigitCount("/p3 bar") == 0;
    assert TrailingDigitCount("x/p3\n") == 0;
  }
}

=== FILE: config.dfy ===
/**
 * The desktop renderer's base-URL tables (desktop/src/renderer/src/config.ts):
 * one table per build mode from supported language to web-app base URL, and a
 * default used for anything the table does not list.
 */
module Config {
  import opened Wrappers
  import opened Strings

  /** `DEFAULT_BASE_URL`: the production site, or the local development server. */
  function DefaultBaseUrl(production: bool): string {
    if production then "https://prompt.hubtoday.app" else "http://localhost:3000"
  }

  /** `PRODUCTION_LANGUAGE_BASE_URLS` / `DEVELOPMENT_LANGUAGE_BASE_URLS`. */
  function LanguageBaseUrls(production: bool): map<string, string> {
    if production then
      map["en" := "https://prompt.hubtoday.app",
          "zh-CN" := "https://prompt.hubtoday.app/zh-CN",
          "ja" := "https://prompt.hubtoday.app/ja"]
    else
      map["en" := "http://localhost:3000",
          "zh-CN" := "http://localhost:3000/zh-CN",
          "ja" := "http://localhost:3000/ja"]
  }

  /** `getBaseUrlByLanguage`: the table entry when present and non-empty, else the default. */
  function BaseUrlByLanguage(language: string, production: bool): (url: string)
    ensures language !in LanguageBaseUrls(production) ==> url == DefaultBaseUrl(production)
    ensures language in LanguageBaseUrls(production) ==> url == LanguageBaseUrls(production)[language]
  {
    var urls := LanguageBaseUrls(production);
    if language in urls && urls[language] != "" then urls[language] else DefaultBaseUrl(production)
  }

  /** `getCurrentLanguageBaseUrl`, whose language defaults to `en`. */
  function CurrentLanguageBaseUrl(language: Option<string>, production: bool): (url: string)
    ensures language.None? ==> url == DefaultBaseUrl(production)
    ensures language.Some? ==> url == BaseUrlByLanguage(language.value, production)
  {
    BaseUrlByLanguage(if language.Some? then language.value else "en", production)
  }

  /** Every base URL is the default, or the default followed by `/` and the language. */
  lemma BaseUrlShape(language: string, production: bool)
    ensures var url := BaseUrlByLanguage(language, production);
      url == DefaultBaseUrl(production)
      || (language in {"zh-CN", "ja"} && url == DefaultBaseUrl(production) + "/" + language)
  {
    if language == "zh-CN" {
      assert BaseUrlByLanguage(language, production) == DefaultBaseUrl(production) + "/" + language;
    } else if language == "ja" {
      assert BaseUrlByLanguage(language, production) == DefaultBaseUrl(production) + "/" + language;
    }
  }

  /** The `en` entry is the default in both modes, and so is every base URL's prefix. */
  lemma EnglishIsDefault(language: string, production: bool)
    ensures BaseUrlByLanguage("en", production) == DefaultBaseUrl(production)
    ensures StartsWith(BaseUrlByLanguage(language, production), DefaultBaseUrl(production))
  {
    BaseUrlShape(language, production);
    var d := DefaultBaseUrl(production);
    var url := BaseUrlByLanguage(language, production);
    assert url[..|d|] == d;
  }
}

=== FILE: content_script.dfy ===
/**
 * The extension's content script (chrome/content.js): it watches editable
 * fields, keeps at most one pending command check per field, strips a
 * trailing `/p<N>` from the field, asks the background worker for prompt
 * `N - 1`, and writes the answer into the page.  DOM elements are objects
 * whose text, dispatched events and focus the script changes in place;
 * `document.querySelector` and the worker's answer are parameters.
 */
module ContentScript {
  import opened Wrappers
  import opened Strings
  import opened Command
  import opened Background

  /** The events the script dispatches, in dispatch order. */
  datatype DomEvent = InputEvent | ChangeEvent | KeyDown | KeyPress | KeyUp

  /** The mutable part of an element, as one value. */
  datatype ElementState = ElementState(value: string, innerText: string, events: seq<DomEvent>, focused: bool)

  /** A page element.  Identity attributes are fixed; text, events and focus change. */
  class PageElement {
    const tagName: string
    const id: string
    const name: string
    const className: string
    const contentEditable: bool
    /** `value`, with "" also standing for the `undefined` of non-form elements. */
    var value: string
    var innerText: string
    /** Every event dispatched on the element so far. */
    var events: seq<DomEvent>
    var focused: bool

    constructor (tagName: string, id: string, name: string, className: string, contentEditable: bool, value: string, innerText: string)
      ensures this.tagName == tagName && this.id == id && this.name == name && this.className == className
      ensures this.contentEditable == contentEditable
      ensures State() == ElementState(value, innerText, [], false)
    {
      this.tagName, this.id, this.name, this.className := tagName, id, name, className;
      this.contentEditable := contentEditable;
      this.value, this.innerText, this.events, this.focused := value, innerText, [], false;
    }

    function State(): ElementState
      reads this
    {
      ElementState(value, innerText, events, focused)
    }
  }

  predicate IsFormField(el: PageElement) {
    el.tagName == "INPUT" || el.tagName == "TEXTAREA"
  }

  /** The targets the listeners react to: INPUT, TEXTAREA, or content-editable. */
  predicate Editable(el: PageElement) {
    IsFormField(el) || el.contentEditable
  }

  /** `value || innerText || ''`. */
  function InputText(s: ElementState): string {
    if s.value != "" then s.value else s.innerText
  }

  /** The key of the pending-check map: id, else name, else tag name followed by class name. */
  function TargetKey(el: PageElement): (k: string)
    ensures el.id != "" ==> k == el.id
    ensures el.id == "" && el.name != "" ==> k == el.name
    ensures el.id == "" && el.name == "" ==> k == el.tagName + el.className
  {
    if el.id != "" then el.id else if el.name != "" then el.name else el.tagName + el.className
  }

  /** The selector used to find the element again: `#id`, else `[name="…"]`, else none. */
  function Selector(el: PageElement): (r: Option<string>)
    ensures r.None? <==> el.id == "" && el.name == ""
    ensures el.id != "" ==> r == Some("#" + el.id)
    ensures el.id == "" && el.name != "" ==> r == Some("[name=\"" + el.name + "\"]")
  {
    if el.id != "" then Some("#" + el.id)
    else if el.name != "" then Some("[name=\"" + el.name + "\"]")
    else None
  }

  /** What `document.querySelector(selector)` returns for the target's selector, or null when it has none. */
  function Resolved(query: string -> PageElement?, el: PageElement): PageElement? {
    if Selector(el).Some? then query(Selector(el).value) else null
  }

  /** Removing the command: a form field gets it in `value`, a content-editable one in `innerText`, each with one input event. */
  function StripState(s: ElementState, el: PageElement, stripped: string): ElementState {
    if IsFormField(el) then s.(value := stripped, events := s.events + [InputEvent])
    else if el.contentEditable then s.(innerText := stripped, events := s.events + [InputEvent])
    else s
  }

  /** `fillInputField` on a found element. */
  function FillState(s: ElementState, contentEditable: bool, content: string): ElementState {
    if contentEditable then s.(innerText := content, events := s.events + [InputEvent, ChangeEvent], focused := true)
    else s.(value := content, events := s.events + [InputEvent, ChangeEvent, KeyDown, KeyPress, KeyUp], focused := true)
  }

  /** The direct write used when the element has neither id nor name: all five events, whatever its kind. */
  function DirectFillState(s: ElementState, contentEditable: bool, content: string): ElementState {
    var written := if contentEditable then s.(innerText := content) else s.(value := content);
    written.(events := s.events + [InputEvent, ChangeEvent, KeyDown, KeyPress, KeyUp], focused := true)
  }

  /** The content the worker delivered, when the reply passes `response && response.success && response.content`. */
  function Delivered(answer: Option<IndexAnswer>): Option<string> {
    if answer.Some? && answer.value.Found? && answer.value.content != "" then Some(answer.value.content) else None
  }

  /** After a fill, reading the field back (value, else inner text) gives the content, for any element without a value of its own. */
  lemma FillReadsBack(s: ElementState, contentEditable: bool, content: string)
    requires content != [] && (contentEditable ==> s.value == "")
    ensures InputText(FillState(s, contentEditable, content)) == content
    ensures InputText(DirectFillState(s, contentEditable, content)) == content
    ensures FillState(s, contentEditable, content).focused
  {
  }

  /** Stripping a detected command from a form field leaves exactly the text before the command, which read back gives the input minus `/p<N>`. */
  lemma StripReadsBack(s: ElementState, el: PageElement, text: string)
    requires IsFormField(el) && Detect(text).Some?
    ensures var m := Detect(text).value;
      var t := StripState(s, el, m.stripped);
      t.value + "/p" + m.digits == text && t.events == s.events + [InputEvent]
  {
  }

  /** `fillInputField(selector, content)` given what `querySelector(selector)` returned. */
  method FillInputField(el: PageElement?, content: string)
    modifies el
    ensures el != null ==> el.State() == FillState(old(el.State()), el.contentEditable, content)
  {
    if el != null {
      if el.contentEditable {
        el.innerText := content;
        el.events := el.events + [InputEvent, ChangeEvent];
      } else {
        el.value := content;
        el.events := el.events + [InputEvent, ChangeEvent, KeyDown, KeyPress, KeyUp];
      }
      el.focused := true;
    }
  }

  /** The element `query` resolves for `el`'s selector, or `el` itself when there is none: the state read before a check. */
  function FoundState(query: string -> PageElement?, el: PageElement): ElementState
    reads el, Resolved(query, el)
  {
    var found := Resolved(query, el);
    if found != null then found.State() else el.State()
  }

  /**
   * What one run of `checkForCommand` on `text` leaves behind: `target` and
   * the element `found` for its selector, given their states `before` and
   * `foundBefore`.  No command: both untouched.  A command: its text is
   * stripped from the target, and the delivered content, if any, fills the
   * found element, or the target itself when it has neither id nor name.
   */
  predicate CheckOutcome(text: string, target: PageElement, found: PageElement?, ask: int -> Option<IndexAnswer>,
                         before: ElementState, foundBefore: ElementState)
    reads target, found
  {
    if Detect(text).None? then
      target.State() == before && (found != null ==> found.State() == foundBefore)
    else
      var m := Detect(text).value;
      var stripped := StripState(before, target, m.stripped);
      var content := Delivered(ask(m.index));
      if content.None? then
        target.State() == stripped && (found != null && found != target ==> found.State() == foundBefore)
      else if Selector(target).None? then
        target.State() == DirectFillState(stripped, target.contentEditable, content.value)
      else if found == null then
        target.State() == stripped
      else if found == target then
        target.State() == FillState(stripped, target.contentEditable, content.value)
      else
        target.State() == stripped && found.State() == FillState(foundBefore, found.contentEditable, content.value)
  }

  /** The index a check on `text` asks the worker for. */
  function Requested(text: string): Option<int> {
    if Detect(text).Some? then Some(Detect(text).value.index) else None
  }

  /**
   * `checkForCommand(inputText, target)`.  `input` is None when the text is
   * not a string.  `ask` is the worker's reply to `getPromptByIndex` for an
   * index (None: no reply), `query` is `document.querySelector`.  Returns the
   * index requested, if any.
   */
  method CheckForCommand(input: Option<string>, target: PageElement, ask: int -> Option<IndexAnswer>, query: string -> PageElement?)
    returns (request: Option<int>)
    modifies target, Resolved(query, target)
    ensures input.None? ==>
      request.None? && target.State() == old(target.State())
      && (Resolved(query, target) != null ==> Resolved(query, target).State() == old(Resolved(query, target).State()))
    ensures input.Some? ==>
      request == Requested(input.value)
      && CheckOutcome(input.value, target, Resolved(query, target), ask, old(target.State()), old(FoundState(query, target)))
  {
    request := None;
    if input.None? {
      return;
    }
    var detected := Detect(input.value);
    if detected.None? {
      return;
    }
    var m := detected.value;
    if IsFormField(target) {
      target.value := m.stripped;
      target.events := target.events + [InputEvent];
    } else if target.contentEditable {
      target.innerText := m.stripped;
      target.events := target.events + [InputEvent];
    }
    request := Some(m.index);
    var content := Delivered(ask(m.index));
    if content.Some? {
      if target.id != "" {
        FillInputField(query("#" + target.id), content.value);
      } else if target.name != "" {
        FillInputField(query("[name=\"" + target.name + "\"]"), content.value);
      } else {
        if target.contentEditable {
          target.innerText := content.value;
        } else {
          target.value := content.value;
        }
        target.events := target.events + [InputEvent, ChangeEvent, KeyDown, KeyPress, KeyUp];
        target.focused := true;
      }
    }
  }

  /** A check waiting for its timer: the text read at input time and the field it came from. */
  datatype PendingCheck = PendingCheck(text: string, target: PageElement)

  /** The `inputTimers` map of the listeners. */
  class CommandListener {
    var pending: map<string, PendingCheck>

    constructor ()
      ensures pending == map[]
    {
      pending := map[];
    }

    /** `handleInputEvent`: an editable target replaces the pending check under its key. */
    method HandleInput(target: PageElement)
      modifies this
      ensures Editable(target) ==>
        pending == old(pending)[TargetKey(target) := PendingCheck(InputText(target.State()), target)]
      ensures !Editable(target) ==> pending == old(pending)
    {
      if Editable(target) {
        var text := InputText(target.State());
        pending := pending[TargetKey(target) := PendingCheck(text, target)];
      }
    }

    /** The 200 ms timer of `key` firing: its check runs on the text captured at input time, then the entry goes. */
    method FireTimer(key: string, ask: int -> Option<IndexAnswer>, query: string -> PageElement?) returns (request: Option<int>)
      requires key in pending
      modifies this, pending[key].target, Resolved(query, pending[key].target)
      ensures pending == old(pending) - {key}
      ensures var check := old(pending[key]);
        request == Requested(check.text)
        && CheckOutcome(check.text, check.target, Resolved(query, check.target), ask,
                        old(check.target.State()), old(FoundState(query, check.target)))
    {
      var check := pending[key];
      request := CheckForCommand(Some(check.text), check.target, ask, query);
      pending := pending - {key};
    }

    /** `handleKeyDownEvent`: Enter on an editable target drops its pending check and checks at once. */
    method HandleKeyDown(key: string, target: PageElement, ask: int -> Option<IndexAnswer>, query: string -> PageElement?)
      returns (request: Option<int>)
      modifies this, target, Resolved(query, target)
      ensures key == "Enter" && Editable(target) ==>
        var text := InputText(old(target.State()));
        && pending == old(pending) - {TargetKey(target)}
        && request == Requested(text)
        && CheckOutcome(text, target, Resolved(query, target), ask, old(target.State()), old(FoundState(query, target)))
      ensures !(key == "Enter" && Editable(target)) ==>
        pending == old(pending) && request.None? && target.State() == old(target.State())
        && (Resolved(query, target) != null ==> Resolved(query, target).State() == old(Resolved(query, target).State()))
    {
      request := None;
      if key == "Enter" && Editable(target) {
        var text := InputText(target.State());
        pending := pending - {TargetKey(target)};
        request := CheckForCommand(Some(text), target, ask, query);
      }
    }
  }

  /** Messages the content script answers. */
  datatype PageMessage = FillInputMessage(selector: string, content: string) | GetSelectedText | OtherAction(action: string)

  datatype PageReply = SelectedText(text: string) | UnknownActionReply(error: string)

  /**
   * The content script's `handleIncomingMessage`.  `found` is what
   * `document.querySelector` returns for a fill message's selector, and
   * `selection` is `window.getSelection().toString()`.  A fill gives no reply.
   */
  method HandlePageMessage(message: PageMessage, found: PageElement?, selection: string) returns (reply: Option<PageReply>)
    modifies found
    ensures message.FillInputMessage? ==> reply.None?
    ensures message.FillInputMessage? && found != null ==>
      found.State() == FillState(old(found.State()), found.contentEditable, message.content)
    ensures !message.FillInputMessage? && found != null ==> found.State() == old(found.State())
    ensures message.GetSelectedText? ==> reply == Some(SelectedText(Trim(selection)))
    ensures message.OtherAction? ==> reply == Some(UnknownActionReply("Unknown action: " + message.action))
  {
    match message {
      case FillInputMessage(selector, content) =>
        FillInputField(found, content);
        reply := None;
      case GetSelectedText =>
        reply := Some(SelectedText(Trim(selection)));
      case OtherAction(action) =>
        reply := Some(UnknownActionReply("Unknown action: " + action));
    }
  }
}

=== FILE: desktop_app.dfy ===
/**
 * The desktop window's shortcut editor and prompt list
 * (desktop/src/renderer/src/App.tsx). The key recorder keeps its held keys
 * and last combination between events, and the component keeps the user's
 * bindings, the recording state and the error line. They are the fields
 * of `ShortcutEditor`. The prompt list that `loadData` fills page by page
 * is `PromptFeed`.
 */
module DesktopApp {
  import opened Wrappers
  import opened Strings
  import opened Template
  import opened PromptCard

  // ---------------------------------------------------------------------
  // Key combinations
  // ---------------------------------------------------------------------

  /** The fields of a `keydown`/`keyup` event the recorder reads. */
  datatype KeyEvent = KeyEvent(key: string, ctrlKey: bool, metaKey: bool, altKey: bool, shiftKey: bool)

  /** Keys that only modify and never become the main key. */
  const ModifierKeys: seq<string> := ["Control", "Alt", "Shift", "Meta"]

  /** The modifier part names, the only ones a combination starts with. */
  const ModifierParts: seq<string> := ["CmdOrCtrl", "Ctrl", "Cmd", "Alt", "Shift"]

  /** Key names the recorder renames. */
  const KeyMap: map<string, string> :=
    map[" " := "Space", "+" := "Plus", "ArrowUp" := "Up", "ArrowDown" := "Down", "ArrowLeft" := "Left", "ArrowRight" := "Right"]

  /** `keyMap[key] || key.toUpperCase()`. */
  function MappedKey(key: string): (name: string)
    ensures key in KeyMap ==> name == KeyMap[key]
    ensures key !in KeyMap ==> name == ToUpper(key)
  {
    if key in KeyMap then KeyMap[key] else ToUpper(key)
  }

  /** The modifiers held during `e`, in the recorder's order: CmdOrCtrl/Ctrl/Cmd, Alt, Shift. */
  function Modifiers(e: KeyEvent): (mods: seq<string>)
    ensures forall i :: 0 <= i < |mods| ==> mods[i] in ModifierParts
  {
    (if e.ctrlKey || e.metaKey then [if e.ctrlKey && e.metaKey then "CmdOrCtrl" else if e.ctrlKey then "Ctrl" else "Cmd"] else [])
    + (if e.altKey then ["Alt"] else [])
    + (if e.shiftKey then ["Shift"] else [])
  }

  /** The combination the recorder builds for one `keydown`: the modifiers, then the main key unless it is a modifier or already listed. */
  function Combination(e: KeyEvent): seq<string> {
    var mods := Modifiers(e);
    if e.key != "" && e.key !in ModifierKeys && MappedKey(e.key) !in mods then mods + [MappedKey(e.key)] else mods
  }

  /** A combination the recorder keeps: one to three parts. */
  predicate Recordable(keys: seq<string>) {
    0 < |keys| <= 3
  }

  /** Pressing a modifier key alone records the held modifiers only. */
  lemma ModifierKeyNotMain(e: KeyEvent)
    requires e.key in ModifierKeys
    ensures Combination(e) == Modifiers(e)
  {
  }

  /**
   * The parts of a combination are distinct, none is empty, the modifiers
   * come first, and the main key, when there is one, is the mapped key.
   */
  lemma CombinationShape(e: KeyEvent)
    ensures var c := Combination(e);
      && |c| <= 4
      && c[..|Modifiers(e)|] == Modifiers(e)
      && (forall i, j :: 0 <= i < j < |c| ==> c[i] != c[j])
      && (forall i :: 0 <= i < |c| ==> c[i] != "")
      && (|c| > |Modifiers(e)| ==> c[|c| - 1] == MappedKey(e.key) && e.key !in ModifierKeys)
  {
    var mods := Modifiers(e);
    var c := Combination(e);
    if e.key != "" && e.key !in ModifierKeys && MappedKey(e.key) !in mods {
      assert MappedKey(e.key) != "" by {
        if e.key !in KeyMap {
          assert |ToUpper(e.key)| == |e.key|;
        }
      }
      assert c[..|mods|] == mods;
    }
  }

  /** Ctrl, Alt and Shift with a letter make four parts, which the recorder does not keep. */
  lemma FourPartsNotRecordable()
    ensures Combination(KeyEvent("a", true, false, true, true)) == ["Ctrl", "Alt", "Shift", "A"]
    ensures !Recordable(Combination(KeyEvent("a", true, false, true, true)))
  {
    assert ToUpper("a") == "A";
  }

  /** `formatShortcutKeys`: the parts joined with `+`, `''` for none. */
  function FormatShortcutKeys(keys: seq<string>): (shortcut: string)
    ensures keys == [] ==> shortcut == ""
  {
    if |keys| == 0 then "" else Join(keys, '+')
  }

  /** A combination the recorder builds never formats to `''`. */
  lemma {:induction false} FormatNonEmpty(keys: seq<string>)
    requires keys != [] && keys[|keys| - 1] != ""
    ensures FormatShortcutKeys(keys) != ""
  {
  }

  /**
   * The formatted shortcut splits on `+` back into the recorded parts,
   * as long as no key name holds a `+` other than the `+` key itself
   * (which is renamed `Plus`).
   */
  lemma FormatSplitsBack(e: KeyEvent)
    requires e.key == "+" || '+' !in e.key
    requires Combination(e) != []
    ensures Split(FormatShortcutKeys(Combination(e)), '+') == Combination(e)
  {
    var c := Combination(e);
    var mods := Modifiers(e);
    MappedKeyNoPlus(e.key);
    assert forall i :: 0 <= i < |mods| ==> '+' !in mods[i];
    assert c == mods || c == mods + [MappedKey(e.key)];
    SplitJoin(c, '+');
  }

  /** Only the `+` key could put a `+` into a part, and it is renamed. */
  lemma MappedKeyNoPlus(key: string)
    requires key == "+" || '+' !in key
    ensures '+' !in MappedKey(key)
  {
    if key !in KeyMap {
      var u := ToUpper(key);
      forall j | 0 <= j < |u|
        ensures u[j] != '+'
      {
        assert key[j] != '+';
      }
    }
  }

  /** A combination the recorder keeps never formats to `''`. */
  lemma RecordedFormatNonEmpty(e: KeyEvent)
    requires Recordable(Combination(e))
    ensures FormatShortcutKeys(Combination(e)) != ""
  {
    CombinationShape(e);
    FormatNonEmpty(Combination(e));
  }

  // ---------------------------------------------------------------------
  // Conflicts
  // ---------------------------------------------------------------------

  /** Some action other than `exclude` is bound to exactly `shortcut`. */
  predicate Conflicts(shortcuts: Values, shortcut: string, exclude: string) {
    exists i :: 0 <= i < |shortcuts| && shortcuts[i].0 != exclude && shortcuts[i].1 == shortcut
  }

  /** `checkShortcutConflict`: walks the bindings in order and stops at the first clash. */
  method CheckShortcutConflict(shortcuts: Values, shortcut: string, exclude: string) returns (conflict: bool)
    ensures conflict <==> Conflicts(shortcuts, shortcut, exclude)
  {
    for i := 0 to |shortcuts|
      invariant forall j :: 0 <= j < i ==> shortcuts[j].0 == exclude || shortcuts[j].1 != shortcut
    {
      var (action, existing) := shortcuts[i];
      if action == exclude {
        continue;
      }
      if existing == shortcut {
        return true;
      }
    }
    return false;
  }

  /**
   * Binding an action to a shortcut no other action holds leaves that
   * shortcut unique: the action reads it back, and every other action keeps
   * its binding, so none of them holds it.
   */
  lemma SavedBindingUnique(shortcuts: Values, action: string, shortcut: string)
    requires !Conflicts(shortcuts, shortcut, action)
    ensures !Conflicts(SetValue(shortcuts, action, shortcut), shortcut, action)
    ensures UniqueKeys(shortcuts) ==> Lookup(SetValue(shortcuts, action, shortcut), action) == Some(shortcut)
  {
    if UniqueKeys(shortcuts) {
      SetValueSpec(shortcuts, action, shortcut);
    }
    var r := SetValue(shortcuts, action, shortcut);
    var m := if action in Keys(shortcuts) then FirstIndex(Keys(shortcuts), action) else |shortcuts|;
    assert forall i :: 0 <= i < |r| && i != m ==> r[i] == shortcuts[i];
    forall i | 0 <= i < |r| && r[i].0 != action
      ensures r[i].1 != shortcut
    {
      assert i != m;
      assert r[i] == shortcuts[i];
    }
  }

  // ---------------------------------------------------------------------
  // The shortcut editor
  // ---------------------------------------------------------------------

  /** Messages shown on the error line. */
  datatype Notice = InvalidShortcut | ShortcutConflict | ShortcutRecorded

  /**
   * How `saveShortcutSettings` ends. The settings may not be stored.
   * Or they may be stored and shown, and then re-registering the global
   * shortcuts fails.
   */
  datatype SaveOutcome = Saved | StoreFailed | RegisterFailed

  class ShortcutEditor {
    /** `userShortcuts`: action to binding, in property order. */
    var userShortcuts: Values
    /** `recordingShortcut`: the action being recorded, `None` for null. */
    var recordingShortcut: Option<string>
    /** `tempShortcutKeys`: the combination shown in the recording dialog. */
    var tempShortcutKeys: seq<string>
    /** The recorder's held keys. */
    var pressedKeys: set<string>
    /** The recorder's last kept combination. */
    var finalShortcut: seq<string>
    var error: Option<Notice>

    /** The recorder only ever holds a kept combination, and shows either nothing or that combination. */
    predicate Valid()
      reads this
    {
      (finalShortcut == [] || Recordable(finalShortcut))
      && (tempShortcutKeys == [] || tempShortcutKeys == finalShortcut)
    }

    /** `!recordingShortcut` is false: an action is being recorded. */
    predicate Recording()
      reads this
    {
      recordingShortcut.Some? && recordingShortcut.value != ""
    }

    constructor (shortcuts: Values)
      ensures userShortcuts == shortcuts && recordingShortcut == None
      ensures tempShortcutKeys == [] && pressedKeys == {} && finalShortcut == [] && error == None
      ensures Valid()
    {
      userShortcuts := shortcuts;
      recordingShortcut := None;
      tempShortcutKeys := [];
      pressedKeys := {};
      finalShortcut := [];
      error := None;
    }

    /**
     * `startRecordingShortcut`. Recording another action re-runs the
     * recorder's effect, which starts with no held keys and no combination.
     */
    method StartRecording(action: string)
      requires Valid()
      modifies this
      ensures Valid()
      ensures recordingShortcut == Some(action) && tempShortcutKeys == []
      ensures old(recordingShortcut) != Some(action) ==> pressedKeys == {} && finalShortcut == []
      ensures old(recordingShortcut) == Some(action) ==> pressedKeys == old(pressedKeys) && finalShortcut == old(finalShortcut)
      ensures userShortcuts == old(userShortcuts) && error == old(error)
    {
      if recordingShortcut != Some(action) {
        pressedKeys := {};
        finalShortcut := [];
      }
      recordingShortcut := Some(action);
      tempShortcutKeys := [];
    }

    /** `cancelRecordingShortcut`; the recorder's effect is torn down and its held keys cleared. */
    method CancelRecording()
      requires Valid()
      modifies this
      ensures Valid()
      ensures recordingShortcut == None && tempShortcutKeys == [] && pressedKeys == {}
      ensures userShortcuts == old(userShortcuts) && error == old(error) && finalShortcut == old(finalShortcut)
    {
      recordingShortcut := None;
      tempShortcutKeys := [];
      pressedKeys := {};
    }

    /**
     * The recorder's `keydown`: a key already held is ignored. Otherwise
     * the key is held, and the combination is kept and shown when it has
     * one to three parts.
     */
    method HandleKeyDown(e: KeyEvent)
      requires Valid()
      modifies this
      ensures Valid()
      ensures !old(Recording()) || e.key in old(pressedKeys) ==>
        pressedKeys == old(pressedKeys) && finalShortcut == old(finalShortcut) && tempShortcutKeys == old(tempShortcutKeys)
      ensures old(Recording()) && e.key !in old(pressedKeys) ==>
        pressedKeys == old(pressedKeys) + {e.key}
        && (Recordable(Combination(e)) ==> finalShortcut == Combination(e) && tempShortcutKeys == Combination(e))
        && (!Recordable(Combination(e)) ==> finalShortcut == old(finalShortcut) && tempShortcutKeys == old(tempShortcutKeys))
      ensures userShortcuts == old(userShortcuts) && recordingShortcut == old(recordingShortcut) && error == old(error)
    {
      if !Recording() || e.key in pressedKeys {
        return;
      }
      pressedKeys := pressedKeys + {e.key};
      var keys: seq<string> := [];
      if e.ctrlKey || e.metaKey {
        keys := keys + [if e.ctrlKey && e.metaKey then "CmdOrCtrl" else if e.ctrlKey then "Ctrl" else "Cmd"];
      }
      if e.altKey {
        keys := keys + ["Alt"];
      }
      if e.shiftKey {
        keys := keys + ["Shift"];
      }
      assert keys == Modifiers(e);
      if e.key != "" && e.key !in ModifierKeys {
        var mapped := MappedKey(e.key);
        if mapped !in keys {
          keys := keys + [mapped];
        }
      }
      if |keys| > 0 && |keys| <= 3 {
        finalShortcut := keys;
        tempShortcutKeys := keys;
      }
    }

    /**
     * The recorder's `keyup`: the key is released, and once none is held
     * the kept combination is shown again.
     */
    method HandleKeyUp(e: KeyEvent)
      requires Valid()
      modifies this
      ensures Valid()
      ensures !old(Recording()) ==> pressedKeys == old(pressedKeys) && tempShortcutKeys == old(tempShortcutKeys)
      ensures old(Recording()) ==> pressedKeys == old(pressedKeys) - {e.key}
      ensures old(Recording()) && pressedKeys == {} && finalShortcut != [] ==> tempShortcutKeys == finalShortcut
      ensures old(tempShortcutKeys) != [] ==> tempShortcutKeys == old(tempShortcutKeys)
      ensures !(old(Recording()) && pressedKeys == {} && finalShortcut != []) ==> tempShortcutKeys == old(tempShortcutKeys)
      ensures userShortcuts == old(userShortcuts) && recordingShortcut == old(recordingShortcut)
      ensures finalShortcut == old(finalShortcut) && error == old(error)
    {
      if !Recording() {
        return;
      }
      pressedKeys := pressedKeys - {e.key};
      if |pressedKeys| == 0 && |finalShortcut| > 0 {
        tempShortcutKeys := finalShortcut;
      }
    }

    /**
     * `saveRecordedShortcut`: nothing recorded, or a shortcut another
     * action holds, sets the error and keeps recording. Otherwise the
     * action is bound to the formatted shortcut in a copy of the
     * bindings, which become current once stored, and recording ends.
     */
    method SaveRecordedShortcut(outcome: SaveOutcome)
      requires Valid()
      modifies this
      ensures Valid()
      ensures (!old(Recording()) || old(tempShortcutKeys) == [] || FormatShortcutKeys(old(tempShortcutKeys)) == "") ==>
        error == Some(InvalidShortcut) && userShortcuts == old(userShortcuts)
        && recordingShortcut == old(recordingShortcut) && tempShortcutKeys == old(tempShortcutKeys)
      ensures (old(Recording()) && FormatShortcutKeys(old(tempShortcutKeys)) != ""
        && Conflicts(old(userShortcuts), FormatShortcutKeys(old(tempShortcutKeys)), old(recordingShortcut).value)) ==>
        error == Some(ShortcutConflict) && userShortcuts == old(userShortcuts)
        && recordingShortcut == old(recordingShortcut) && tempShortcutKeys == old(tempShortcutKeys)
      ensures (old(Recording()) && FormatShortcutKeys(old(tempShortcutKeys)) != ""
        && !Conflicts(old(userShortcuts), FormatShortcutKeys(old(tempShortcutKeys)), old(recordingShortcut).value)) ==>
        recordingShortcut == None && tempShortcutKeys == [] && pressedKeys == {}
        && error == Some(if outcome == Saved then ShortcutRecorded else InvalidShortcut)
        && userShortcuts == (if outcome == StoreFailed then old(userShortcuts)
             else SetValue(old(userShortcuts), old(recordingShortcut).value, FormatShortcutKeys(old(tempShortcutKeys))))
      ensures finalShortcut == old(finalShortcut)
    {
      if !Recording() || |tempShortcutKeys| == 0 {
        error := Some(InvalidShortcut);
        return;
      }
      var formatted := FormatShortcutKeys(tempShortcutKeys);
      if formatted == "" {
        error := Some(InvalidShortcut);
        return;
      }
      var action := recordingShortcut.value;
      var conflict := CheckShortcutConflict(userShortcuts, formatted, action);
      if conflict {
        error := Some(ShortcutConflict);
        return;
      }
      var newShortcuts := SetValue(userShortcuts, action, formatted);
      match outcome {
        case Saved =>
          userShortcuts := newShortcuts;
          error := Some(ShortcutRecorded);
        case StoreFailed =>
          error := Some(InvalidShortcut);
        case RegisterFailed =>
          userShortcuts := newShortcuts;
          error := Some(InvalidShortcut);
      }
      CancelRecording();
    }
  }

  // ---------------------------------------------------------------------
  // The prompt list
  // ---------------------------------------------------------------------

  /** One page of `loadData`'s response: `data.prompts` and `data.totalPages`, `None` when missing. */
  datatype Page<P> = Page(prompts: Option<seq<P>>, totalPages: Option<int>)

  /** `x || []`. */
  function PromptsOf<P>(page: Page<P>): seq<P> {
    if page.prompts.Some? then page.prompts.value else []
  }

  /** `totalPages || 1`. */
  function TotalPagesOf<P>(page: Page<P>): int {
    if page.totalPages.Some? && page.totalPages.value != 0 then page.totalPages.value else 1
  }

  class PromptFeed<P> {
    var prompts: seq<P>
    var hasMore: bool

    constructor ()
      ensures prompts == [] && !hasMore
    {
      prompts := [];
      hasMore := false;
    }

    /**
     * A successful page of `loadData`: a reset load replaces the list, a
     * further page appends to it; either way more pages remain while the
     * current page number is below the total.
     */
    method ApplyPage(reset: bool, pageNumber: int, page: Page<P>)
      modifies this
      ensures reset ==> prompts == PromptsOf(page)
      ensures !reset ==> prompts == old(prompts) + PromptsOf(page)
      ensures hasMore == (pageNumber < TotalPagesOf(page))
    {
      if reset {
        prompts := PromptsOf(page);
      } else {
        prompts := prompts + PromptsOf(page);
      }
      hasMore := pageNumber < TotalPagesOf(page);
    }
  }

  /** The list after a reset load and then further pages, in the order they arrived. */
  function Loaded<P>(first: Page<P>, more: seq<Page<P>>): seq<P> {
    if more == [] then PromptsOf(first) else Loaded(first, more[..|more| - 1]) + PromptsOf(more[|more| - 1])
  }

  /** Every prompt of every page loaded is in the list, and the list holds nothing else. */
  lemma {:induction false} LoadedHoldsEveryPage<P>(first: Page<P>, more: seq<Page<P>>)
    ensures |Loaded(first, more)| == |PromptsOf(first)| + SumOfCounts(more)
    ensures Loaded(first, more)[..|PromptsOf(first)|] == PromptsOf(first)
  {
    if more != [] {
      LoadedHoldsEveryPage(first, more[..|more| - 1]);
    }
  }

  /** The list after the first `j` further pages is where the full list starts. */
  lemma {:induction false} LoadedPrefix<P>(first: Page<P>, more: seq<Page<P>>, j: nat)
    requires j <= |more|
    ensures |Loaded(first, more[..j])| <= |Loaded(first, more)|
    ensures Loaded(first, more)[..|Loaded(first, more[..j])|] == Loaded(first, more[..j])
    decreases |more| - j
  {
    if j == |more| {
      assert more[..j] == more;
    } else {
      var shorter := more[..|more| - 1];
      assert more[..j] == shorter[..j];
      LoadedPrefix(first, shorter, j);
      assert Loaded(first, more) == Loaded(first, shorter) + PromptsOf(more[|more| - 1]);
    }
  }

  /** Further page `k` follows, whole and in order, right after the pages that came before it. */
  lemma LoadedPageInOrder<P>(first: Page<P>, more: seq<Page<P>>, k: nat)
    requires k < |more|
    ensures |Loaded(first, more[..k])| + |PromptsOf(more[k])| <= |Loaded(first, more)|
    ensures Loaded(first, more)[|Loaded(first, more[..k])|..][..|PromptsOf(more[k])|] == PromptsOf(more[k])
  {
    var before := Loaded(first, more[..k]);
    assert more[..k + 1][..k] == more[..k];
    assert Loaded(first, more[..k + 1]) == before + PromptsOf(more[k]);
    LoadedPrefix(first, more, k + 1);
    var all := Loaded(first, more);
    assert all[..|before| + |PromptsOf(more[k])|] == before + PromptsOf(more[k]);
    assert all[|before|..][..|PromptsOf(more[k])|] == all[..|before| + |PromptsOf(more[k])|][|before|..];
  }

  /** A feed that holds the pages loaded so far holds the next one after `ApplyPage` appends it. */
  method LoadNextPage<P>(feed: PromptFeed<P>, first: Page<P>, more: seq<Page<P>>, k: nat, pageNumber: int)
    requires k < |more| && feed.prompts == Loaded(first, more[..k])
    modifies feed
    ensures feed.prompts == Loaded(first, more[..k + 1])
  {
    feed.ApplyPage(false, pageNumber, more[k]);
    assert more[..k + 1][..k] == more[..k];
  }

  function SumOfCounts<P>(pages: seq<Page<P>>): nat {
    if pages == [] then 0 else SumOfCounts(pages[..|pages| - 1]) + |PromptsOf(pages[|pages| - 1])|
  }
}

=== FILE: desktop_card.dfy ===
/**
 * The desktop window's prompt card (desktop/src/renderer/src/components/PromptCard.tsx).
 * Its React state (`isModalOpen`, `variableValues`, `isProcessing`) is
 * kept in fields. Its requests go into an effect log: clipboard writes,
 * the `copy-to-active-window` messages to the main process, and
 * notifications. Unlike the extension's card it never counts a use.
 */
module DesktopPromptCard {
  import opened Wrappers
  import opened Template
  import opened PromptCard

  /** The notifications the card raises; each shows a localised message. */
  datatype Notice = PromptCopied | PromptProcessedAndCopied | PleaseFillAllVariables

  datatype Effect =
    | CopyToClipboard(text: string)
    | SendToActiveWindow(text: string)
    | Notify(notice: Notice, isError: bool)

  /** `localizedTagsMap[tag] || tag`: the localised name, else the raw tag. */
  function TagLabel(tag: string, localized: map<string, string>): (shown: string)
    ensures tag in localized && localized[tag] != "" ==> shown == localized[tag]
    ensures tag !in localized || localized[tag] == "" ==> shown == tag
  {
    if tag in localized && localized[tag] != "" then localized[tag] else tag
  }

  /** A non-empty tag never renders blank: the raw tag is the fallback. */
  lemma TagNeverBlank(tag: string, localized: map<string, string>)
    requires tag != ""
    ensures TagLabel(tag, localized) != ""
    ensures TagLabel(tag, localized) == tag || TagLabel(tag, localized) in localized.Values
  {
    if tag in localized && localized[tag] != "" {
      assert localized[tag] in localized.Values;
    }
  }

  class Card {
    const id: string
    const title: string
    const content: string

    var isModalOpen: bool
    var variableValues: Values
    var isProcessing: bool
    var effects: seq<Effect>

    predicate Valid()
      reads this
    {
      UniqueKeys(variableValues)
    }

    constructor (id: string, title: string, content: string)
      ensures this.id == id && this.title == title && this.content == content
      ensures !isModalOpen && variableValues == [] && !isProcessing && effects == []
      ensures Valid()
    {
      this.id := id;
      this.title := title;
      this.content := content;
      isModalOpen := false;
      variableValues := [];
      isProcessing := false;
      effects := [];
    }

    /**
     * `handleUse`: content with variables gets every extracted variable
     * set to `''` and then the modal; other content is copied and sent to
     * the active window unchanged.
     */
    method HandleUse()
      requires Valid()
      modifies this
      ensures Valid()
      ensures HasVariables(content) ==>
        isModalOpen && Keys(variableValues) == Dedup(Placeholders(content))
        && (forall i :: 0 <= i < |variableValues| ==> variableValues[i].1 == "")
        && effects == old(effects)
      ensures !HasVariables(content) ==>
        isModalOpen == old(isModalOpen) && variableValues == old(variableValues)
        && effects == old(effects) + [CopyToClipboard(content), SendToActiveWindow(content), Notify(PromptCopied, false)]
      ensures isProcessing == old(isProcessing)
    {
      if HasVariables(content) {
        var variables := ExtractVariables(content);
        var initial := InitialValues(variables);
        ModalFieldsAreVariables(content);
        KeysDistinct(initial);
        variableValues := initial;
        isModalOpen := true;
      } else {
        effects := effects + [CopyToClipboard(content), SendToActiveWindow(content), Notify(PromptCopied, false)];
      }
    }

    /** `handleCopy`: copies the raw content and nothing more. */
    method HandleCopy()
      modifies this`effects
      ensures effects == old(effects) + [CopyToClipboard(content), Notify(PromptCopied, false)]
    {
      effects := effects + [CopyToClipboard(content), Notify(PromptCopied, false)];
    }

    /** `handleVariableChange`: the typed value replaces that variable's value only. */
    method HandleVariableChange(name: string, value: string)
      requires Valid()
      modifies this`variableValues
      ensures Valid()
      ensures variableValues == SetValue(old(variableValues), name, value)
      ensures Lookup(variableValues, name) == Some(value)
      ensures forall other :: other != name ==> Lookup(variableValues, other) == Lookup(old(variableValues), other)
    {
      SetValueSpec(variableValues, name, value);
      variableValues := SetValue(variableValues, name, value);
    }

    /** The modal's close and cancel buttons. */
    method CloseModal()
      modifies this`isModalOpen
      ensures !isModalOpen
    {
      isModalOpen := false;
    }

    /**
     * `handleModalConfirm`: with a blank value it reports the error and
     * sends nothing; otherwise it copies the processed content, sends it
     * to the active window and closes the modal.
     */
    method HandleModalConfirm()
      modifies this
      ensures variableValues == old(variableValues) && !isProcessing
      ensures !AllFilled(variableValues) ==>
        isModalOpen == old(isModalOpen)
        && effects == old(effects) + [Notify(PleaseFillAllVariables, true)]
      ensures AllFilled(variableValues) ==>
        !isModalOpen
        && effects == old(effects) + [CopyToClipboard(ApplyAll(content, OwnKeyOrder(variableValues))),
          Notify(PromptProcessedAndCopied, false), SendToActiveWindow(ApplyAll(content, OwnKeyOrder(variableValues)))]
    {
      isProcessing := true;
      if !AllFilled(variableValues) {
        effects := effects + [Notify(PleaseFillAllVariables, true)];
        isProcessing := false;
        return;
      }
      var processed := ProcessPromptWithVariables(content, variableValues);
      effects := effects + [CopyToClipboard(processed), Notify(PromptProcessedAndCopied, false), SendToActiveWindow(processed)];
      isModalOpen := false;
      isProcessing := false;
    }
  }
}

=== FILE: desktop_main.dfy ===
/**
 * The desktop main process (desktop/src/main/index.ts): reading the system
 * selection and the focused field through the clipboard, the `/p<N>` command
 * applied by select-all and paste, quick save of the selection, the prompt
 * lookup by index, and the choice of global shortcut keys.  The clipboard,
 * the focused field's text and the messages sent to the palette window are
 * fields of one host object; what the operating system puts on the
 * clipboard after a simulated copy, the stored token and the server's
 * answers are parameters.
 */
module DesktopMain {
  import opened Wrappers
  import opened Strings
  import opened Command
  import Config

  // ----------------------------------------------------- prompt lookup

  const ListQuery: string := "/api/prompts/list?page=1&limit=100&sortBy=useCount&sortOrder=desc"

  /** The list endpoint's answer: a thrown error, or `response.ok`, `data.success` and `data.data.prompts` (None when absent). */
  datatype ListResponse =
    | ListThrew(message: string)
    | ListAnswered(ok: bool, success: bool, prompts: Option<seq<string>>)

  /** A token counts only when non-empty (`!authToken`). */
  predicate HasToken(token: Option<string>) {
    token.Some? && token.value != ""
  }

  /** The list request the main process sends: the `en` base URL and the fixed query. */
  function ListUrl(production: bool): string {
    Config.CurrentLanguageBaseUrl(Some("en"), production) + ListQuery
  }

  /**
   * `getPromptByIndex`: the request made (none without a token) and the
   * content of prompt `index`, or None.  `prompts` holds each prompt's content.
   */
  function PromptByIndex(token: Option<string>, index: int, response: ListResponse, production: bool): (r: (Option<string>, Option<string>))
    ensures !HasToken(token) ==> r == (None, None)
    ensures HasToken(token) ==> r.0 == Some(ListUrl(production))
    ensures r.1.Some? <==>
      HasToken(token) && response.ListAnswered? && response.ok && response.success && response.prompts.Some?
      && 0 <= index < |response.prompts.value|
    ensures r.1.Some? ==> r.1.value == response.prompts.value[index]
  {
    if !HasToken(token) then (None, None)
    else
      var content :=
        match response
        case ListThrew(_) => None
        case ListAnswered(ok, success, prompts) =>
          if ok && success && prompts.Some? && 0 <= index < |prompts.value| then Some(prompts.value[index]) else None;
      (Some(ListUrl(production)), content)
  }

  /** The index of `/p0`, and of any `N` past the list, finds nothing. */
  lemma OutOfRangeFindsNothing(token: Option<string>, prompts: seq<string>, n: nat, production: bool)
    requires n == 0 || n > |prompts|
    ensures PromptByIndex(token, n - 1, ListAnswered(true, true, Some(prompts)), production).1.None?
  {
  }

  // ----------------------------------------------------- selection

  const MaxAttempts: nat := 10

  /** A reading the selection loop accepts: different from the saved clipboard and not blank. */
  predicate Fresh(original: string, reading: string) {
    reading != original && !IsBlank(reading)
  }

  /** Index of the first fresh reading, if any. */
  function FirstFresh(original: string, readings: seq<string>): (r: Option<nat>)
    ensures r.Some? ==> r.value < |readings| && Fresh(original, readings[r.value])
    ensures r.Some? ==> forall i :: 0 <= i < r.value ==> !Fresh(original, readings[i])
    ensures r.None? ==> forall i :: 0 <= i < |readings| ==> !Fresh(original, readings[i])
  {
    if readings == [] then None
    else
      match FirstFresh(original, readings[..|readings| - 1])
      case Some(i) => Some(i)
      case None => if Fresh(original, readings[|readings| - 1]) then Some(|readings| - 1) else None
  }

  /**
   * What `getSelectedText` returns for the clipboard readings taken after the
   * simulated copy: the first fresh reading trimmed, else the last reading
   * trimmed when it is not blank, else null.
   */
  function SelectionResult(original: string, readings: seq<string>): Option<string>
    requires |readings| == MaxAttempts
  {
    var last := match FirstFresh(original, readings) case Some(i) => readings[i] case None => readings[MaxAttempts - 1];
    if IsBlank(last) then None else Some(Trim(last))
  }

  /** A fresh reading is found and returned trimmed, and nothing after it matters. */
  lemma SelectionFound(original: string, readings: seq<string>, i: nat)
    requires |readings| == MaxAttempts && i < MaxAttempts
    requires Fresh(original, readings[i]) && forall j :: 0 <= j < i ==> !Fresh(original, readings[j])
    ensures SelectionResult(original, readings) == Some(Trim(readings[i]))
  {
  }

  /** A selection is never blank: a result always has a non-space character at each end. */
  lemma SelectionNeverBlank(original: string, readings: seq<string>)
    requires |readings| == MaxAttempts
    ensures var r := SelectionResult(original, readings);
      r.Some? ==> r.value != [] && !IsSpace(r.value[0]) && !IsSpace(r.value[|r.value| - 1])
  {
    var last := match FirstFresh(original, readings) case Some(i) => readings[i] case None => readings[MaxAttempts - 1];
    TrimSpec(last);
  }

  /**
   * When the copy never changes the clipboard, the unchanged non-blank
   * clipboard itself is returned as the selection.
   */
  lemma StaleClipboardReturned(original: string)
    requires !IsBlank(original)
    ensures SelectionResult(original, seq(MaxAttempts, _ => original)) == Some(Trim(original))
  {
    var readings := seq(MaxAttempts, _ => original);
    assert FirstFresh(original, readings).None?;
  }

  // ----------------------------------------------------- quick save

  /** What is sent to the palette window on `quick-save-result`. */
  datatype SaveNotice = SaveSucceeded | SaveFailedWith(error: string)

  /** The create endpoint's answer: a thrown error, or `response.ok` and `result.success`. */
  datatype SaveResponse = SaveThrew(message: string) | SaveAnswered(ok: bool, success: bool)

  datatype CreateRequest = CreateRequest(url: string, title: string, content: string, description: string)

  /** The quick-save title: `Quickly: ` and the first 15 characters of the content as given. */
  function DesktopTitle(content: string): (title: string)
    ensures StartsWith(title, "Quickly: ")
    ensures |title| == 9 + if |content| < 15 then |content| else 15
    ensures title[9..] == content[..|title| - 9]
  {
    "Quickly: " + Take(content, 15)
  }

  // ----------------------------------------------------- shortcuts

  datatype Action = OpenPanel | QuickSaveSelection | CheckCommand

  /** `DEFAULT_SHORTCUTS[action].defaultKey`: Cmd+Alt on macOS, Ctrl+Alt elsewhere. */
  function DefaultKey(action: Action, darwin: bool): (key: string)
    ensures key != ""
    ensures StartsWith(key, if darwin then "Cmd+Alt+" else "Ctrl+Alt+")
  {
    var prefix := if darwin then "Cmd+Alt+" else "Ctrl+Alt+";
    prefix + match action case OpenPanel => "O" case QuickSaveSelection => "P" case CheckCommand => "/"
  }

  function ActionName(action: Action): string {
    match action
    case OpenPanel => "openPanel"
    case QuickSaveSelection => "quickSaveSelection"
    case CheckCommand => "checkCommand"
  }

  /**
   * `getUserShortcutSettings`: a stored settings object is used as it is
   * (None: nothing stored, or not an object), else the three defaults.
   */
  function UserShortcutSettings(stored: Option<map<string, string>>, darwin: bool): (shortcuts: map<string, string>)
    ensures stored.Some? ==> shortcuts == stored.value
    ensures stored.None? ==> shortcuts.Keys == {"openPanel", "quickSaveSelection", "checkCommand"}
    ensures stored.None? ==> forall a: Action :: shortcuts[ActionName(a)] == DefaultKey(a, darwin)
  {
    if stored.Some? then stored.value
    else map["openPanel" := DefaultKey(OpenPanel, darwin),
             "quickSaveSelection" := DefaultKey(QuickSaveSelection, darwin),
             "checkCommand" := DefaultKey(CheckCommand, darwin)]
  }

  /** The key registered for one action: the user's binding, or the default when it is missing or empty. */
  function RegisteredKey(shortcuts: map<string, string>, action: Action, darwin: bool): (key: string)
    ensures key != ""
    ensures ActionName(action) in shortcuts && shortcuts[ActionName(action)] != "" ==> key == shortcuts[ActionName(action)]
    ensures !(ActionName(action) in shortcuts && shortcuts[ActionName(action)] != "") ==> key == DefaultKey(action, darwin)
  {
    var name := ActionName(action);
    if name in shortcuts && shortcuts[name] != "" then shortcuts[name] else DefaultKey(action, darwin)
  }

  /** `registerGlobalShortcuts`: the three keys in registration order. */
  function RegisteredKeys(stored: Option<map<string, string>>, darwin: bool): (keys: seq<(Action, string)>)
    ensures |keys| == 3 && keys[0].0 == OpenPanel && keys[1].0 == QuickSaveSelection && keys[2].0 == CheckCommand
    ensures forall i :: 0 <= i < 3 ==> keys[i].1 != ""
    ensures stored.None? ==> forall i :: 0 <= i < 3 ==> keys[i].1 == DefaultKey(keys[i].0, darwin)
  {
    var shortcuts := UserShortcutSettings(stored, darwin);
    [(OpenPanel, RegisteredKey(shortcuts, OpenPanel, darwin)),
     (QuickSaveSelection, RegisteredKey(shortcuts, QuickSaveSelection, darwin)),
     (CheckCommand, RegisteredKey(shortcuts, CheckCommand, darwin))]
  }

  // ----------------------------------------------------- the host

  class Host {
    /** The system clipboard's text. */
    var clipboard: string
    /** The text of the focused input field in the foreground application. */
    var field: string
    /** Whether the palette window exists (and is not destroyed). */
    var windowOpen: bool
    /** Every `quick-save-result` sent to the palette window, in order. */
    var notices: seq<SaveNotice>

    constructor (clipboard: string, field: string, windowOpen: bool)
      ensures this.clipboard == clipboard && this.field == field && this.windowOpen == windowOpen && notices == []
    {
      this.clipboard, this.field, this.windowOpen, notices := clipboard, field, windowOpen, [];
    }

    /**
     * `getSelectedText`.  `readings` are the ten values the clipboard would
     * show after each 200 ms wait following the simulated copy; the loop
     * stops at the first fresh one.  The saved clipboard is written back.
     */
    method GetSelectedText(readings: seq<string>) returns (selection: Option<string>)
      requires |readings| == MaxAttempts
      modifies this`clipboard
      ensures clipboard == old(clipboard)
      ensures selection == SelectionResult(old(clipboard), readings)
    {
      var original := clipboard;
      var attempts := 0;
      var selected := "";
      while attempts < MaxAttempts
        invariant 0 <= attempts <= MaxAttempts
        invariant forall i :: 0 <= i < attempts ==> !Fresh(original, readings[i])
        invariant attempts > 0 ==> selected == readings[attempts - 1]
      {
        selected := readings[attempts];
        clipboard := selected;
        if Fresh(original, selected) {
          SelectionFound(original, readings, attempts);
          break;
        }
        attempts := attempts + 1;
      }
      if attempts == MaxAttempts {
        assert FirstFresh(original, readings).None?;
      }
      clipboard := original;
      selection := if IsBlank(selected) then None else Some(Trim(selected));
    }

    /**
     * `getCurrentInputText`.  `copied` is the clipboard after the simulated
     * select-all and copy.  The saved clipboard is written back; the copied
     * text is returned untrimmed when it is not blank.
     */
    method GetCurrentInputText(copied: string) returns (text: Option<string>)
      modifies this`clipboard
      ensures clipboard == old(clipboard)
      ensures text.Some? <==> !IsBlank(copied)
      ensures text.Some? ==> text.value == copied
    {
      var original := clipboard;
      clipboard := copied;
      var inputText := clipboard;
      clipboard := original;
      text := if IsBlank(inputText) then None else Some(inputText);
    }

    /**
     * `handleCheckCommand`: read the field, detect the command, fetch the
     * prompt, and replace the field by select-all and paste.  The pasted text
     * stays on the clipboard.  Returns the pasted text, if any.
     */
    method HandleCheckCommand(copied: string, token: Option<string>, response: ListResponse, production: bool)
      returns (pasted: Option<string>)
      modifies this`clipboard, this`field
      ensures pasted.None? ==> clipboard == old(clipboard) && field == old(field)
      ensures pasted.Some? ==> clipboard == pasted.value && field == pasted.value
      ensures pasted.Some? <==>
        !IsBlank(copied) && Detect(copied).Some?
        && var content := PromptByIndex(token, Detect(copied).value.index, response, production).1;
           content.Some? && content.value != ""
      ensures pasted.Some? ==>
        var m := Detect(copied).value;
        pasted.value == m.stripped + PromptByIndex(token, m.index, response, production).1.value
    {
      pasted := None;
      var inputText := GetCurrentInputText(copied);
      if inputText.None? {
        return;
      }
      var detected := Detect(inputText.value);
      if detected.None? {
        return;
      }
      var m := detected.value;
      var content := PromptByIndex(token, m.index, response, production).1;
      if content.None? || content.value == "" {
        return;
      }
      var newText := m.stripped + content.value;
      clipboard := newText;
      field := clipboard;
      pasted := Some(newText);
    }

    /** Send a notice when the palette window is open. */
    method Notify(notice: SaveNotice)
      modifies this`notices
      ensures notices == if windowOpen then old(notices) + [notice] else old(notices)
    {
      if windowOpen {
        notices := notices + [notice];
      }
    }

    /**
     * `quickImportPrompt`: without a token, `authenticationRequired` and no
     * request; otherwise one create request and a success or failure notice.
     */
    method QuickImportPrompt(content: string, token: Option<string>, response: SaveResponse, production: bool)
      returns (saved: bool, request: Option<CreateRequest>)
      modifies this`notices
      ensures request.None? <==> !HasToken(token)
      ensures request.Some? ==> request.value == CreateRequest(
        Config.CurrentLanguageBaseUrl(Some("en"), production) + "/api/prompts/create",
        DesktopTitle(content), content, "Quickly imported from system selection")
      ensures saved <==> HasToken(token) && response == SaveAnswered(true, true)
      ensures notices == old(notices) + if windowOpen then [Outcome(token, response)] else []
    {
      if !HasToken(token) {
        Notify(SaveFailedWith("authenticationRequired"));
        return false, None;
      }
      var baseUrl := Config.CurrentLanguageBaseUrl(Some("en"), production);
      request := Some(CreateRequest(baseUrl + "/api/prompts/create", DesktopTitle(content), content,
                                    "Quickly imported from system selection"));
      match response {
        case SaveThrew(message) =>
          Notify(SaveFailedWith(message));
          saved := false;
        case SaveAnswered(ok, success) =>
          if ok && success {
            Notify(SaveSucceeded);
            saved := true;
          } else {
            Notify(SaveFailedWith("saveFailed"));
            saved := false;
          }
      }
    }

    /**
     * `handleQuickSaveSelection`: `noTextSelected` when the selection comes
     * back empty, otherwise quick import of the (trimmed) selection.
     */
    method HandleQuickSaveSelection(readings: seq<string>, token: Option<string>, response: SaveResponse, production: bool)
      returns (request: Option<CreateRequest>)
      requires |readings| == MaxAttempts
      modifies this`clipboard, this`notices
      ensures clipboard == old(clipboard)
      ensures SelectionResult(old(clipboard), readings).None? ==>
        request.None? && notices == old(notices) + if windowOpen then [SaveFailedWith("noTextSelected")] else []
      ensures SelectionResult(old(clipboard), readings).Some? ==>
        (request.Some? <==> HasToken(token))
        && notices == old(notices) + if windowOpen then [Outcome(token, response)] else []
      ensures request.Some? ==>
        request.value.content == SelectionResult(old(clipboard), readings).value
        && request.value.title == DesktopTitle(SelectionResult(old(clipboard), readings).value)
    {
      var selection := GetSelectedText(readings);
      if selection.None? {
        Notify(SaveFailedWith("noTextSelected"));
        return None;
      }
      var saved;
      saved, request := QuickImportPrompt(selection.value, token, response, production);
    }
  }

  /** The notice a quick import sends for a token and a server answer. */
  function Outcome(token: Option<string>, response: SaveResponse): SaveNotice {
    if !HasToken(token) then SaveFailedWith("authenticationRequired")
    else match response
      case SaveThrew(message) => SaveFailedWith(message)
      case SaveAnswered(ok, success) => if ok && success then SaveSucceeded else SaveFailedWith("saveFailed")
  }

  /** The command's stripped text plus the prompt: what `/pN` at the end of a field is replaced by. */
  lemma PastedReplacesCommand(before: string, n: nat, prompts: seq<string>, token: string, production: bool)
    requires token != "" && 1 <= n <= |prompts| && prompts[n - 1] != ""
    requires !IsBlank(before + "/p" + NatToString(n))
    ensures var r := PromptByIndex(Some(token), n - 1, ListAnswered(true, true, Some(prompts)), production);
      Detect(before + "/p" + NatToString(n)) == Some(CommandMatch(before, NatToString(n), n - 1))
      && r.1 == Some(prompts[n - 1])
  {
    DetectNumber(before, n);
  }
}

=== FILE: drive_importer.dfy ===
/**
 * The offline importer (resolve_drive_resources.py): it resolves a list
 * of Drive resource ids one request at a time, then turns the decoded
 * responses into prompt records. The HTTP request is an input function;
 * the pauses between requests, the logging and the file writes are not
 * modelled.
 */
module DriveImporter {
  import opened Wrappers
  import opened Strings

  /** A decoded JSON value as Python holds it (numbers are integers here). */
  datatype PyValue =
    | PyNone
    | PyBool(b: bool)
    | PyInt(i: int)
    | PyStr(s: string)
    | PyList(items: seq<PyValue>)
    | PyDict(entries: map<string, PyValue>)

  /** Python truthiness: `None`, `False`, `0`, and empty strings, lists and dicts are false. */
  predicate Truthy(v: PyValue) {
    match v
    case PyNone => false
    case PyBool(b) => b
    case PyInt(i) => i != 0
    case PyStr(s) => s != ""
    case PyList(items) => items != []
    case PyDict(entries) => entries != map[]
  }

  // ------------------------------------------------------- resolve_resources

  /** One item of `resolve_resources`' result: `{'resource_id', 'data'}` or `{'resource_id', 'error'}`; absent keys are `None`. */
  datatype Entry = Entry(resourceId: Option<string>, data: Option<PyValue>, error: Option<PyValue>)

  const ResolveFailure: string := "Failed to resolve resource"

  /** The entry for one id: the decoded body when it is truthy, else the failure message. */
  function EntryFor(id: string, body: Option<PyValue>): (e: Entry)
    ensures e.resourceId == Some(id)
    ensures e.data.Some? <==> body.Some? && Truthy(body.value)
    ensures e.data.Some? ==> e.data == body && e.error.None?
    ensures e.data.None? ==> e.error == Some(PyStr(ResolveFailure))
  {
    if body.Some? && Truthy(body.value) then Entry(Some(id), body, None)
    else Entry(Some(id), None, Some(PyStr(ResolveFailure)))
  }

  /**
   * `resolve_resources`: one entry per id, in order. `resolve` is
   * `resolve_resource`: the decoded body of a 200 response, or `None`
   * after a bad status, a request error or an undecodable body.
   */
  method ResolveResources(ids: seq<string>, resolve: string -> Option<PyValue>) returns (results: seq<Entry>)
    ensures |results| == |ids|
    ensures forall i :: 0 <= i < |ids| ==> results[i] == EntryFor(ids[i], resolve(ids[i]))
  {
    results := [];
    for i := 0 to |ids|
      invariant |results| == i
      invariant forall j :: 0 <= j < i ==> results[j] == EntryFor(ids[j], resolve(ids[j]))
    {
      var result := resolve(ids[i]);
      if result.Some? && Truthy(result.value) {
        results := results + [Entry(Some(ids[i]), result, None)];
      } else {
        results := results + [Entry(Some(ids[i]), None, Some(PyStr(ResolveFailure)))];
      }
    }
  }

  // ---------------------------------------------------- extract_prompt_data

  /** A converted prompt; `tags` is present only on failure records. */
  datatype PromptRecord = PromptRecord(content: PyValue, isPublic: bool, title: PyValue, tags: Option<seq<string>>)

  const NoContent: string := "未找到内容"

  function NoTitle(id: string): string { "未找到标题_" + id }

  /** The record for a response that is not a non-empty list. */
  function UnparsedRecord(id: string): PromptRecord {
    PromptRecord(PyStr("无法解析的内容"), false, PyStr("无法解析的标题_" + id), None)
  }

  /** The record for an extraction that raised. */
  function ErrorRecord(id: string): PromptRecord {
    PromptRecord(PyStr("解析错误"), false, PyStr("解析错误_" + id), None)
  }

  /** The head of a non-empty list element when it is not `None`, else the placeholder. */
  function HeadOr(v: PyValue, placeholder: string): PyValue {
    if v.PyList? && |v.items| > 0 && v.items[0] != PyNone then v.items[0] else PyStr(placeholder)
  }

  /** The title: the head of the fifth element, when there is one. */
  function TitleOf(items: seq<PyValue>, id: string): PyValue {
    if |items| > 4 then HeadOr(items[4], NoTitle(id)) else PyStr(NoTitle(id))
  }

  /** The content: the head of the second-to-last element, when there is one. */
  function ContentOf(items: seq<PyValue>): PyValue {
    if |items| > 1 then HeadOr(items[|items| - 2], NoContent) else PyStr(NoContent)
  }

  /** `title[:100]`: a prefix of a string or a list; any other value raises (`None`). */
  function FirstHundred(title: PyValue): (r: Option<PyValue>)
    ensures r.Some? <==> title.PyStr? || title.PyList?
    ensures title.PyStr? ==> r == Some(PyStr(Take(title.s, 100)))
    ensures title.PyList? ==> r.value.PyList? && |r.value.items| <= 100 && |r.value.items| <= |title.items| && r.value.items == title.items[..|r.value.items|]
    ensures title.PyList? && |title.items| <= 100 ==> r == Some(title)
    ensures title.PyList? ==> |r.value.items| == if |title.items| < 100 then |title.items| else 100
  {
    match title
    case PyStr(s) => Some(PyStr(Take(s, 100)))
    case PyList(xs) => Some(PyList(if |xs| <= 100 then xs else xs[..100]))
    case _ => None
  }

  /** `extract_prompt_data`. */
  function ExtractPromptData(response: PyValue, id: string): (r: PromptRecord)
    ensures !r.isPublic && r.tags.None?
    ensures r.title.PyStr? ==> |r.title.s| <= 100 || r == UnparsedRecord(id) || r == ErrorRecord(id)
    ensures r.title.PyList? ==> |r.title.items| <= 100
  {
    if response.PyList? && |response.items| > 0 then
      match FirstHundred(TitleOf(response.items, id))
      case Some(title) => PromptRecord(ContentOf(response.items), false, title, None)
      case None => ErrorRecord(id)
    else UnparsedRecord(id)
  }

  /** A response that is not a non-empty list gives the default record, naming the id. */
  lemma UnparsableResponse(response: PyValue, id: string)
    requires !response.PyList? || response.items == []
    ensures ExtractPromptData(response, id) == PromptRecord(PyStr("无法解析的内容"), false, PyStr("无法解析的标题_" + id), None)
  {
  }

  /**
   * A string at the head of the fifth element is the title, cut to 100
   * characters; the content is the head of the second-to-last element,
   * whatever value that is, or the placeholder.
   */
  lemma TitleFromFifthElement(items: seq<PyValue>, id: string, title: string)
    requires |items| > 4 && items[4].PyList? && |items[4].items| > 0 && items[4].items[0] == PyStr(title)
    ensures var r := ExtractPromptData(PyList(items), id);
      && r.title == PyStr(Take(title, 100))
      && (|title| <= 100 ==> r.title == PyStr(title))
      && r.content == (if items[|items| - 2].PyList? && |items[|items| - 2].items| > 0 && items[|items| - 2].items[0] != PyNone
                       then items[|items| - 2].items[0] else PyStr(NoContent))
  {
  }

  /** Without a usable fifth element the title names the id; it is cut to 100 characters like any title. */
  lemma MissingTitle(items: seq<PyValue>, id: string)
    requires |items| > 0
    requires |items| <= 4 || !items[4].PyList? || items[4].items == [] || items[4].items[0] == PyNone
    ensures ExtractPromptData(PyList(items), id).title == PyStr(Take("未找到标题_" + id, 100))
  {
  }

  /** A title of any other kind (a number, a boolean, a dict) makes the slice raise, and the error record is returned. */
  lemma UnsliceableTitle(items: seq<PyValue>, id: string)
    requires |items| > 4 && items[4].PyList? && |items[4].items| > 0
    requires items[4].items[0].PyInt? || items[4].items[0].PyBool? || items[4].items[0].PyDict?
    ensures ExtractPromptData(PyList(items), id) == PromptRecord(PyStr("解析错误"), false, PyStr("解析错误_" + id), None)
  {
  }

  /** A one-element response has neither a title nor a content element. */
  lemma SingleElementResponse(item: PyValue, id: string)
    ensures ExtractPromptData(PyList([item]), id) == PromptRecord(PyStr(NoContent), false, PyStr(Take(NoTitle(id), 100)), None)
  {
  }

  /** In a six-element response the fifth element is also the second-to-last, so a string head is both title and content. */
  lemma SixElementsShareHead(items: seq<PyValue>, id: string, head: string)
    requires |items| == 6 && items[4].PyList? && |items[4].items| > 0 && items[4].items[0] == PyStr(head)
    ensures ExtractPromptData(PyList(items), id).content == PyStr(head)
    ensures ExtractPromptData(PyList(items), id).title == PyStr(Take(head, 100))
  {
  }

  // ------------------------------------------ process_api_responses_to_file

  /** `response_obj.get('resource_id', 'unknown')`. */
  function IdOf(e: Entry): string {
    if e.resourceId.Some? then e.resourceId.value else "unknown"
  }

  /** The record for an entry that carries an error. */
  function FailureRecord(id: string): PromptRecord {
    PromptRecord(PyStr("请求失败"), false, PyStr("请求失败_" + id), Some(["error"]))
  }

  /** What one entry contributes: a record, nothing, or an `IndexError` (a `data` that is an empty list). */
  datatype Step = Append(record: PromptRecord) | Skip | Raises

  function StepOf(e: Entry): Step {
    if e.data.Some? && e.data.value.PyList? then
      if e.data.value.items == [] then Raises else Append(ExtractPromptData(e.data.value.items[0], IdOf(e)))
    else if e.error.Some? then Append(FailureRecord(IdOf(e)))
    else Skip
  }

  /** The records for a run of entries, or `None` when an entry raises and the loop stops. */
  function Processed(entries: seq<Entry>): Option<seq<PromptRecord>> {
    if entries == [] then Some([])
    else
      match Processed(entries[..|entries| - 1])
      case None => None
      case Some(records) =>
        match StepOf(entries[|entries| - 1])
        case Append(record) => Some(records + [record])
        case Skip => Some(records)
        case Raises => None
  }

  /** Once an entry raises, nothing after it is processed: the whole run raises. */
  lemma {:induction false} RaiseEndsRun(entries: seq<Entry>, i: nat)
    requires i <= |entries| && Processed(entries[..i]).None?
    decreases |entries| - i
    ensures Processed(entries).None?
  {
    if i < |entries| {
      assert entries[..i + 1][..i] == entries[..i];
      RaiseEndsRun(entries, i + 1);
    } else {
      assert entries[..i] == entries;
    }
  }

  /** `process_api_responses_to_file`, without the file write. */
  method ProcessApiResponses(entries: seq<Entry>) returns (results: Option<seq<PromptRecord>>)
    ensures results == Processed(entries)
  {
    var records: seq<PromptRecord> := [];
    for i := 0 to |entries|
      invariant Processed(entries[..i]) == Some(records)
    {
      assert entries[..i + 1][..i] == entries[..i];
      var e := entries[i];
      if e.data.Some? && e.data.value.PyList? {
        if e.data.value.items == [] {
          RaiseEndsRun(entries, i + 1);
          return None;
        }
        records := records + [ExtractPromptData(e.data.value.items[0], IdOf(e))];
      } else if e.error.Some? {
        records := records + [PromptRecord(PyStr("请求失败"), false, PyStr("请求失败_" + IdOf(e)), Some(["error"]))];
      }
    }
    assert entries[..|entries|] == entries;
    return Some(records);
  }

  /** How many entries give a record. */
  function Kept(entries: seq<Entry>): nat {
    if entries == [] then 0
    else Kept(entries[..|entries| - 1]) + (if StepOf(entries[|entries| - 1]).Append? then 1 else 0)
  }

  /** When processing succeeds, there is one record per kept entry, never more records than entries. */
  lemma {:induction false} ProcessedLength(entries: seq<Entry>)
    requires Processed(entries).Some?
    ensures |Processed(entries).value| == Kept(entries) <= |entries|
  {
    if entries != [] {
      ProcessedLength(entries[..|entries| - 1]);
    }
  }

  /** Every record from an error entry is the failure record, tagged `error`, naming the entry's id. */
  lemma {:induction false} ErrorEntriesTagged(entries: seq<Entry>, k: nat)
    requires Processed(entries).Some? && k < |entries|
    requires entries[k].error.Some? && !(entries[k].data.Some? && entries[k].data.value.PyList?)
    ensures exists j :: 0 <= j < |Processed(entries).value| && Processed(entries).value[j] == FailureRecord(IdOf(entries[k]))
  {
    var init := entries[..|entries| - 1];
    if k < |entries| - 1 {
      assert init[k] == entries[k];
      ErrorEntriesTagged(init, k);
      var j :| 0 <= j < |Processed(init).value| && Processed(init).value[j] == FailureRecord(IdOf(entries[k]));
      assert Processed(entries).value[j] == Processed(init).value[j];
    } else {
      assert Processed(entries).value[|Processed(entries).value| - 1] == FailureRecord(IdOf(entries[k]));
    }
  }

  /** An entry built by `resolve_resources` never raises, and it is dropped exactly when its body is not a list. */
  lemma ResolvedEntryStep(id: string, body: Option<PyValue>)
    ensures !StepOf(EntryFor(id, body)).Raises?
    ensures StepOf(EntryFor(id, body)).Skip? <==> body.Some? && Truthy(body.value) && !body.value.PyList?
  {
  }

  /**
   * The two steps chained: entries built by `resolve_resources` never make
   * processing raise, since only truthy bodies are kept; every failed id
   * becomes a failure record, and a truthy body that is not a list (a
   * dict, a string) is dropped.
   */
  lemma {:induction false} ResolvedEntriesProcess(ids: seq<string>, resolve: string -> Option<PyValue>, entries: seq<Entry>)
    requires |entries| == |ids|
    requires forall i :: 0 <= i < |ids| ==> entries[i] == EntryFor(ids[i], resolve(ids[i]))
    ensures Processed(entries).Some?
    ensures |Processed(entries).value| == Kept(entries)
    ensures forall i :: 0 <= i < |entries| ==> (StepOf(entries[i]).Skip? <==> entries[i].data.Some? && !entries[i].data.value.PyList?)
  {
    if entries != [] {
      var n := |entries| - 1;
      ResolvedEntriesProcess(ids[..n], resolve, entries[..n]);
      assert entries[..n][..n] == entries[..n];
      ResolvedEntryStep(ids[n], resolve(ids[n]));
      ProcessedLength(entries);
    }
    forall i | 0 <= i < |entries|
      ensures StepOf(entries[i]).Skip? <==> entries[i].data.Some? && !entries[i].data.value.PyList?
    {
      ResolvedEntryStep(ids[i], resolve(ids[i]));
    }
  }
}

=== FILE: extension_card.dfy ===
/**
 * The extension side panel's prompt card (chrome/src/components/PromptCard.tsx).
 * Its React state (`isModalOpen`, `variableValues`, `isProcessing`) is
 * kept in fields. What it asks of the browser goes into an effect log:
 * clipboard writes, notifications, `fillInput` messages relayed to the
 * page, and usage increments sent to the API.
 */
module ExtensionPromptCard {
  import opened Wrappers
  import opened Template
  import opened PromptCard

  /** The notifications the card raises; each shows a localised message. */
  datatype Notice = PromptCopied | PromptProcessedAndCopied | PleaseFillAllVariables

  datatype Effect =
    | CopyToClipboard(text: string)
    | Notify(notice: Notice, isError: bool)
    | FillInput(selector: string, content: string)
    | IncrementUsage(token: string, promptId: string)

  /** The selectors `fillPromptToInput` tries, from the most to the least specific. */
  const Selectors: seq<string> := [
    "textarea[placeholder=\"Optional tone and style instructions for the model\"]",
    "textarea[placeholder*=\"message\" i]",
    "textarea[placeholder*=\"prompt\" i]",
    "textarea[role=\"textbox\"]",
    "textarea",
    "input[type=\"text\"]",
    "[contenteditable=\"true\"]",
    "[role=\"textbox\"]"
  ]

  /** One `fillInput` message per selector, in the selectors' order. */
  function FillMessages(selectors: seq<string>, content: string): (r: seq<Effect>)
    ensures |r| == |selectors|
    ensures forall i :: 0 <= i < |r| ==> r[i] == FillInput(selectors[i], content)
  {
    if selectors == [] then []
    else FillMessages(selectors[..|selectors| - 1], content) + [FillInput(selectors[|selectors| - 1], content)]
  }

  /** Every one of the eight selectors gets the content, none of them twice. */
  lemma FillReachesEverySelector(content: string)
    ensures |FillMessages(Selectors, content)| == 8
    ensures forall sel :: sel in Selectors <==> FillInput(sel, content) in FillMessages(Selectors, content)
  {
    var r := FillMessages(Selectors, content);
    forall sel | FillInput(sel, content) in r
      ensures sel in Selectors
    {
      var i :| 0 <= i < |r| && r[i] == FillInput(sel, content);
      assert Selectors[i] == sel;
    }
    forall sel | sel in Selectors
      ensures FillInput(sel, content) in r
    {
      var i :| 0 <= i < |Selectors| && Selectors[i] == sel;
      assert r[i] == FillInput(sel, content);
    }
  }

  /** `localizedTagsMap[tag]`: a tag without a localised name renders as nothing. */
  function TagLabel(tag: string, localized: map<string, string>): (shown: string)
    ensures tag in localized ==> shown == localized[tag]
    ensures tag !in localized ==> shown == ""
  {
    if tag in localized then localized[tag] else ""
  }

  class Card {
    const id: string
    const title: string
    const content: string
    /** The session token the side panel passes down; `''` when logged out. */
    const token: string

    var isModalOpen: bool
    var variableValues: Values
    var isProcessing: bool
    var effects: seq<Effect>

    predicate Valid()
      reads this
    {
      UniqueKeys(variableValues)
    }

    constructor (id: string, title: string, content: string, token: string)
      ensures this.id == id && this.title == title && this.content == content && this.token == token
      ensures !isModalOpen && variableValues == [] && !isProcessing && effects == []
      ensures Valid()
    {
      this.id := id;
      this.title := title;
      this.content := content;
      this.token := token;
      isModalOpen := false;
      variableValues := [];
      isProcessing := false;
      effects := [];
    }

    /** `fillPromptToInput`: one message per selector, without stopping after one succeeds. */
    method FillPromptToInput(text: string)
      modifies this`effects
      ensures effects == old(effects) + FillMessages(Selectors, text)
    {
      for i := 0 to |Selectors|
        invariant effects == old(effects) + FillMessages(Selectors[..i], text)
      {
        assert Selectors[..i + 1][..i] == Selectors[..i];
        effects := effects + [FillInput(Selectors[i], text)];
      }
      assert Selectors[..|Selectors|] == Selectors;
    }

    /**
     * `handleUse`: content with variables opens the modal with every
     * extracted variable set to `''`; other content is copied, filled into
     * the page, and counted as a use whatever the token.
     */
    method HandleUse()
      requires Valid()
      modifies this
      ensures Valid()
      ensures HasVariables(content) ==>
        isModalOpen && Keys(variableValues) == Dedup(Placeholders(content))
        && (forall i :: 0 <= i < |variableValues| ==> variableValues[i].1 == "")
        && effects == old(effects)
      ensures !HasVariables(content) ==>
        isModalOpen == old(isModalOpen) && variableValues == old(variableValues)
        && effects == old(effects) + [CopyToClipboard(content), Notify(PromptCopied, false)]
          + FillMessages(Selectors, content) + [IncrementUsage(token, id)]
      ensures isProcessing == old(isProcessing)
    {
      if HasVariables(content) {
        isModalOpen := true;
        var variables := ExtractVariables(content);
        var initial := InitialValues(variables);
        ModalFieldsAreVariables(content);
        KeysDistinct(initial);
        variableValues := initial;
      } else {
        effects := effects + [CopyToClipboard(content), Notify(PromptCopied, false)];
        FillPromptToInput(content);
        effects := effects + [IncrementUsage(token, id)];
      }
    }

    /** `handleCopy`: copies the raw content; a use is counted only with a token. */
    method HandleCopy()
      modifies this`effects
      ensures effects == old(effects) + [CopyToClipboard(content), Notify(PromptCopied, false)]
        + (if token != "" then [IncrementUsage(token, id)] else [])
    {
      effects := effects + [CopyToClipboard(content), Notify(PromptCopied, false)];
      if token != "" {
        effects := effects + [IncrementUsage(token, id)];
      }
    }

    /** `handleVariableChange`: the typed value replaces that variable's value only. */
    method HandleVariableChange(name: string, value: string)
      requires Valid()
      modifies this`variableValues
      ensures Valid()
      ensures variableValues == SetValue(old(variableValues), name, value)
      ensures Lookup(variableValues, name) == Some(value)
      ensures forall other :: other != name ==> Lookup(variableValues, other) == Lookup(old(variableValues), other)
    {
      SetValueSpec(variableValues, name, value);
      variableValues := SetValue(variableValues, name, value);
    }

    /** The modal's close and cancel buttons. */
    method CloseModal()
      modifies this`isModalOpen
      ensures !isModalOpen
    {
      isModalOpen := false;
    }

    /**
     * `handleModalConfirm`: with a blank value it reports the error and
     * changes nothing else; otherwise it copies the processed content,
     * fills it into the page, closes the modal, and counts a use only with
     * a token.
     */
    method HandleModalConfirm()
      modifies this
      ensures variableValues == old(variableValues) && !isProcessing
      ensures !AllFilled(variableValues) ==>
        isModalOpen == old(isModalOpen)
        && effects == old(effects) + [Notify(PleaseFillAllVariables, true)]
      ensures AllFilled(variableValues) ==>
        !isModalOpen
        && effects == old(effects)
          + [CopyToClipboard(ApplyAll(content, OwnKeyOrder(variableValues))), Notify(PromptProcessedAndCopied, false)]
          + FillMessages(Selectors, ApplyAll(content, OwnKeyOrder(variableValues)))
          + (if token != "" then [IncrementUsage(token, id)] else [])
    {
      isProcessing := true;
      if !AllFilled(variableValues) {
        effects := effects + [Notify(PleaseFillAllVariables, true)];
        isProcessing := false;
        return;
      }
      var processed := ProcessPromptWithVariables(content, variableValues);
      effects := effects + [CopyToClipboard(processed), Notify(PromptProcessedAndCopied, false)];
      FillPromptToInput(processed);
      isModalOpen := false;
      if token != "" {
        effects := effects + [IncrementUsage(token, id)];
      }
      isProcessing := false;
    }
  }
}

=== FILE: i18n.dfy ===
/**
 * The desktop app's message lookup (desktop/src/common/i18n.ts): the
 * current language, the per-language message cache, and the `language`
 * entry of the settings store. Reading a messages file and reaching the
 * store are inputs.
 */
module I18n {
  import opened Wrappers

  const SupportedLanguages: seq<string> := ["en", "zh-CN", "ja"]
  const DefaultLanguage: string := "en"

  predicate Supported(language: string) {
    language in SupportedLanguages
  }

  /** A `messages.json`: each key's `message` text, `''` for an entry without one. */
  type Messages = map<string, string>

  /** Reading a language's messages file: its parsed contents, or a failure (missing file, bad status, bad JSON). */
  datatype Loaded = Read(messages: Messages) | Unreadable

  /** Whether the code runs in Electron's main process or in the renderer. */
  datatype Process = MainProcess | Renderer

  /** Reading the saved language: the stored value (`''` when unset), or an error. */
  datatype StoreRead = Stored(value: string) | StoreError

  /** `messagesCache[language][key].message` when it is a non-empty text. */
  function MessageOf(cache: map<string, Messages>, language: string, key: string): Option<string> {
    if language in cache && key in cache[language] && cache[language][key] != "" then Some(cache[language][key]) else None
  }

  /** `t(key, fallback)`: the current language's message, else English's, else the fallback, else the key. */
  function Translate(cache: map<string, Messages>, current: string, key: string, fallback: string): (text: string) {
    if MessageOf(cache, current, key).Some? then MessageOf(cache, current, key).value
    else if current != DefaultLanguage && MessageOf(cache, DefaultLanguage, key).Some? then MessageOf(cache, DefaultLanguage, key).value
    else if fallback != "" then fallback
    else key
  }

  /**
   * The fallback chain: a message of the current language wins; without
   * one, English's message is used; without either, the fallback text or
   * else the key. A non-empty key never translates to `''`.
   */
  lemma TranslateChain(cache: map<string, Messages>, current: string, key: string, fallback: string)
    ensures var text := Translate(cache, current, key, fallback);
      && (MessageOf(cache, current, key).Some? ==> text == cache[current][key])
      && (MessageOf(cache, current, key).None? && MessageOf(cache, DefaultLanguage, key).Some? ==> text == cache[DefaultLanguage][key])
      && (MessageOf(cache, current, key).None? && MessageOf(cache, DefaultLanguage, key).None? ==> text == (if fallback != "" then fallback else key))
      && (key != "" ==> text != "")
  {
  }

  /** A language whose file failed to load, cached as `{}`, shows English's messages. */
  lemma FailedLanguageShowsEnglish(cache: map<string, Messages>, current: string, key: string, fallback: string)
    requires current in cache && cache[current] == map[]
    ensures Translate(cache, current, key, fallback) == Translate(cache, DefaultLanguage, key, fallback)
  {
  }

  /** `getLanguageDisplayName`: each supported language in its own script, any other code as itself. */
  function LanguageDisplayName(language: string): (name: string)
    ensures language == "en" ==> name == "English"
    ensures language == "zh-CN" ==> name == "简体中文"
    ensures language == "ja" ==> name == "日本語"
    ensures !Supported(language) ==> name == language
  {
    if language == "en" then "English"
    else if language == "zh-CN" then "简体中文"
    else if language == "ja" then "日本語"
    else language
  }

  /** The three display names are distinct, so the language menu never shows two alike. */
  lemma DisplayNamesDistinct(a: string, b: string)
    requires Supported(a) && Supported(b) && a != b
    ensures LanguageDisplayName(a) != LanguageDisplayName(b)
  {
  }

  /** The language the saved value selects: itself when supported, else English. */
  function SavedChoice(read: StoreRead): (language: string)
    ensures Supported(language)
  {
    if read.Stored? && Supported(read.value) then read.value else DefaultLanguage
  }

  /** Every cached language is still cached with the same messages. */
  predicate Keeps(before: map<string, Messages>, after: map<string, Messages>) {
    forall language :: language in before ==> language in after && after[language] == before[language]
  }

  class Localizer {
    var currentLanguage: string
    var messagesCache: map<string, Messages>
    /** The `language` entry of the settings store, `''` while unset. */
    var storedLanguage: string

    predicate Valid()
      reads this
    {
      Supported(currentLanguage)
    }

    constructor (storedLanguage: string)
      ensures currentLanguage == DefaultLanguage && messagesCache == map[] && this.storedLanguage == storedLanguage
      ensures Valid()
    {
      currentLanguage := DefaultLanguage;
      messagesCache := map[];
      this.storedLanguage := storedLanguage;
    }

    /** `loadMessages`: a cached language is never reloaded, even when cached as `{}` after a failure. */
    method LoadMessages(language: string, loaded: Loaded)
      modifies this`messagesCache
      ensures language in old(messagesCache) ==> messagesCache == old(messagesCache)
      ensures language !in old(messagesCache) ==>
        messagesCache == old(messagesCache)[language := if loaded.Read? then loaded.messages else map[]]
    {
      if language in messagesCache {
        return;
      }
      match loaded {
        case Read(messages) => messagesCache := messagesCache[language := messages];
        case Unreadable => messagesCache := messagesCache[language := map[]];
      }
    }

    /**
     * `initI18n`: an explicitly passed supported language wins; otherwise
     * the saved language when supported; otherwise English, which the
     * main process also writes back to the store. A store error, or a
     * renderer without a getter, gives English. The main process reads
     * the store's own `language` entry, so for it `read` only says whether
     * the store could be opened; the renderer's getter answers `read`.
     * The chosen language's messages are loaded, and the language is
     * returned.
     */
    method InitI18n(language: Option<string>, process: Process, hasGetter: bool, read: StoreRead, loaded: Loaded)
      returns (chosen: string)
      requires Valid()
      modifies this
      ensures Valid() && chosen == currentLanguage
      ensures language.Some? && Supported(language.value) ==> chosen == language.value && storedLanguage == old(storedLanguage)
      ensures !(language.Some? && Supported(language.value)) ==>
        chosen == (if process == Renderer && !hasGetter then DefaultLanguage
                   else if process == MainProcess && read.Stored? then SavedChoice(Stored(old(storedLanguage)))
                   else SavedChoice(read))
        && storedLanguage == (if process == MainProcess && read.Stored? && !Supported(old(storedLanguage)) then DefaultLanguage else old(storedLanguage))
      ensures chosen in messagesCache
      ensures Keeps(old(messagesCache), messagesCache)
      ensures messagesCache == if chosen in old(messagesCache) then old(messagesCache)
        else old(messagesCache)[chosen := if loaded.Read? then loaded.messages else map[]]
    {
      if language.Some? && language.value != "" && Supported(language.value) {
        currentLanguage := language.value;
      } else {
        match process {
          case MainProcess =>
            if read.StoreError? {
              currentLanguage := DefaultLanguage;
            } else if storedLanguage != "" && Supported(storedLanguage) {
              currentLanguage := storedLanguage;
            } else {
              currentLanguage := DefaultLanguage;
              storedLanguage := DefaultLanguage;
            }
          case Renderer =>
            if !hasGetter || read.StoreError? {
              currentLanguage := DefaultLanguage;
            } else if read.value != "" && Supported(read.value) {
              currentLanguage := read.value;
            } else {
              currentLanguage := DefaultLanguage;
            }
        }
      }
      LoadMessages(currentLanguage, loaded);
      chosen := currentLanguage;
    }

    /**
     * `setLanguage`: an unsupported language changes nothing. Otherwise
     * the language becomes current, its messages are loaded, and it is
     * saved (by the main process itself, or through the renderer's
     * setter) unless saving fails.
     */
    method SetLanguage(language: string, process: Process, hasSetter: bool, saveFails: bool, loaded: Loaded)
      requires Valid()
      modifies this
      ensures Valid()
      ensures !Supported(language) ==>
        currentLanguage == old(currentLanguage) && messagesCache == old(messagesCache) && storedLanguage == old(storedLanguage)
      ensures Supported(language) ==>
        currentLanguage == language && language in messagesCache && Keeps(old(messagesCache), messagesCache)
        && messagesCache == (if language in old(messagesCache) then old(messagesCache)
                             else old(messagesCache)[language := if loaded.Read? then loaded.messages else map[]])
        && storedLanguage == (if !saveFails && (process == MainProcess || hasSetter) then language else old(storedLanguage))
    {
      if !Supported(language) {
        return;
      }
      currentLanguage := language;
      LoadMessages(language, loaded);
      if !saveFails && (process == MainProcess || hasSetter) {
        storedLanguage := language;
      }
    }
  }

  /** Loading a language twice gives the same cache as loading it once, whatever the second read returns. */
  method LoadTwice(l: Localizer, language: string, first: Loaded, second: Loaded)
    modifies l
    ensures l.messagesCache == old(l.messagesCache)[language := if language in old(l.messagesCache) then old(l.messagesCache)[language]
      else if first.Read? then first.messages else map[]]
  {
    l.LoadMessages(language, first);
    ghost var once := l.messagesCache;
    l.LoadMessages(language, second);
    assert l.messagesCache == once;
  }
}

=== FILE: js_values.dfy ===
/**
 * JavaScript values as the extension's API layer and the background worker
 * see them after `response.json()`: primitives, arrays, plain objects, and
 * the `Date` objects the client builds.  Truthiness, `a || b` and property
 * reads (which throw a `TypeError` on null and undefined) are what the
 * modelled code relies on.
 */
module JsValues {
  import opened Wrappers
  import opened Strings

  datatype Value =
    | Undefined
    | Null
    | Bool(b: bool)
    | Num(n: int)
    | Str(s: string)
    | Arr(items: seq<Value>)
    | Obj(props: map<string, Value>)
    | Date(source: Value)

  /** JavaScript truthiness (integers only, so no NaN). */
  predicate Truthy(v: Value) {
    match v
    case Undefined => false
    case Null => false
    case Bool(b) => b
    case Num(n) => n != 0
    case Str(s) => s != []
    case _ => true
  }

  /** `a || b`. */
  function Or(a: Value, b: Value): Value {
    if Truthy(a) then a else b
  }

  /** `v.key`: None stands for the TypeError thrown when `v` is null or undefined. */
  function Prop(v: Value, key: string): Option<Value> {
    match v
    case Undefined => None
    case Null => None
    case Obj(props) => Some(if key in props then props[key] else Undefined)
    case _ => Some(Undefined)
  }

  /** Message of the TypeError raised by a property read on null or undefined. */
  const TypeErrorMessage: string := "Cannot read properties of undefined"

  /** `String(v)` for the values an error message can be built from. */
  function ToText(v: Value): string {
    match v
    case Undefined => "undefined"
    case Null => "null"
    case Bool(b) => if b then "true" else "false"
    case Num(n) => IntToString(n)
    case Str(s) => s
    case Arr(_) => "[array]"
    case Obj(_) => "[object Object]"
    case Date(_) => "[date]"
  }

  /** `{ ...base, ...overrides }` on plain objects: later properties win. */
  function Spread(base: map<string, Value>, overrides: map<string, Value>): (r: map<string, Value>)
    ensures r.Keys == base.Keys + overrides.Keys
    ensures forall k :: k in overrides ==> r[k] == overrides[k]
    ensures forall k :: k in base && k !in overrides ==> r[k] == base[k]
  {
    base + overrides
  }

  /** The properties a spread copies out of a value: own properties of an object, none of anything else. */
  function OwnProps(v: Value): map<string, Value> {
    if v.Obj? then v.props else map[]
  }
}

=== FILE: prompt_card.dfy ===
/**
 * The logic the two prompt cards share (chrome/src/components/PromptCard.tsx
 * and desktop/src/renderer/src/components/PromptCard.tsx): the
 * `hasVariables` gate, the `variableValues` object the variables modal
 * edits, the check that every variable is filled, the 100-character card
 * preview and the live preview that splits the content on `{{[^}]+}}`.
 * The cards' state and effects are the classes of extension_card.dfy and
 * desktop_card.dfy.
 */
module PromptCard {
  import opened Wrappers
  import opened Strings
  import opened Template

  // ---------------------------------------------------------------------
  // The gate
  // ---------------------------------------------------------------------

  /** `hasVariables`: `{{` occurs somewhere and `}}` occurs somewhere, in either order. */
  predicate HasVariables(content: string) {
    Contains(content, "{{") && Contains(content, "}}")
  }

  /** Content from which `extractVariables` collects anything passes the gate. */
  lemma VariablesPassGate(content: string)
    requires Placeholders(content) != []
    ensures HasVariables(content)
  {
    var r := Exec(content, 0);
    assert Placeholders(content) == ScanAfter(content, r);
    assert r.Match?;
    ExecSpec(content, 0);
    assert OccursAt(content, "{{", r.start);
    assert OccursAt(content, "}}", r.close);
  }

  /** The converse fails: `}}` before `{{` opens the modal with no variable to fill. */
  lemma GateWithoutVariables()
    ensures HasVariables("}}{{") && Placeholders("}}{{") == []
  {
    assert OccursAt("}}{{", "}}", 0) && OccursAt("}}{{", "{{", 2);
    forall i | 0 <= i < 4
      ensures !Matches("}}{{", i)
    {
      if i == 2 {
        assert CloseFrom("}}{{", 4) == None;
      }
    }
    NoMatchNoPlaceholders("}}{{");
  }

  // ---------------------------------------------------------------------
  // The variableValues object
  // ---------------------------------------------------------------------

  /** A string-to-string object, its properties in insertion order. */
  type Values = seq<(string, string)>

  predicate UniqueKeys(values: Values) {
    forall i, j :: 0 <= i < j < |values| ==> values[i].0 != values[j].0
  }

  /** Distinct keys make an object whose properties are unique. */
  lemma KeysDistinct(values: Values)
    requires forall i, j :: 0 <= i < j < |Keys(values)| ==> Keys(values)[i] != Keys(values)[j]
    ensures UniqueKeys(values)
  {
    forall i, j | 0 <= i < j < |values|
      ensures values[i].0 != values[j].0
    {
      assert Keys(values)[i] == values[i].0 && Keys(values)[j] == values[j].0;
    }
  }

  /** `values[k]`, `None` for a property the object lacks (the first entry for `k`). */
  function Lookup(values: Values, k: string): Option<string> {
    if values == [] then None
    else
      var found := Lookup(values[..|values| - 1], k);
      if found.Some? then found
      else if values[|values| - 1].0 == k then Some(values[|values| - 1].1)
      else None
  }

  /** A key the object lacks reads as `undefined`. */
  lemma {:induction false} LookupMissing(values: Values, k: string)
    requires k !in Keys(values)
    ensures Lookup(values, k) == None
  {
    if values != [] {
      var p := values[..|values| - 1];
      assert Keys(values) == Keys(p) + [values[|values| - 1].0];
      LookupMissing(p, k);
    }
  }

  /** A key the object has reads as the value stored with it. */
  lemma {:induction false} LookupSome(values: Values, k: string)
    requires k in Keys(values)
    ensures Lookup(values, k).Some?
    ensures exists i | 0 <= i < |values| :: values[i] == (k, Lookup(values, k).value)
  {
    var n := |values| - 1;
    var p := values[..n];
    assert Keys(values) == Keys(p) + [values[n].0];
    if k in Keys(p) {
      LookupSome(p, k);
      var i :| 0 <= i < |p| && p[i] == (k, Lookup(p, k).value);
      assert values[i] == p[i];
    } else {
      LookupMissing(p, k);
      assert values[n] == (k, Lookup(values, k).value);
    }
  }

  /** With unique keys, each entry is what reading its key gives. */
  lemma {:induction false} LookupAt(values: Values, i: nat)
    requires UniqueKeys(values) && i < |values|
    ensures Lookup(values, values[i].0) == Some(values[i].1)
  {
    var n := |values| - 1;
    var p := values[..n];
    if i < n {
      assert p[i] == values[i];
      LookupAt(p, i);
    } else {
      assert values[n].0 !in Keys(p) by {
        forall j | 0 <= j < |p|
          ensures Keys(p)[j] != values[n].0
        {
          assert p[j] == values[j];
        }
      }
      LookupMissing(p, values[n].0);
    }
  }

  /**
   * `{ ...values, [k]: v }`: an existing property keeps its place and
   * takes the new value; a new one is appended.
   */
  function SetValue(values: Values, k: string, v: string): (r: Values)
    ensures Keys(r) == if k in Keys(values) then Keys(values) else Keys(values) + [k]
  {
    if k in Keys(values) then
      var i := FirstIndex(Keys(values), k);
      var r := values[i := (k, v)];
      assert Keys(r) == Keys(values);
      r
    else
      var r := values + [(k, v)];
      assert Keys(r) == Keys(values) + [k];
      r
  }

  /** `handleVariableChange`: the edited variable reads as the new value; no other variable changes. */
  lemma SetValueSpec(values: Values, k: string, v: string)
    requires UniqueKeys(values)
    ensures UniqueKeys(SetValue(values, k, v))
    ensures Lookup(SetValue(values, k, v), k) == Some(v)
    ensures forall j :: j != k ==> Lookup(SetValue(values, k, v), j) == Lookup(values, j)
  {
    var r := SetValue(values, k, v);
    var m := if k in Keys(values) then FirstIndex(Keys(values), k) else |values|;
    assert r[m] == (k, v);
    assert forall i :: 0 <= i < |r| && i != m ==> r[i] == values[i];
    assert UniqueKeys(r) by {
      forall i, j | 0 <= i < j < |r|
        ensures r[i].0 != r[j].0
      {
        assert Keys(r)[i] == r[i].0 && Keys(r)[j] == r[j].0;
        if i == m || j == m {
          assert k !in Keys(values) ==> Keys(r)[m] !in Keys(values);
        }
      }
    }
    LookupAt(r, m);
    forall j | j != k
      ensures Lookup(r, j) == Lookup(values, j)
    {
      if j in Keys(values) {
        var i := FirstIndex(Keys(values), j);
        assert i != m && values[i].0 == j;
        LookupAt(values, i);
        LookupAt(r, i);
      } else {
        LookupMissing(values, j);
        LookupMissing(r, j);
      }
    }
  }

  /**
   * The `forEach` that sets every extracted variable to `''` in a fresh
   * object, in order.
   */
  method InitialValues(variables: seq<string>) returns (values: Values)
    ensures Keys(values) == Dedup(variables)
    ensures forall i :: 0 <= i < |values| ==> values[i].1 == ""
    ensures variables != [] ==> !AllFilled(values)
  {
    values := [];
    for i := 0 to |variables|
      invariant Keys(values) == Dedup(variables[..i])
      invariant forall j :: 0 <= j < |values| ==> values[j].1 == ""
    {
      assert variables[..i + 1][..i] == variables[..i];
      values := SetValue(values, variables[i], "");
    }
    assert variables[..|variables|] == variables;
    if variables != [] {
      assert variables[0] in Dedup(variables);
      assert values[0].1 == "";
    }
  }

  /** Removing repeats from a list without repeats changes nothing. */
  lemma {:induction false} DedupDistinct(xs: seq<string>)
    requires forall i, j :: 0 <= i < j < |xs| ==> xs[i] != xs[j]
    ensures Dedup(xs) == xs
  {
    if xs != [] {
      var p := xs[..|xs| - 1];
      DedupDistinct(p);
      assert xs[|xs| - 1] !in p;
      assert xs == p + [xs[|xs| - 1]];
    }
  }

  /**
   * The modal gets one field per extracted variable, in the order
   * `extractVariables` returns them: its result has no repeats left to drop.
   */
  lemma ModalFieldsAreVariables(content: string)
    ensures Dedup(Dedup(Placeholders(content))) == Dedup(Placeholders(content))
  {
    DedupDistinct(Dedup(Placeholders(content)));
  }

  /** `Object.values(variableValues).every(value => value && value.trim())`. */
  predicate AllFilled(values: Values) {
    forall i :: 0 <= i < |values| ==> values[i].1 != "" && Trim(values[i].1) != ""
  }

  /** Confirm goes ahead exactly when no value is blank (empty or white space only). */
  lemma AllFilledMeansNoBlank(values: Values)
    ensures AllFilled(values) <==> forall i :: 0 <= i < |values| ==> !IsBlank(values[i].1)
  {
    forall i | 0 <= i < |values|
      ensures (values[i].1 != "" && Trim(values[i].1) != "") <==> !IsBlank(values[i].1)
    {
      TrimEmpty(values[i].1);
    }
  }

  // ---------------------------------------------------------------------
  // The card preview
  // ---------------------------------------------------------------------

  /** `content.substring(0, 100) + (content.length > 100 ? '...' : '')`. */
  function CardPreview(content: string): (r: string)
    ensures |content| <= 100 ==> r == content
    ensures |content| > 100 ==> |r| == 103 && r[..100] == content[..100] && r[100..] == "..."
  {
    Take(content, 100) + (if |content| > 100 then "..." else "")
  }

  // ---------------------------------------------------------------------
  // The live preview: content.split(/(\{\{[^}]+\}\})/g)
  // ---------------------------------------------------------------------

  /** Length of the leading run of characters other than `}`. */
  function NonCloseRun(s: string): (n: nat)
    ensures n <= |s|
  {
    if s == [] || s[0] == '}' then 0 else 1 + NonCloseRun(s[1..])
  }

  /** The run stops at the first `}`, or at the end. */
  lemma {:induction false} NonCloseRunSpec(s: string)
    ensures NonCloseRun(s) < |s| ==> s[NonCloseRun(s)] == '}'
    ensures forall i :: 0 <= i < NonCloseRun(s) ==> s[i] != '}'
  {
    if s != [] && s[0] != '}' {
      NonCloseRunSpec(s[1..]);
    }
  }

  /** A match of `{{[^}]+}}`: `{{`, at least one character other than `}`, then `}}`. */
  predicate IsToken(t: string) {
    |t| >= 5 && t[0] == '{' && t[1] == '{' && t[|t| - 2] == '}' && t[|t| - 1] == '}'
    && forall i :: 2 <= i < |t| - 2 ==> t[i] != '}'
  }

  /**
   * Where `{{[^}]+}}` matches at the start of `s`, the length of the match:
   * the greedy run stops at the first `}`, which must be followed by a
   * second one.
   */
  function TokenLength(s: string): (n: Option<nat>)
    ensures n.Some? ==> 5 <= n.value <= |s|
  {
    if |s| >= 2 && s[0] == '{' && s[1] == '{' then
      var run := NonCloseRun(s[2..]);
      if run >= 1 && 2 + run + 2 <= |s| && s[2 + run + 1] == '}' then Some(2 + run + 2) else None
    else None
  }

  /** What `TokenLength` finds is a match of the pattern. */
  lemma TokenLengthSound(s: string)
    requires TokenLength(s).Some?
    ensures IsToken(s[..TokenLength(s).value])
  {
    var t := s[..TokenLength(s).value];
    NonCloseRunSpec(s[2..]);
    assert forall i :: 2 <= i < |t| - 2 ==> t[i] == s[2..][i - 2];
  }

  /** No match starts where `{` does not. */
  lemma NoTokenWithoutBrace(s: string)
    requires s != [] && s[0] != '{'
    ensures TokenLength(s).None?
  {
  }

  /** The pattern matches at the start of `s` in exactly one way. */
  lemma TokenLengthComplete(s: string, m: nat)
    requires m <= |s| && IsToken(s[..m])
    ensures TokenLength(s) == Some(m)
  {
    var t := s[..m];
    var run := NonCloseRun(s[2..]);
    NonCloseRunSpec(s[2..]);
    assert t[m - 2] == '}';
    assert forall i :: 2 <= i < m - 2 ==> s[2..][i - 2] == t[i];
    assert run == m - 4;
    assert s[2 + run + 1] == t[m - 1];
  }

  /**
   * `content.split(/(\{\{[^}]+\}\})/g)`: the text before the leftmost match,
   * the match itself (the pattern captures it), and so on; the matches at
   * the odd positions.
   */
  function PreviewSplit(s: string): (parts: seq<string>)
    ensures parts != []
    decreases |s|
  {
    if s == [] then [""]
    else
      match TokenLength(s)
      case Some(n) => ["", s[..n]] + PreviewSplit(s[n..])
      case None =>
        var rest := PreviewSplit(s[1..]);
        [[s[0]] + rest[0]] + rest[1..]
  }

  function Concat(parts: seq<string>): string {
    if parts == [] then "" else parts[0] + Concat(parts[1..])
  }

  /** `split` at a match at the start: an empty part, then the match. */
  lemma SplitAtToken(s: string, n: nat)
    requires TokenLength(s) == Some(n)
    ensures PreviewSplit(s) == ["", s[..n]] + PreviewSplit(s[n..])
  {
  }

  /** `split` where no match starts: the first character joins the first part of the rest. */
  lemma SplitAtText(s: string)
    requires s != [] && TokenLength(s).None?
    ensures PreviewSplit(s) == [[s[0]] + PreviewSplit(s[1..])[0]] + PreviewSplit(s[1..])[1..]
  {
  }

  lemma ConcatPair(a: string, p: seq<string>)
    ensures Concat(["", a] + p) == a + Concat(p)
  {
    assert (["", a] + p)[1..] == [a] + p;
    assert ([a] + p)[1..] == p;
  }

  lemma ConcatJoined(x: string, r: seq<string>)
    requires r != []
    ensures Concat([x + r[0]] + r[1..]) == x + Concat(r)
  {
    assert ([x + r[0]] + r[1..])[1..] == r[1..];
  }

  /** Splitting loses nothing: the parts spell the content again. */
  lemma {:induction false} SplitConcat(s: string)
    ensures Concat(PreviewSplit(s)) == s
    decreases |s|, 1
  {
    if s != [] {
      if TokenLength(s).Some? {
        SplitConcatToken(s, TokenLength(s).value);
      } else {
        SplitConcatText(s);
      }
    }
  }

  lemma {:induction false} SplitConcatToken(s: string, n: nat)
    requires TokenLength(s) == Some(n)
    ensures Concat(PreviewSplit(s)) == s
    decreases |s|, 0
  {
    calc {
      Concat(PreviewSplit(s));
      { SplitAtToken(s, n); }
      Concat(["", s[..n]] + PreviewSplit(s[n..]));
      { ConcatPair(s[..n], PreviewSplit(s[n..])); }
      s[..n] + Concat(PreviewSplit(s[n..]));
      { SplitConcat(s[n..]); }
      s[..n] + s[n..];
      { assert s[..n] + s[n..] == s; }
      s;
    }
  }

  lemma {:induction false} SplitConcatText(s: string)
    requires s != [] && TokenLength(s).None?
    ensures Concat(PreviewSplit(s)) == s
    decreases |s|, 0
  {
    SplitAtText(s);
    SplitConcat(s[1..]);
    ConcatJoined([s[0]], PreviewSplit(s[1..]));
    assert [s[0]] + s[1..] == s;
  }

  /** Every part at an odd position is a match of the pattern. */
  lemma {:induction false} SplitTokens(s: string)
    ensures forall i :: 0 <= i < |PreviewSplit(s)| && i % 2 == 1 ==> IsToken(PreviewSplit(s)[i])
    decreases |s|
  {
    if s != [] {
      var parts := PreviewSplit(s);
      match TokenLength(s)
      case Some(n) =>
        var p := PreviewSplit(s[n..]);
        SplitTokens(s[n..]);
        TokenLengthSound(s);
        assert parts == ["", s[..n]] + p;
        forall i | 0 <= i < |parts| && i % 2 == 1
          ensures IsToken(parts[i])
        {
          if i > 1 {
            assert parts[i] == p[i - 2];
          }
        }
      case None =>
        var rest := PreviewSplit(s[1..]);
        SplitTokens(s[1..]);
        assert parts == [[s[0]] + rest[0]] + rest[1..];
        forall i | 0 <= i < |parts| && i % 2 == 1
          ensures IsToken(parts[i])
        {
          assert parts[i] == rest[i];
        }
    }
  }

  /**
   * A part shaped like a placeholder: starts with `{{` and ends with `}}`
   * (which no part shorter than four characters does).
   */
  predicate Marked(part: string) {
    |part| >= 4 && StartsWith(part, "{{") && EndsWith(part, "}}")
  }

  /**
   * How the preview shows one part: a marked part shows the value of its
   * trimmed inner text when that value is non-empty, and itself otherwise;
   * any other part shows itself.
   */
  function DisplayPart(part: string, values: Values): string {
    if Marked(part) then
      var v := Lookup(values, Trim(part[2..|part| - 2])).GetOr("");
      if v != "" then v else part
    else part
  }

  function Display(parts: seq<string>, values: Values): string {
    if parts == [] then "" else DisplayPart(parts[0], values) + Display(parts[1..], values)
  }

  /** The live preview of the content for the values typed so far. */
  function LivePreview(content: string, values: Values): string {
    Display(PreviewSplit(content), values)
  }

  lemma {:induction false} DisplayUnchanged(parts: seq<string>, values: Values)
    requires forall i :: 0 <= i < |parts| ==> DisplayPart(parts[i], values) == parts[i]
    ensures Display(parts, values) == Concat(parts)
  {
    if parts != [] {
      DisplayUnchanged(parts[1..], values);
    }
  }

  /** Before any value is typed the live preview is the content itself. */
  lemma LivePreviewUnfilled(content: string, values: Values)
    requires forall i :: 0 <= i < |values| ==> values[i].1 == ""
    ensures LivePreview(content, values) == content
  {
    var parts := PreviewSplit(content);
    forall i | 0 <= i < |parts|
      ensures DisplayPart(parts[i], values) == parts[i]
    {
      if Marked(parts[i]) {
        var k := Trim(parts[i][2..|parts[i]| - 2]);
        if k in Keys(values) {
          LookupSome(values, k);
        } else {
          LookupMissing(values, k);
        }
      }
    }
    DisplayUnchanged(parts, values);
    SplitConcat(content);
  }

  // ---------------------------------------------------------------------
  // The live preview of a well-formed template
  // ---------------------------------------------------------------------

  /** What the preview shows for one segment: a placeholder with a non-empty value shows the value. */
  function SegmentPreview(g: Segment, values: Values): string {
    match g
    case Text(t) => t
    case Slot(_, n, _) =>
      var v := Lookup(values, n).GetOr("");
      if v != "" then v else RenderSegment(g)
  }

  function SegmentsPreview(segs: seq<Segment>, values: Values): string {
    if segs == [] then "" else SegmentPreview(segs[0], values) + SegmentsPreview(segs[1..], values)
  }

  /** Text without `{` cannot start a match, so it joins the first part of what follows. */
  lemma {:induction false} SplitText(t: string, s: string)
    requires NoOpenBrace(t)
    ensures PreviewSplit(t + s) == [t + PreviewSplit(s)[0]] + PreviewSplit(s)[1..]
  {
    if t == [] {
      assert t + s == s;
      assert t + PreviewSplit(s)[0] == PreviewSplit(s)[0];
      assert PreviewSplit(s) == [PreviewSplit(s)[0]] + PreviewSplit(s)[1..];
    } else {
      var u := t + s;
      assert u[0] == t[0] && u[1..] == t[1..] + s;
      NoTokenWithoutBrace(u);
      SplitAtText(u);
      SplitText(t[1..], s);
      var p := PreviewSplit(s);
      assert [u[0]] + (t[1..] + p[0]) == t + p[0];
    }
  }

  /** A well-formed placeholder is exactly one match of the preview pattern. */
  lemma SplitSlot(l: string, n: string, tr: string, s: string)
    requires WellFormedSegment(Slot(l, n, tr))
    ensures PreviewSplit(RenderSegment(Slot(l, n, tr)) + s) == ["", RenderSegment(Slot(l, n, tr))] + PreviewSplit(s)
  {
    var g := RenderSegment(Slot(l, n, tr));
    var u := g + s;
    assert u[..|g|] == g;
    assert IsToken(g) by {
      forall i | 2 <= i < |g| - 2
        ensures g[i] != '}'
      {
        if i < 2 + |l| {
          assert g[i] == l[i - 2];
        } else if i < 2 + |l| + |n| {
          assert g[i] == n[i - 2 - |l|];
        } else {
          assert g[i] == tr[i - 2 - |l| - |n|];
        }
      }
    }
    TokenLengthComplete(u, |g|);
    assert u[|g|..] == s;
  }

  /** The preview of a well-formed placeholder: the value of its name, or itself. */
  lemma DisplaySlot(l: string, n: string, tr: string, values: Values)
    requires WellFormedSegment(Slot(l, n, tr))
    ensures DisplayPart(RenderSegment(Slot(l, n, tr)), values) == SegmentPreview(Slot(l, n, tr), values)
  {
    var g := RenderSegment(Slot(l, n, tr));
    assert g[..2] == "{{" && g[|g| - 2..] == "}}";
    assert g[2..|g| - 2] == l + n + tr;
    TrimPadded(l, n, tr);
  }

  lemma DisplayPlain(x: string, values: Values)
    requires NoOpenBrace(x)
    ensures DisplayPart(x, values) == x
  {
    if |x| >= 2 {
      assert x[0] != '{';
    }
  }

  lemma NoOpenBraceAppend(t: string, x: string)
    requires NoOpenBrace(t) && NoOpenBrace(x)
    ensures NoOpenBrace(t + x)
  {
    assert forall i :: |t| <= i < |t + x| ==> (t + x)[i] == x[i - |t|];
  }

  /** One text segment in front of a previewed template. */
  lemma PreviewTextStep(t: string, s: string, values: Values)
    requires NoOpenBrace(t) && NoOpenBrace(PreviewSplit(s)[0])
    ensures NoOpenBrace(PreviewSplit(t + s)[0])
    ensures Display(PreviewSplit(t + s), values) == t + Display(PreviewSplit(s), values)
  {
    var p := PreviewSplit(s);
    SplitText(t, s);
    NoOpenBraceAppend(t, p[0]);
    DisplayPlain(t + p[0], values);
    DisplayPlain(p[0], values);
    var q := [t + p[0]] + p[1..];
    assert q[1..] == p[1..];
    assert Display(q, values) == t + p[0] + Display(p[1..], values);
  }

  /** One placeholder segment in front of a previewed template. */
  lemma PreviewSlotStep(l: string, n: string, tr: string, s: string, values: Values)
    requires WellFormedSegment(Slot(l, n, tr))
    ensures PreviewSplit(RenderSegment(Slot(l, n, tr)) + s)[0] == ""
    ensures Display(PreviewSplit(RenderSegment(Slot(l, n, tr)) + s), values)
      == SegmentPreview(Slot(l, n, tr), values) + Display(PreviewSplit(s), values)
  {
    var g := RenderSegment(Slot(l, n, tr));
    var p := PreviewSplit(s);
    SplitSlot(l, n, tr, s);
    DisplaySlot(l, n, tr, values);
    var q := ["", g] + p;
    assert q[1..] == [g] + p && ([g] + p)[1..] == p;
    assert DisplayPart("", values) == "";
  }

  /**
   * The live preview of a well-formed template shows each placeholder as
   * its value when that value is non-empty, and as itself otherwise.
   */
  lemma {:induction false} PreviewRendered(segs: seq<Segment>, values: Values)
    requires WellFormed(segs)
    ensures NoOpenBrace(PreviewSplit(Render(segs))[0])
    ensures LivePreview(Render(segs), values) == SegmentsPreview(segs, values)
  {
    if segs == [] {
      assert Render(segs) == "";
      assert PreviewSplit("") == [""];
      assert DisplayPart("", values) == "";
      assert Display([""], values) == "";
    } else {
      var g := segs[0];
      var s := Render(segs[1..]);
      assert WellFormedSegment(g);
      PreviewRendered(segs[1..], values);
      assert Render(segs) == RenderSegment(g) + s;
      match g
      case Text(t) =>
        PreviewTextStep(t, s, values);
      case Slot(l, n, tr) =>
        PreviewSlotStep(l, n, tr, s, values);
    }
  }

  /** Every placeholder whose name the values hold becomes the text of its (first) value. */
  function FillWith(segs: seq<Segment>, values: Values): (r: seq<Segment>)
    ensures |r| == |segs|
  {
    if segs == [] then []
    else
      var g := segs[0];
      [if g.Slot? && Lookup(values, g.name).Some? then Text(Lookup(values, g.name).value) else g]
      + FillWith(segs[1..], values)
  }

  /** Filling one more variable on top of the earlier ones. */
  lemma {:induction false} FillWithStep(segs: seq<Segment>, p: Values, k: string, v: string)
    ensures Fill(FillWith(segs, p), k, v) == FillWith(segs, p + [(k, v)])
  {
    if segs != [] {
      var vars := p + [(k, v)];
      assert vars[..|vars| - 1] == p;
      FillWithStep(segs[1..], p, k, v);
    }
  }

  /** No values fill nothing. */
  lemma {:induction false} FillWithNothing(segs: seq<Segment>)
    ensures FillWith(segs, []) == segs
  {
    if segs != [] {
      FillWithNothing(segs[1..]);
    }
  }

  /** Processing placeholder by placeholder, one variable after another, is `FillWith`. */
  lemma {:induction false} FillAllIsFillWith(segs: seq<Segment>, values: Values)
    ensures FillAll(segs, values) == FillWith(segs, values)
  {
    if values == [] {
      FillWithNothing(segs);
    } else {
      var p := values[..|values| - 1];
      var (k, v) := values[|values| - 1];
      FillAllIsFillWith(segs, p);
      FillWithStep(segs, p, k, v);
      assert p + [(k, v)] == values;
      assert FillAll(segs, values) == Fill(FillAll(segs, p), k, v);
      assert FillWith(segs, values) == FillWith(segs, p + [(k, v)]);
    }
  }

  /** Reading a key gives the value of the first entry under it. */
  lemma {:induction false} LookupFirstEntry(values: Values, k: string)
    ensures Lookup(values, k) == if KeyEntries(values, k) == [] then None else Some(KeyEntries(values, k)[0].1)
  {
    if values != [] {
      var p, last := values[..|values| - 1], values[|values| - 1];
      LookupFirstEntry(p, k);
      assert values == p + [last];
      KeyEntriesAppend(p, [last], k);
      assert [last][1..] == [];
    }
  }

  /** Listing an object's entries in `Object.keys` order changes no key's value. */
  lemma OwnKeyOrderLookup(values: Values)
    ensures forall k :: Lookup(OwnKeyOrder(values), k) == Lookup(values, k)
  {
    OwnKeyOrderSpec(values);
    forall k
      ensures Lookup(OwnKeyOrder(values), k) == Lookup(values, k)
    {
      LookupFirstEntry(values, k);
      LookupFirstEntry(OwnKeyOrder(values), k);
    }
  }

  /** Filling depends only on what each key reads as. */
  lemma {:induction false} FillWithSameLookup(segs: seq<Segment>, a: Values, b: Values)
    requires forall k :: Lookup(a, k) == Lookup(b, k)
    ensures FillWith(segs, a) == FillWith(segs, b)
  {
    if segs != [] {
      FillWithSameLookup(segs[1..], a, b);
    }
  }

  /** Where every placeholder has a non-empty value, the filled template is what the preview shows. */
  lemma {:induction false} RenderFillWith(segs: seq<Segment>, values: Values)
    requires forall i :: 0 <= i < |segs| && segs[i].Slot? ==>
      Lookup(values, segs[i].name).Some? && Lookup(values, segs[i].name).value != ""
    ensures Render(FillWith(segs, values)) == SegmentsPreview(segs, values)
  {
    if segs != [] {
      RenderFillWith(segs[1..], values);
      assert FillWith(segs, values)[1..] == FillWith(segs[1..], values);
      if segs[0].Slot? {
        assert segs[0] == segs[0];
      }
    }
  }

  /**
   * For a well-formed template with plain keys and values without `{`,
   * once every placeholder's name has a value and no value is blank, the
   * live preview shows exactly the text that confirm copies.
   */
  lemma PreviewShowsConfirmed(segs: seq<Segment>, values: Values)
    requires WellFormed(segs)
    requires forall k :: 0 <= k < |values| ==> PlainChars(values[k].0) && NoOpenBrace(values[k].1)
    requires AllFilled(values)
    requires forall x :: x in SlotNames(segs) ==> x in Keys(values)
    ensures LivePreview(Render(segs), values) == ApplyAll(Render(segs), OwnKeyOrder(values))
  {
    var ordered := OwnKeyOrder(values);
    OwnKeyOrderSpec(values);
    forall k | 0 <= k < |ordered|
      ensures PlainChars(ordered[k].0) && NoOpenBrace(ordered[k].1)
    {
      assert ordered[k] in multiset(values);
    }
    PreviewRendered(segs, values);
    ApplyRendered(segs, ordered);
    FillAllIsFillWith(segs, ordered);
    OwnKeyOrderLookup(values);
    FillWithSameLookup(segs, ordered, values);
    forall i | 0 <= i < |segs| && segs[i].Slot?
      ensures Lookup(values, segs[i].name).Some? && Lookup(values, segs[i].name).value != ""
    {
      SlotNameListed(segs, i);
      LookupSome(values, segs[i].name);
    }
    RenderFillWith(segs, values);
  }

  lemma {:induction false} SlotNameListed(segs: seq<Segment>, i: nat)
    requires i < |segs| && segs[i].Slot?
    ensures segs[i].name in SlotNames(segs)
  {
    if i > 0 {
      SlotNameListed(segs[1..], i - 1);
    }
  }
}

=== FILE: shortcut_settings.dfy ===
/**
 * The extension's keyboard-shortcut panel
 * (chrome/src/components/KeyboardShortcutSettings.tsx): the default
 * bindings per platform, the bindings read from the browser's commands,
 * and the binding each row shows. The platform query and the commands
 * query are inputs.
 */
module ShortcutSettings {
  import opened Wrappers
  import opened Template
  import opened PromptCard

  /** `ShortcutConfig`. */
  datatype ShortcutConfig = ShortcutConfig(name: string, description: string, action: string, defaultKey: string, defaultKeyMac: string)

  /** `ShortcutsConfig`: configs by key, in property order. */
  type ShortcutsConfig = seq<(string, ShortcutConfig)>

  /** `DEFAULT_SHORTCUTS`. */
  const DefaultShortcuts: ShortcutsConfig := [
    ("openPanel", ShortcutConfig("toggleSidePanel", "toggleSidePanelDesc", "openPanel", "Alt+O", "Cmd+O")),
    ("quickSaveSelection", ShortcutConfig("quickSaveSelection", "quickSaveSelectionDesc", "quickSaveSelection", "Alt+P", "Cmd+P")),
    ("quickInsertPrompt", ShortcutConfig("quickInsertPrompt", "quickInsertPromptDesc", "quickInsertPrompt", "/p<number>", "/p<number>"))
  ]

  /** `defaultShortcuts[action]`: the first config under that key. */
  function ConfigOf(shortcuts: ShortcutsConfig, action: string): (config: Option<ShortcutConfig>)
    ensures config.Some? ==> exists i :: 0 <= i < |shortcuts| && shortcuts[i] == (action, config.value)
    ensures config.None? ==> forall i :: 0 <= i < |shortcuts| ==> shortcuts[i].0 != action
  {
    if shortcuts == [] then None
    else if shortcuts[0].0 == action then Some(shortcuts[0].1)
    else
      var rest := ConfigOf(shortcuts[1..], action);
      assert forall i :: 1 <= i < |shortcuts| ==> shortcuts[i] == shortcuts[1..][i - 1];
      rest
  }

  /** `getPlatformDefaultKey`: `''` for an unknown action, else the Mac or the other default. */
  function PlatformDefaultKey(shortcuts: ShortcutsConfig, action: string, isMac: bool): (key: string)
    ensures ConfigOf(shortcuts, action).None? ==> key == ""
    ensures ConfigOf(shortcuts, action).Some? ==>
      key == (if isMac then ConfigOf(shortcuts, action).value.defaultKeyMac else ConfigOf(shortcuts, action).value.defaultKey)
  {
    var config := ConfigOf(shortcuts, action);
    if config.None? then "" else if isMac then config.value.defaultKeyMac else config.value.defaultKey
  }

  /** The stock defaults: `Alt` bindings, `Cmd` on Mac, and the `/p<number>` text command on both. */
  lemma StockDefaults(isMac: bool)
    ensures PlatformDefaultKey(DefaultShortcuts, "openPanel", isMac) == (if isMac then "Cmd+O" else "Alt+O")
    ensures PlatformDefaultKey(DefaultShortcuts, "quickSaveSelection", isMac) == (if isMac then "Cmd+P" else "Alt+P")
    ensures PlatformDefaultKey(DefaultShortcuts, "quickInsertPrompt", isMac) == "/p<number>"
    ensures PlatformDefaultKey(DefaultShortcuts, "other", isMac) == ""
  {
    assert DefaultShortcuts[1..][1..][1..] == [];
  }

  /** One entry of `chrome.commands.getAll()`; `shortcut` is `''` when unbound. */
  datatype Command = Command(name: string, shortcut: string)

  /** The action a browser command stands for, if any. */
  function ActionOf(commandName: string): Option<string> {
    if commandName == "toggle-side-panel" then Some("openPanel")
    else if commandName == "quick-save-selection" then Some("quickSaveSelection")
    else None
  }

  /** `shortcut || default`. */
  function BindingOf(shortcut: string, fallback: string): string {
    if shortcut != "" then shortcut else fallback
  }

  /** The bindings after the `forEach` over the commands, before the text command is added. */
  function FromCommands(commands: seq<Command>, shortcuts: ShortcutsConfig, isMac: bool): Values {
    if commands == [] then []
    else
      var loaded := FromCommands(commands[..|commands| - 1], shortcuts, isMac);
      var c := commands[|commands| - 1];
      match ActionOf(c.name)
      case Some(action) => SetValue(loaded, action, BindingOf(c.shortcut, PlatformDefaultKey(shortcuts, action, isMac)))
      case None => loaded
  }

  /** The last command for an action decides its binding: its shortcut, else the platform default. */
  function LastFor(commands: seq<Command>, action: string, shortcuts: ShortcutsConfig, isMac: bool): Option<string> {
    if commands == [] then None
    else
      var c := commands[|commands| - 1];
      if ActionOf(c.name) == Some(action) then Some(BindingOf(c.shortcut, PlatformDefaultKey(shortcuts, action, isMac)))
      else LastFor(commands[..|commands| - 1], action, shortcuts, isMac)
  }

  /** Each action reads as its last command's binding, and unknown commands add nothing. */
  lemma {:induction false} FromCommandsLookup(commands: seq<Command>, shortcuts: ShortcutsConfig, isMac: bool, action: string)
    ensures UniqueKeys(FromCommands(commands, shortcuts, isMac))
    ensures Lookup(FromCommands(commands, shortcuts, isMac), action) == LastFor(commands, action, shortcuts, isMac)
  {
    if commands != [] {
      var init := commands[..|commands| - 1];
      var loaded := FromCommands(init, shortcuts, isMac);
      FromCommandsLookup(init, shortcuts, isMac, action);
      var c := commands[|commands| - 1];
      if ActionOf(c.name).Some? {
        SetValueSpec(loaded, ActionOf(c.name).value, BindingOf(c.shortcut, PlatformDefaultKey(shortcuts, ActionOf(c.name).value, isMac)));
      }
    }
  }

  /** The bindings the panel shows when the commands cannot be read. */
  function AllDefaults(shortcuts: ShortcutsConfig, isMac: bool): Values {
    [("openPanel", PlatformDefaultKey(shortcuts, "openPanel", isMac)),
     ("quickSaveSelection", PlatformDefaultKey(shortcuts, "quickSaveSelection", isMac)),
     ("quickInsertPrompt", PlatformDefaultKey(shortcuts, "quickInsertPrompt", isMac))]
  }

  class SettingsPanel {
    /** The `shortcuts` prop, kept as `defaultShortcuts`. */
    const defaultShortcuts: ShortcutsConfig
    var isMac: bool
    var currentShortcuts: Values

    constructor (shortcuts: ShortcutsConfig)
      ensures defaultShortcuts == shortcuts && !isMac && currentShortcuts == []
    {
      defaultShortcuts := shortcuts;
      isMac := false;
      currentShortcuts := [];
    }

    /** The platform query: Mac exactly when it reports `mac`; a missing API or a failure means not Mac. */
    method DetectPlatform(os: Option<string>)
      modifies this`isMac
      ensures isMac == (os == Some("mac"))
    {
      isMac := os == Some("mac");
    }

    /**
     * `loadShortcutSettings`. `renderIsMac` is the `isMac` its closure
     * sees: the closure is the mount render's, so it is `false` even on a
     * Mac. Without the commands API, or when it throws, all three actions
     * get their defaults. Otherwise each side-panel or quick-save command
     * sets its action's binding (its shortcut, else the default), and the
     * `/p<number>` text command is always added with its default.
     */
    method LoadShortcutSettings(commands: Option<seq<Command>>, renderIsMac: bool)
      modifies this`currentShortcuts
      ensures commands.None? ==> currentShortcuts == AllDefaults(defaultShortcuts, renderIsMac)
      ensures commands.Some? ==>
        currentShortcuts == SetValue(FromCommands(commands.value, defaultShortcuts, renderIsMac),
          "quickInsertPrompt", PlatformDefaultKey(defaultShortcuts, "quickInsertPrompt", renderIsMac))
    {
      if commands.None? {
        currentShortcuts := AllDefaults(defaultShortcuts, renderIsMac);
        return;
      }
      var all := commands.value;
      var loaded: Values := [];
      for i := 0 to |all|
        invariant loaded == FromCommands(all[..i], defaultShortcuts, renderIsMac)
      {
        assert all[..i + 1][..i] == all[..i];
        var command := all[i];
        if command.name == "toggle-side-panel" {
          loaded := SetValue(loaded, "openPanel", BindingOf(command.shortcut, PlatformDefaultKey(defaultShortcuts, "openPanel", renderIsMac)));
        } else if command.name == "quick-save-selection" {
          loaded := SetValue(loaded, "quickSaveSelection", BindingOf(command.shortcut, PlatformDefaultKey(defaultShortcuts, "quickSaveSelection", renderIsMac)));
        }
      }
      assert all[..|all|] == all;
      currentShortcuts := SetValue(loaded, "quickInsertPrompt", PlatformDefaultKey(defaultShortcuts, "quickInsertPrompt", renderIsMac));
    }

    /** The binding a row shows: the current value when non-empty, else the platform default. */
    function Displayed(action: string): (shown: string)
      reads this
    {
      var current := Lookup(currentShortcuts, action);
      if current.Some? && current.value != "" then current.value else PlatformDefaultKey(defaultShortcuts, action, isMac)
    }
  }

  /** With the stock defaults, every row of the panel shows a non-empty binding, whatever was loaded. */
  lemma StockRowsNeverBlank(panel: SettingsPanel, action: string)
    requires panel.defaultShortcuts == DefaultShortcuts
    requires action == "openPanel" || action == "quickSaveSelection" || action == "quickInsertPrompt"
    ensures panel.Displayed(action) != ""
  {
    StockDefaults(panel.isMac);
  }

  /**
   * After loading from the commands, the text command shows its default,
   * and each keyboard action shows its last command's binding when there
   * is one. The binding was computed with the mount render's `isMac`.
   */
  lemma LoadedBindings(commands: seq<Command>, shortcuts: ShortcutsConfig, renderIsMac: bool, action: string)
    requires action != "quickInsertPrompt"
    ensures var current := SetValue(FromCommands(commands, shortcuts, renderIsMac),
        "quickInsertPrompt", PlatformDefaultKey(shortcuts, "quickInsertPrompt", renderIsMac));
      && Lookup(current, "quickInsertPrompt") == Some(PlatformDefaultKey(shortcuts, "quickInsertPrompt", renderIsMac))
      && Lookup(current, action) == LastFor(commands, action, shortcuts, renderIsMac)
  {
    FromCommandsLookup(commands, shortcuts, renderIsMac, action);
    SetValueSpec(FromCommands(commands, shortcuts, renderIsMac), "quickInsertPrompt", PlatformDefaultKey(shortcuts, "quickInsertPrompt", renderIsMac));
  }

  /**
   * On a Mac with an unbound side-panel command, the row shows `Alt+O`:
   * the mount closure filled in the non-Mac default, which is non-empty,
   * so the Mac default is never reached.
   */
  lemma MacRowShowsMountDefault()
    ensures var current := SetValue(FromCommands([Command("toggle-side-panel", "")], DefaultShortcuts, false),
        "quickInsertPrompt", PlatformDefaultKey(DefaultShortcuts, "quickInsertPrompt", false));
      Lookup(current, "openPanel") == Some("Alt+O")
  {
    StockDefaults(false);
    var commands := [Command("toggle-side-panel", "")];
    assert commands[..0] == [];
    LoadedBindings(commands, DefaultShortcuts, false, "openPanel");
  }
}

=== FILE: strings.dfy ===
/**
 * String helpers shared by the model: decimal digits and their value,
 * `String(n)` for integers, JavaScript `trim`, prefix tests, first-occurrence
 * search and replacement, joining and splitting, ASCII case mapping.
 */
module Strings {
  import opened Wrappers

  // ---------------------------------------------------------------- digits

  predicate IsDigit(c: char) { '0' <= c <= '9' }

  predicate AllDigits(s: string) { forall i :: 0 <= i < |s| ==> IsDigit(s[i]) }

  function DigitValue(c: char): nat
    requires IsDigit(c)
  {
    c as int - '0' as int
  }

  function DigitChar(d: nat): (c: char)
    requires d < 10
    ensures IsDigit(c) && DigitValue(c) == d
  {
    ('0' as int + d) as char
  }

  /** The value `parseInt` gives a non-empty run of decimal digits (leading zeros allowed). */
  function DecimalValue(s: string): nat
    requires AllDigits(s)
    decreases |s|
  {
    if s == [] then 0 else 10 * DecimalValue(s[..|s| - 1]) + DigitValue(s[|s| - 1])
  }

  /** `String(n)` for a non-negative integer: no leading zeros, at least one digit. */
  function NatToString(n: nat): (r: string)
    ensures |r| > 0 && AllDigits(r)
    ensures n >= 10 ==> r[0] != '0'
  {
    if n < 10 then [DigitChar(n)] else NatToString(n / 10) + [DigitChar(n % 10)]
  }

  /** `String(i)` for any integer, with a leading `-` when negative. */
  function IntToString(i: int): (r: string)
    ensures i >= 0 ==> r == NatToString(i)
    ensures i < 0 ==> r == "-" + NatToString(-i)
  {
    if i < 0 then "-" + NatToString(-i) else NatToString(i)
  }

  /** Printing a number in decimal and parsing it back gives the number. */
  lemma {:induction false} DecimalRoundTrip(n: nat)
    ensures DecimalValue(NatToString(n)) == n
  {
    if n >= 10 {
      DecimalRoundTrip(n / 10);
      var s := NatToString(n);
      assert s[..|s| - 1] == NatToString(n / 10);
    }
  }

  // ------------------------------------------------------------ whitespace

  /** The characters JavaScript's `trim` and `\s` treat as white space: white space and line terminators of ECMA-262. */
  predicate IsSpace(c: char) {
    c == ' ' || c == '\t' || c == '\n' || c == '\r' || c == '\U{000B}' || c == '\U{000C}'
    || c == '\U{00A0}' || c == '\U{1680}' || ('\U{2000}' <= c <= '\U{200A}')
    || c == '\U{2028}' || c == '\U{2029}' || c == '\U{202F}' || c == '\U{205F}' || c == '\U{3000}' || c == '\U{FEFF}'
  }

  /** The characters a regular expression's `.` does not match. */
  predicate IsLineTerminator(c: char) {
    c == '\n' || c == '\r' || c == '\U{2028}' || c == '\U{2029}'
  }

  /** True when `s` is empty or only white space, i.e. `s.trim()` is falsy. */
  predicate IsBlank(s: string) { forall i :: 0 <= i < |s| ==> IsSpace(s[i]) }

  /** How many white-space characters `s` starts with. */
  function LeadingSpace(s: string): (n: nat)
    ensures n <= |s|
  {
    if s != [] && IsSpace(s[0]) then 1 + LeadingSpace(s[1..]) else 0
  }

  /** How many white-space characters `s` ends with. */
  function TrailingSpace(s: string): (n: nat)
    ensures n <= |s|
  {
    if s != [] && IsSpace(s[|s| - 1]) then 1 + TrailingSpace(s[..|s| - 1]) else 0
  }

  /** JavaScript `s.trim()`: `s` without the white space at either end. */
  function Trim(s: string): string {
    var t := s[LeadingSpace(s)..];
    t[..|t| - TrailingSpace(t)]
  }

  /** `LeadingSpace` counts the longest white-space prefix. */
  lemma {:induction false} LeadingSpaceSpec(s: string)
    ensures IsBlank(s[..LeadingSpace(s)])
    ensures LeadingSpace(s) == |s| || !IsSpace(s[LeadingSpace(s)])
  {
    if s != [] && IsSpace(s[0]) {
      LeadingSpaceSpec(s[1..]);
      assert s[..LeadingSpace(s)] == [s[0]] + s[1..][..LeadingSpace(s[1..])];
    }
  }

  /** `TrailingSpace` counts the longest white-space suffix. */
  lemma {:induction false} TrailingSpaceSpec(s: string)
    ensures IsBlank(s[|s| - TrailingSpace(s)..])
    ensures TrailingSpace(s) == |s| || !IsSpace(s[|s| - TrailingSpace(s) - 1])
  {
    if s != [] && IsSpace(s[|s| - 1]) {
      var p := s[..|s| - 1];
      var k := TrailingSpace(p);
      TrailingSpaceSpec(p);
      assert TrailingSpace(s) == k + 1;
      assert s[|s| - (k + 1)..] == p[|p| - k..] + [s[|s| - 1]];
      BlankAppend(p[|p| - k..], [s[|s| - 1]]);
      if k < |p| {
        assert s[|s| - (k + 1) - 1] == p[|p| - k - 1];
      }
    }
  }

  /** Any count with the two properties of `LeadingSpace` is `LeadingSpace`. */
  lemma {:induction false} LeadingSpaceIs(s: string, n: nat)
    requires n <= |s| && IsBlank(s[..n]) && (n == |s| || !IsSpace(s[n]))
    ensures LeadingSpace(s) == n
  {
    if n > 0 {
      assert s[..n][0] == s[0];
      assert s[1..][..n - 1] == s[..n][1..];
      LeadingSpaceIs(s[1..], n - 1);
    }
  }

  /** Any count with the two properties of `TrailingSpace` is `TrailingSpace`. */
  lemma {:induction false} TrailingSpaceIs(s: string, n: nat)
    requires n <= |s| && IsBlank(s[|s| - n..]) && (n == |s| || !IsSpace(s[|s| - n - 1]))
    ensures TrailingSpace(s) == n
  {
    if n > 0 {
      var p := s[..|s| - 1];
      assert s[|s| - n..][n - 1] == s[|s| - 1];
      assert p[|p| - (n - 1)..] == s[|s| - n..][..n - 1];
      TrailingSpaceIs(p, n - 1);
    }
  }

  /** `Trim(s)` is the slice of `s` left between its white-space prefix and suffix. */
  lemma TrimSlice(s: string)
    ensures |Trim(s)| <= |s| && OccursAt(s, Trim(s), LeadingSpace(s))
  {
    var n := LeadingSpace(s);
    var t := s[n..];
    var k := TrailingSpace(t);
    assert Trim(s) == t[..|t| - k];
    assert s[n..n + |t| - k] == t[..|t| - k];
  }

  /** `Trim(s)` neither starts nor ends with white space. */
  lemma TrimEnds(s: string)
    ensures Trim(s) == [] || (!IsSpace(Trim(s)[0]) && !IsSpace(Trim(s)[|Trim(s)| - 1]))
  {
    var n := LeadingSpace(s);
    var t := s[n..];
    var k := TrailingSpace(t);
    var r := Trim(s);
    assert r == t[..|t| - k];
    if r != [] {
      assert !IsSpace(r[0]) by {
        LeadingSpaceSpec(s);
        assert r[0] == s[n];
      }
      assert !IsSpace(r[|r| - 1]) by {
        TrailingSpaceSpec(t);
        assert r[|r| - 1] == t[|t| - k - 1];
      }
    }
  }

  /** `Trim(s)` is empty exactly when `s` is blank. */
  lemma TrimEmpty(s: string)
    ensures Trim(s) == [] <==> IsBlank(s)
  {
    var n := LeadingSpace(s);
    var t := s[n..];
    var k := TrailingSpace(t);
    assert Trim(s) == t[..|t| - k];
    LeadingSpaceSpec(s);
    if Trim(s) == [] {
      TrailingSpaceSpec(t);
      assert t[|t| - k..] == t;
      BlankAppend(s[..n], t);
      assert s[..n] + t == s;
    } else {
      assert !IsSpace(s[n]);
    }
  }

  /**
   * `Trim(s)` is the slice of `s` left between its white-space prefix and
   * suffix: it neither starts nor ends with white space, and it is empty
   * exactly when `s` is blank.
   */
  lemma TrimSpec(s: string)
    ensures |Trim(s)| <= |s| && OccursAt(s, Trim(s), LeadingSpace(s))
    ensures Trim(s) == [] || (!IsSpace(Trim(s)[0]) && !IsSpace(Trim(s)[|Trim(s)| - 1]))
    ensures Trim(s) == [] <==> IsBlank(s)
  {
    TrimSlice(s);
    TrimEnds(s);
    TrimEmpty(s);
  }

  lemma BlankAppend(x: string, y: string)
    requires IsBlank(x) && IsBlank(y)
    ensures IsBlank(x + y)
  {
  }

  /** Trimming a string that has no white space at either end changes nothing. */
  lemma TrimUnpadded(s: string)
    requires s == [] || (!IsSpace(s[0]) && !IsSpace(s[|s| - 1]))
    ensures Trim(s) == s
  {
    assert s[0..] == s;
  }

  /** Trimming removes exactly the white space padding around an unpadded word. */
  lemma TrimPadded(a: string, s: string, b: string)
    requires IsBlank(a) && IsBlank(b)
    requires s == [] || (!IsSpace(s[0]) && !IsSpace(s[|s| - 1]))
    ensures Trim(a + s + b) == s
  {
    var x := a + s + b;
    if s == [] {
      assert x == a + b;
      BlankAppend(a, b);
      LeadingSpaceIs(x, |x|);
      assert x[..|x|] == x;
    } else {
      assert x[..|a|] == a;
      LeadingSpaceIs(x, |a|);
      var t := x[|a|..];
      assert t == s + b;
      assert t[|t| - |b|..] == b;
      TrailingSpaceIs(t, |b|);
      assert t[..|s|] == s;
    }
  }

  // -------------------------------------------------------- prefix, search

  predicate StartsWith(s: string, p: string) { |p| <= |s| && s[..|p|] == p }

  predicate EndsWith(s: string, p: string) { |p| <= |s| && s[|s| - |p|..] == p }

  /** `p` occurs in `s` starting at position `i`. */
  predicate OccursAt(s: string, p: string, i: int) { 0 <= i && i + |p| <= |s| && s[i..i + |p|] == p }

  /** JavaScript `s.includes(p)`. */
  predicate Contains(s: string, p: string) { exists i | 0 <= i <= |s| :: OccursAt(s, p, i) }

  /** The first position at or after `from` where `p` occurs, as `indexOf` finds it. */
  function FindFrom(s: string, p: string, from: nat): (r: Option<nat>)
    decreases |s| - from
    ensures r.Some? ==> from <= r.value && OccursAt(s, p, r.value)
    ensures r.Some? ==> forall j :: from <= j < r.value ==> !OccursAt(s, p, j)
    ensures r.None? ==> forall j :: from <= j ==> !OccursAt(s, p, j)
  {
    if from + |p| > |s| then None
    else if s[from..from + |p|] == p then Some(from)
    else FindFrom(s, p, from + 1)
  }

  /** JavaScript `s.replace(p, r)` with a string pattern: only the first occurrence is replaced. */
  function ReplaceFirst(s: string, p: string, r: string): (t: string)
    ensures !Contains(s, p) ==> t == s
    ensures Contains(s, p) ==> exists k | 0 <= k <= |s| - |p| :: FirstOccurrence(s, p, k) && t == s[..k] + r + s[k + |p|..]
  {
    match FindFrom(s, p, 0)
    case None => s
    case Some(k) =>
      assert FirstOccurrence(s, p, k);
      s[..k] + r + s[k + |p|..]
  }

  /** `p` occurs at `k` and nowhere before it. */
  predicate FirstOccurrence(s: string, p: string, k: int) {
    OccursAt(s, p, k) && forall j :: 0 <= j < k ==> !OccursAt(s, p, j)
  }

  /** `s.substring(0, n)`: the first `n` characters, or all of `s` when shorter. */
  function Take(s: string, n: nat): (r: string)
    ensures |r| == if |s| < n then |s| else n
    ensures r == s[..|r|]
  {
    if |s| <= n then s else s[..n]
  }

  // ------------------------------------------------------- join and split

  /** `parts.join(sep)` for a one-character separator. */
  function Join(parts: seq<string>, sep: char): string {
    if parts == [] then ""
    else if |parts| == 1 then parts[0]
    else Join(parts[..|parts| - 1], sep) + [sep] + parts[|parts| - 1]
  }

  /** `s.split(sep)` for a one-character separator: always at least one piece. */
  function Split(s: string, sep: char): (parts: seq<string>)
    ensures |parts| > 0
  {
    if s == [] then [""]
    else
      var init := Split(s[..|s| - 1], sep);
      if s[|s| - 1] == sep then init + [""]
      else init[..|init| - 1] + [init[|init| - 1] + [s[|s| - 1]]]
  }

  /** A string without the separator splits into itself alone. */
  lemma {:induction false} SplitWhole(s: string, sep: char)
    requires sep !in s
    ensures Split(s, sep) == [s]
  {
    if s != [] {
      assert sep !in s[..|s| - 1];
      SplitWhole(s[..|s| - 1], sep);
      assert s[..|s| - 1] + [s[|s| - 1]] == s;
    }
  }

  /** Text after the last separator becomes the last piece. */
  lemma {:induction false} SplitAfterSeparator(a: string, b: string, sep: char)
    requires sep !in b
    ensures Split(a + [sep] + b, sep) == Split(a, sep) + [b]
  {
    var s := a + [sep] + b;
    if b == [] {
      assert s[..|s| - 1] == a;
    } else {
      var b' := b[..|b| - 1];
      assert s[..|s| - 1] == a + [sep] + b';
      assert sep !in b';
      SplitAfterSeparator(a, b', sep);
      assert b' + [b[|b| - 1]] == b;
    }
  }

  /** Joining pieces that hold no separator and splitting again gives the pieces back. */
  lemma {:induction false} SplitJoin(parts: seq<string>, sep: char)
    requires parts != []
    requires forall i :: 0 <= i < |parts| ==> sep !in parts[i]
    ensures Split(Join(parts, sep), sep) == parts
  {
    if |parts| == 1 {
      SplitWhole(parts[0], sep);
    } else {
      var init := parts[..|parts| - 1];
      SplitJoin(init, sep);
      SplitAfterSeparator(Join(init, sep), parts[|parts| - 1], sep);
      assert init + [parts[|parts| - 1]] == parts;
    }
  }

  // -------------------------------------------------------------- case

  function ToUpperChar(c: char): char {
    if 'a' <= c <= 'z' then (c as int - 32) as char else c
  }

  function ToLowerChar(c: char): char {
    if 'A' <= c <= 'Z' then (c as int + 32) as char else c
  }

  /** `toUpperCase` restricted to ASCII letters. */
  function ToUpper(s: string): (r: string)
    ensures |r| == |s| && forall i :: 0 <= i < |s| ==> r[i] == ToUpperChar(s[i])
  {
    if s == [] then [] else [ToUpperChar(s[0])] + ToUpper(s[1..])
  }

  /** `toLowerCase` restricted to ASCII letters. */
  function ToLower(s: string): (r: string)
    ensures |r| == |s| && forall i :: 0 <= i < |s| ==> r[i] == ToLowerChar(s[i])
  {
    if s == [] then [] else [ToLowerChar(s[0])] + ToLower(s[1..])
  }
}

=== FILE: tags.dfy ===
/**
 * The desktop app's tag catalogue (desktop/src/renderer/src/utils/tags.ts):
 * the locale of a language, the catalogue file per locale, the module's
 * catalogue cache with its English fallback, and the flattened tag list.
 * Fetching a catalogue file is an input: a function from path to the parsed
 * catalogue, `None` for a failed or unparsable response.
 */
module Tags {
  import opened Wrappers
  import opened Strings

  /** `getFileLocale`: a case-sensitive prefix test on the language code. */
  function FileLocale(language: string): (locale: string)
    ensures StartsWith(language, "zh") ==> locale == "cn"
    ensures !StartsWith(language, "zh") && StartsWith(language, "ja") ==> locale == "ja"
    ensures !StartsWith(language, "zh") && !StartsWith(language, "ja") ==> locale == "en"
  {
    if StartsWith(language, "zh") then "cn" else if StartsWith(language, "ja") then "ja" else "en"
  }

  /** `getCurrentLocale`: the same test on the browser language lower-cased. */
  function CurrentLocale(navigatorLanguage: string): (locale: string) {
    var lang := ToLower(navigatorLanguage);
    if StartsWith(lang, "zh") then "cn" else if StartsWith(lang, "ja") then "ja" else "en"
  }

  /** The browser language's case does not matter, unlike the file locale's. */
  lemma LocaleCase()
    ensures CurrentLocale("ZH-TW") == "cn" && CurrentLocale("zh-CN") == "cn" && CurrentLocale("Ja") == "ja"
    ensures FileLocale("ZH-TW") == "en" && FileLocale("zh-CN") == "cn"
  {
    assert ToLower("ZH-TW")[..2] == "zh";
    assert ToLower("Ja")[..2] == "ja";
  }

  /** `getCurrentLocale` agrees with `getFileLocale` on the lower-cased language. */
  lemma CurrentIsFileLocaleOfLower(navigatorLanguage: string)
    ensures CurrentLocale(navigatorLanguage) == FileLocale(ToLower(navigatorLanguage))
  {
  }

  /**
   * The file locale of a current locale: `cn` is not a `zh` code, so a
   * Chinese browser's default locale reads the English catalogue when it
   * passes through `getFileLocale`, as `getAllTags` does.
   */
  lemma DefaultLocaleThroughFileLocale(navigatorLanguage: string)
    ensures FileLocale(CurrentLocale(navigatorLanguage)) == (if CurrentLocale(navigatorLanguage) == "ja" then "ja" else "en")
  {
  }

  /** `getTagsConfigPath`. */
  function TagsConfigPath(locale: string): (path: string)
    ensures StartsWith(path, "./tags/tags-") && EndsWith(path, ".json")
    ensures |path| == |locale| + 17
  {
    "./tags/tags-" + locale + ".json"
  }

  /** Different locales read different files. */
  lemma TagsConfigPathInjective(a: string, b: string)
    requires TagsConfigPath(a) == TagsConfigPath(b)
    ensures a == b
  {
    assert a == TagsConfigPath(a)[12..|TagsConfigPath(a)| - 5];
    assert b == TagsConfigPath(b)[12..|TagsConfigPath(b)| - 5];
  }

  datatype TagLabel = TagLabel(name: string, key: string, description: string)
  datatype TagCategory = TagCategory(categoryName: string, labels: seq<TagLabel>)
  /** A classification; `categories` lists the object's values in property order. */
  datatype TagClassification = TagClassification(title: string, description: string, categories: seq<TagCategory>)
  datatype TagsConfig = TagsConfig(scenarioTags: TagClassification, intentTags: TagClassification)

  /** What a catalogue fetch yields for each path. */
  type Fetcher = string -> Option<TagsConfig>

  /**
   * What `loadTagsConfig` caches for a locale it has not cached: the
   * locale's catalogue, else (for a locale other than `en`) the English
   * catalogue, else null.
   */
  function Resolve(locale: string, fetch: Fetcher): Option<TagsConfig> {
    if fetch(TagsConfigPath(locale)).Some? then fetch(TagsConfigPath(locale))
    else if locale != "en" then fetch(TagsConfigPath("en"))
    else None
  }

  /** A cached entry, a cached null included, wins over the files. */
  function CachedOrResolved(cache: map<string, Option<TagsConfig>>, locale: string, fetch: Fetcher): Option<TagsConfig> {
    if locale in cache then cache[locale] else Resolve(locale, fetch)
  }

  /** Only the English catalogue can stand in for another locale's. */
  lemma ResolveSources(locale: string, fetch: Fetcher)
    ensures Resolve(locale, fetch) == fetch(TagsConfigPath(locale))
      || (locale != "en" && Resolve(locale, fetch) == fetch(TagsConfigPath("en")))
    ensures Resolve(locale, fetch).None? ==> fetch(TagsConfigPath(locale)).None? && fetch(TagsConfigPath("en")).None?
  {
  }

  const DefaultScenarioTags: TagClassification :=
    TagClassification("Scenario Tags", "Describes the domain or context in which the user is applying the prompt.", [])
  const DefaultIntentTags: TagClassification :=
    TagClassification("Intent Tags", "Describes the specific action or task type the user wants the AI to perform.", [])

  /** `categories.flatMap(category => category.labels)`. */
  function Labels(categories: seq<TagCategory>): (labels: seq<TagLabel>)
    ensures forall t :: t in labels <==> exists c :: c in categories && t in c.labels
  {
    if categories == [] then []
    else
      var last := categories[|categories| - 1];
      var init := Labels(categories[..|categories| - 1]);
      assert forall c :: c in categories <==> c in categories[..|categories| - 1] || c == last;
      init + last.labels
  }

  /** `getAllTags` on a loaded catalogue: the scenario categories' labels, then the intent categories'. */
  function AllTags(config: Option<TagsConfig>): seq<TagLabel> {
    var scenario := if config.Some? then config.value.scenarioTags else DefaultScenarioTags;
    var intent := if config.Some? then config.value.intentTags else DefaultIntentTags;
    Labels(scenario.categories + intent.categories)
  }

  /** A label is listed exactly when some scenario or intent category holds it; a missing catalogue lists none. */
  lemma AllTagsMembers(config: Option<TagsConfig>, t: TagLabel)
    ensures config.None? ==> AllTags(config) == []
    ensures config.Some? ==>
      (t in AllTags(config) <==>
        (exists c :: c in config.value.scenarioTags.categories && t in c.labels)
        || (exists c :: c in config.value.intentTags.categories && t in c.labels))
  {
    if config.Some? {
      var cats := config.value.scenarioTags.categories + config.value.intentTags.categories;
      assert forall c :: c in cats <==> c in config.value.scenarioTags.categories || c in config.value.intentTags.categories;
    } else {
      assert DefaultScenarioTags.categories + DefaultIntentTags.categories == [];
    }
  }

  /** The scenario labels come first, in category order. */
  lemma ScenarioFirst(config: TagsConfig)
    ensures AllTags(Some(config)) == Labels(config.scenarioTags.categories) + Labels(config.intentTags.categories)
  {
    LabelsAppend(config.scenarioTags.categories, config.intentTags.categories);
  }

  lemma {:induction false} LabelsAppend(a: seq<TagCategory>, b: seq<TagCategory>)
    ensures Labels(a + b) == Labels(a) + Labels(b)
  {
    if b != [] {
      var b' := b[..|b| - 1];
      assert (a + b)[..|a + b| - 1] == a + b';
      LabelsAppend(a, b');
    } else {
      assert a + b == a;
    }
  }

  /** `tags.find(pred) || null`: the first label that passes, or none. */
  function FindFirst(tags: seq<TagLabel>, byKey: bool, wanted: string): (found: Option<TagLabel>) {
    if tags == [] then None
    else if (if byKey then tags[0].key else tags[0].name) == wanted then Some(tags[0])
    else FindFirst(tags[1..], byKey, wanted)
  }

  /** The label found is the first that matches, and none is found only when none matches. */
  lemma {:induction false} FindFirstSpec(tags: seq<TagLabel>, byKey: bool, wanted: string)
    ensures FindFirst(tags, byKey, wanted).None? <==>
      forall i :: 0 <= i < |tags| ==> (if byKey then tags[i].key else tags[i].name) != wanted
    ensures FindFirst(tags, byKey, wanted).Some? ==>
      exists i :: (0 <= i < |tags| && tags[i] == FindFirst(tags, byKey, wanted).value
        && (if byKey then tags[i].key else tags[i].name) == wanted
        && forall j :: 0 <= j < i ==> (if byKey then tags[j].key else tags[j].name) != wanted)
  {
    if tags != [] && (if byKey then tags[0].key else tags[0].name) != wanted {
      FindFirstSpec(tags[1..], byKey, wanted);
      if FindFirst(tags[1..], byKey, wanted).Some? {
        var i :| 0 <= i < |tags[1..]| && tags[1..][i] == FindFirst(tags, byKey, wanted).value
          && (if byKey then tags[1..][i].key else tags[1..][i].name) == wanted
          && forall j :: 0 <= j < i ==> (if byKey then tags[1..][j].key else tags[1..][j].name) != wanted;
        assert tags[i + 1] == tags[1..][i];
        forall j | 0 <= j < i + 1
          ensures (if byKey then tags[j].key else tags[j].name) != wanted
        {
          if j > 0 {
            assert tags[j] == tags[1..][j - 1];
          }
        }
      } else {
        forall i | 0 <= i < |tags|
          ensures (if byKey then tags[i].key else tags[i].name) != wanted
        {
          if i > 0 {
            assert tags[i] == tags[1..][i - 1];
          }
        }
      }
    }
  }

  /** The module's `tagsConfigCache`. */
  class TagsCatalog {
    var cache: map<string, Option<TagsConfig>>

    constructor ()
      ensures cache == map[]
    {
      cache := map[];
    }

    /**
     * `loadTagsConfig`: a cached entry, a cached null included, is
     * returned without fetching; otherwise the resolved catalogue is cached
     * under the requested locale and returned.
     */
    method LoadTagsConfig(locale: string, fetch: Fetcher) returns (config: Option<TagsConfig>)
      modifies this
      ensures config == CachedOrResolved(old(cache), locale, fetch)
      ensures cache == old(cache)[locale := config]
    {
      if locale in cache {
        return cache[locale];
      }
      var loaded := fetch(TagsConfigPath(locale));
      if loaded.Some? {
        cache := cache[locale := loaded];
        return loaded;
      }
      if locale != "en" {
        assert TagsConfigPath("en") == "./tags/tags-en.json";
        var fallback := fetch("./tags/tags-en.json");
        if fallback.Some? {
          cache := cache[locale := fallback];
          return fallback;
        }
      }
      cache := cache[locale := None];
      return None;
    }

    /** `getAllTagClassifications`: none for a missing catalogue, else scenario then intent. */
    method GetAllTagClassifications(locale: string, fetch: Fetcher) returns (classifications: seq<TagClassification>)
      modifies this
      ensures var config := CachedOrResolved(old(cache), locale, fetch);
        classifications == if config.Some? then [config.value.scenarioTags, config.value.intentTags] else []
      ensures cache == old(cache)[locale := CachedOrResolved(old(cache), locale, fetch)]
    {
      var config := LoadTagsConfig(locale, fetch);
      if config.None? {
        return [];
      }
      return [config.value.scenarioTags, config.value.intentTags];
    }

    /**
     * `getAllTags`: the language is first turned into a file locale, and
     * the catalogue is read twice (scenario, then intent), the second time
     * from the cache.
     */
    method GetAllTags(language: string, fetch: Fetcher) returns (tags: seq<TagLabel>)
      modifies this
      ensures tags == AllTags(CachedOrResolved(old(cache), FileLocale(language), fetch))
      ensures cache == old(cache)[FileLocale(language) := CachedOrResolved(old(cache), FileLocale(language), fetch)]
    {
      var locale := FileLocale(language);
      var first := LoadTagsConfig(locale, fetch);
      var scenario := if first.Some? then first.value.scenarioTags else DefaultScenarioTags;
      var second := LoadTagsConfig(locale, fetch);
      var intent := if second.Some? then second.value.intentTags else DefaultIntentTags;
      tags := Labels(scenario.categories + intent.categories);
    }

    /** `findTagByKey`: the first label of `getAllTags` with that key, or null. */
    method FindTagByKey(key: string, language: string, fetch: Fetcher) returns (found: Option<TagLabel>)
      modifies this
      ensures found == FindFirst(AllTags(CachedOrResolved(old(cache), FileLocale(language), fetch)), true, key)
      ensures cache == old(cache)[FileLocale(language) := CachedOrResolved(old(cache), FileLocale(language), fetch)]
    {
      var tags := GetAllTags(language, fetch);
      found := FindFirst(tags, true, key);
    }

    /** `findTagByName`: the first label of `getAllTags` with that name, or null. */
    method FindTagByName(name: string, language: string, fetch: Fetcher) returns (found: Option<TagLabel>)
      modifies this
      ensures found == FindFirst(AllTags(CachedOrResolved(old(cache), FileLocale(language), fetch)), false, name)
      ensures cache == old(cache)[FileLocale(language) := CachedOrResolved(old(cache), FileLocale(language), fetch)]
    {
      var tags := GetAllTags(language, fetch);
      found := FindFirst(tags, false, name);
    }
  }
}

=== FILE: template.dfy ===
/**
 * Prompt-template variables, shared by the extension and the desktop
 * renderer (the two `utils/helpers.ts` files hold the same code):
 * `extractVariables` collects the trimmed inner texts of the `{{…}}`
 * placeholders, without duplicates, and `processPromptWithVariables`
 * substitutes each variable's value for every `{{ name }}` that may carry
 * white space inside its braces.
 */
module Template {
  import opened Wrappers
  import opened Strings

  // ---------------------------------------------------------------------
  // extractVariables: the scan with /{{(.*?)}}/g
  // ---------------------------------------------------------------------

  /** `{{` starts at `i`. */
  predicate OpensAt(s: string, i: int) {
    0 <= i && i + 2 <= |s| && s[i] == '{' && s[i + 1] == '{'
  }

  /** `}}` starts at `i`. */
  predicate ClosesAt(s: string, i: int) {
    0 <= i && i + 2 <= |s| && s[i] == '}' && s[i + 1] == '}'
  }

  /** No line terminator in `s[k..j]`. */
  predicate OneLine(s: string, k: nat, j: nat) {
    j <= |s| && forall m :: k <= m < j ==> !IsLineTerminator(s[m])
  }

  /** No `}}` starts in `[k, j)`. */
  predicate NoCloseBetween(s: string, k: nat, j: nat) {
    forall m :: k <= m < j ==> !ClosesAt(s, m)
  }

  /** The pattern matches at no position in `[from, to)`. */
  predicate NoMatchBetween(s: string, from: nat, to: nat) {
    forall i :: from <= i < to ==> !Matches(s, i)
  }

  /**
   * Where the lazy `(.*?)}}` whose body starts at `k` stops: at the first
   * `}}` from `k` on, unless a line terminator, which `.` does not match,
   * comes first.
   */
  function CloseFrom(s: string, k: nat): (j: Option<nat>)
    decreases |s| - k
    ensures j.Some? ==> k <= j.value && ClosesAt(s, j.value)
  {
    if |s| < k + 2 then None
    else if ClosesAt(s, k) then Some(k)
    else if IsLineTerminator(s[k]) then None
    else CloseFrom(s, k + 1)
  }

  /**
   * `CloseFrom` finds the first `}}` on the line, and finds none exactly
   * when every `}}` from `k` on lies past a line terminator.
   */
  lemma {:induction false} CloseFromSpec(s: string, k: nat)
    decreases |s| - k
    ensures CloseFrom(s, k).Some? ==> OneLine(s, k, CloseFrom(s, k).value) && NoCloseBetween(s, k, CloseFrom(s, k).value)
    ensures CloseFrom(s, k).None? ==> forall m :: k <= m && ClosesAt(s, m) ==> !OneLine(s, k, m)
  {
    if |s| < k + 2 || ClosesAt(s, k) || IsLineTerminator(s[k]) {
    } else {
      CloseFromSpec(s, k + 1);
      if CloseFrom(s, k).None? {
        forall m | k <= m && ClosesAt(s, m)
          ensures !OneLine(s, k, m)
        {
          assert m != k;
        }
      }
    }
  }

  /** The pattern matches at `i`. */
  predicate Matches(s: string, i: nat) {
    OpensAt(s, i) && CloseFrom(s, i + 2).Some?
  }

  /** What one `regex.exec` call finds: nothing, or a match's start and the index of its closing `}}`. */
  datatype ExecResult = NoMatch | Match(start: nat, close: nat)

  /**
   * `regex.exec` with `lastIndex == from`: the leftmost match at or after
   * `from`.
   */
  function Exec(s: string, from: nat): (r: ExecResult)
    decreases |s| - from
    ensures r.Match? ==> from <= r.start && r.start + 2 <= r.close && r.close + 2 <= |s|
  {
    if from >= |s| then NoMatch
    else if Matches(s, from) then Match(from, CloseFrom(s, from + 2).value)
    else Exec(s, from + 1)
  }

  /** `Exec` returns the leftmost match at or after `from`, and no match only when there is none. */
  lemma {:induction false} ExecSpec(s: string, from: nat)
    decreases |s| - from
    ensures Exec(s, from).Match? ==> Matches(s, Exec(s, from).start) && CloseFrom(s, Exec(s, from).start + 2) == Some(Exec(s, from).close)
    ensures Exec(s, from).Match? ==> NoMatchBetween(s, from, Exec(s, from).start)
    ensures Exec(s, from).NoMatch? ==> NoMatchBetween(s, from, |s|)
  {
    if from < |s| && !Matches(s, from) {
      ExecSpec(s, from + 1);
    }
  }

  /**
   * The trimmed inner texts of the successive matches found by `exec`
   * from `from` on, each search resuming just past the previous `}}`.
   */
  function ScanFrom(s: string, from: nat): seq<string>
    decreases if from <= |s| then |s| - from else 0, 1
  {
    ScanAfter(s, Exec(s, from))
  }

  /** The scan continued from one `exec` result: its text, then the scan past its `}}`. */
  function ScanAfter(s: string, r: ExecResult): seq<string>
    requires r.Match? ==> r.start + 2 <= r.close && r.close + 2 <= |s|
    decreases if r.Match? then |s| - r.start else 0, 0
  {
    match r
    case NoMatch => []
    case Match(start, close) => [Trim(s[start + 2..close])] + ScanFrom(s, close + 2)
  }

  /** What `extractVariables` collects before removing repeats. */
  function Placeholders(s: string): seq<string> {
    ScanFrom(s, 0)
  }

  /** Position of the first `x` in `xs`, or `|xs|` when there is none. */
  function FirstIndex(xs: seq<string>, x: string): (k: nat)
    ensures k <= |xs| && (k < |xs| ==> xs[k] == x)
    ensures forall i :: 0 <= i < k ==> xs[i] != x
  {
    if xs == [] then 0
    else if xs[0] == x then 0
    else 1 + FirstIndex(xs[1..], x)
  }

  /** Any index with the two properties of `FirstIndex` is `FirstIndex`. */
  lemma FirstIndexUnique(xs: seq<string>, x: string, k: nat)
    requires k <= |xs| && (k < |xs| ==> xs[k] == x)
    requires forall i :: 0 <= i < k ==> xs[i] != x
    ensures FirstIndex(xs, x) == k
  {
  }

  /** `Array.from(new Set(xs))`: the elements of `xs` without repeats, each where it first occurs. */
  function Dedup(xs: seq<string>): (r: seq<string>)
    ensures forall x :: x in r <==> x in xs
    ensures forall i, j :: 0 <= i < j < |r| ==> r[i] != r[j]
  {
    if xs == [] then []
    else
      var d := Dedup(xs[..|xs| - 1]);
      var x := xs[|xs| - 1];
      assert xs == xs[..|xs| - 1] + [x];
      if x in d then d else d + [x]
  }

  /** The order of `Dedup(xs)` is the order of first occurrence in `xs`. */
  lemma {:induction false} DedupOrder(xs: seq<string>)
    ensures forall i, j :: 0 <= i < j < |Dedup(xs)| ==> FirstIndex(xs, Dedup(xs)[i]) < FirstIndex(xs, Dedup(xs)[j])
  {
    if xs != [] {
      var n := |xs| - 1;
      var p := xs[..n];
      var d := Dedup(p);
      var x := xs[n];
      DedupOrder(p);
      assert forall i :: 0 <= i < n ==> xs[i] == p[i];
      forall y | y in p
        ensures FirstIndex(xs, y) == FirstIndex(p, y) < n
      {
        var f := FirstIndex(p, y);
        FirstIndexUnique(xs, y, f);
      }
      var r := Dedup(xs);
      assert r == if x in d then d else d + [x];
      if x !in d {
        FirstIndexUnique(xs, x, n);
      }
      forall i, j | 0 <= i < j < |r|
        ensures FirstIndex(xs, r[i]) < FirstIndex(xs, r[j])
      {
        assert r[i] == d[i] && d[i] in p;
        if j < |d| {
          assert r[j] == d[j] && d[j] in p;
        } else {
          assert r[j] == x;
        }
      }
    }
  }

  /** A match found by `exec` contributes its trimmed inner text, and the scan resumes past its `}}`. */
  lemma ScanMatch(s: string, from: nat, start: nat, close: nat)
    requires Exec(s, from) == Match(start, close)
    ensures start + 2 <= close && close + 2 <= |s|
    ensures ScanFrom(s, from) == [Trim(s[start + 2..close])] + ScanFrom(s, close + 2)
  {
    assert ScanFrom(s, from) == ScanAfter(s, Match(start, close));
  }

  /** One `exec` step of the scan, appended to what was collected before it. */
  lemma ScanStep(s: string, from: nat, collected: seq<string>, start: nat, close: nat)
    requires Exec(s, from) == Match(start, close)
    ensures start + 2 <= close && close + 2 <= |s|
    ensures (collected + [Trim(s[start + 2..close])]) + ScanFrom(s, close + 2) == collected + ScanFrom(s, from)
  {
    ScanMatch(s, from, start, close);
    var found := Trim(s[start + 2..close]);
    assert (collected + [found]) + ScanFrom(s, close + 2) == collected + ([found] + ScanFrom(s, close + 2));
  }

  /**
   * `extractVariables`: pushes the trimmed inner text of every match of
   * `/{{(.*?)}}/g` while `exec` finds one, then removes repeats through a
   * `Set`, whose insertion order `Dedup` states.
   */
  method ExtractVariables(content: string) returns (vars: seq<string>)
    ensures vars == Dedup(Placeholders(content))
  {
    var matches: seq<string> := [];
    var last: nat := 0;
    while true
      invariant matches + ScanFrom(content, last) == Placeholders(content)
      decreases |content| - last
    {
      match Exec(content, last)
      case NoMatch =>
        assert ScanFrom(content, last) == [];
        assert matches == Placeholders(content);
        break;
      case Match(start, close) =>
        ScanStep(content, last, matches, start, close);
        matches := matches + [Trim(content[start + 2..close])];
        last := close + 2;
    }
    vars := Dedup(matches);
  }

  /** Neither starts nor ends with white space. */
  predicate Unpadded(v: string) {
    v == [] || (!IsSpace(v[0]) && !IsSpace(v[|v| - 1]))
  }

  /** Every name the scan collects is trimmed: it neither starts nor ends with white space. */
  lemma {:induction false} ScanNamesUnpadded(s: string, from: nat)
    decreases |s| - from
    ensures forall v :: v in ScanFrom(s, from) ==> Unpadded(v)
  {
    var r := Exec(s, from);
    if r.Match? {
      var name := Trim(s[r.start + 2..r.close]);
      var rest := ScanFrom(s, r.close + 2);
      assert Unpadded(name) by {
        TrimEnds(s[r.start + 2..r.close]);
      }
      ScanNamesUnpadded(s, r.close + 2);
      assert ScanFrom(s, from) == [name] + rest;
    } else {
      assert ScanFrom(s, from) == [];
    }
  }

  /** The names `extractVariables` returns never start with white space, so `KeyMatch` finds their every placeholder. */
  lemma ExtractedNamesUnpadded(content: string)
    ensures forall v :: v in Dedup(Placeholders(content)) ==> v == [] || !IsSpace(v[0])
  {
    ScanNamesUnpadded(content, 0);
  }

  /** The content yields no variable exactly when the pattern matches nowhere. */
  lemma NoMatchNoPlaceholders(s: string)
    ensures Placeholders(s) == [] <==> forall i :: 0 <= i < |s| ==> !Matches(s, i)
  {
    ExecSpec(s, 0);
    assert Placeholders(s) == ScanAfter(s, Exec(s, 0));
  }

  /** Without `{{` there is no variable. */
  lemma NoOpeningNoPlaceholders(s: string)
    requires forall i :: 0 <= i < |s| ==> !OpensAt(s, i)
    ensures Placeholders(s) == []
  {
    NoMatchNoPlaceholders(s);
  }

  /** `.` does not cross a line break: a placeholder split over two lines is not one. */
  lemma SplitLineExample()
    ensures Placeholders("{{name\n}}") == []
  {
    var s := "{{name\n}}";
    forall i | 0 <= i < |s|
      ensures !Matches(s, i)
    {
      if i == 0 {
        assert IsLineTerminator(s[6]) && !ClosesAt(s, 6);
        assert CloseFrom(s, 6) == None;
        assert CloseFrom(s, 2) == CloseFrom(s, 6);
      }
    }
    NoMatchNoPlaceholders(s);
  }

  // ---------------------------------------------------------------------
  // processPromptWithVariables: global replace with /{{\s*key\s*}}/g
  // ---------------------------------------------------------------------

  /**
   * Whether `{{\s*key\s*}}` matches at the start of `s`, and if so how many
   * characters the match spans. The first `\s*` takes the whole run of
   * white space after `{{`; the second takes the run after the key, which
   * `}}` must follow.
   */
  function KeyMatch(s: string, key: string): (n: Option<nat>)
    ensures n.Some? ==> 4 + |key| <= n.value <= |s|
  {
    if !OpensAt(s, 0) then None
    else
      var a := 2 + LeadingSpace(s[2..]);
      if !OccursAt(s, key, a) then None
      else
        var e := a + |key|;
        var c := e + LeadingSpace(s[e..]);
        if ClosesAt(s, c) then Some(c + 2) else None
  }

  /**
   * The first `n` characters of `s` are `{{`, white space, `key` (starting
   * at `i`), white space and `}}`.
   */
  predicate PlaceholderAt(s: string, key: string, i: nat, n: nat) {
    2 <= i && i + |key| + 2 <= n <= |s| && OpensAt(s, 0) && IsBlank(s[2..i]) && s[i..i + |key|] == key
    && IsBlank(s[i + |key|..n - 2]) && ClosesAt(s, n - 2)
  }

  /** What a `\\s*` starting at `k` takes is white space. */
  lemma SpaceRun(s: string, k: nat)
    requires k <= |s|
    ensures k + LeadingSpace(s[k..]) <= |s| && IsBlank(s[k..k + LeadingSpace(s[k..])])
  {
    LeadingSpaceSpec(s[k..]);
    assert s[k..k + LeadingSpace(s[k..])] == s[k..][..LeadingSpace(s[k..])];
  }

  /** What `KeyMatch` accepts is a whole placeholder for `key`. */
  lemma KeyMatchSound(s: string, key: string)
    ensures KeyMatch(s, key).Some? ==> PlaceholderAt(s, key, 2 + LeadingSpace(s[2..]), KeyMatch(s, key).value)
  {
    if KeyMatch(s, key).Some? {
      var a := 2 + LeadingSpace(s[2..]);
      var e := a + |key|;
      var c := e + LeadingSpace(s[e..]);
      assert KeyMatch(s, key).value - 2 == c;
      SpaceRun(s, 2);
      SpaceRun(s, e);
    }
  }

  /** `KeyMatch` fails where the key is not followed by white space and `}}`. */
  lemma KeyMatchFails(s: string, key: string, a: nat)
    requires 2 <= |s| && 2 + LeadingSpace(s[2..]) == a
    requires OccursAt(s, key, a) ==> !ClosesAt(s, a + |key| + LeadingSpace(s[a + |key|..]))
    ensures KeyMatch(s, key).None?
  {
  }

  /** `KeyMatch` from where each `\\s*` of the pattern stops. */
  lemma KeyMatchAt(s: string, key: string, a: nat, c: nat)
    requires OpensAt(s, 0) && 2 + LeadingSpace(s[2..]) == a && OccursAt(s, key, a)
    requires a + |key| <= |s| && a + |key| + LeadingSpace(s[a + |key|..]) == c && ClosesAt(s, c)
    ensures KeyMatch(s, key) == Some(c + 2)
  {
  }

  /** Where the padding of a placeholder for the empty key ends. */
  lemma PaddingEmptyKey(s: string, i: nat, n: nat)
    requires PlaceholderAt(s, [], i, n)
    ensures LeadingSpace(s[2..]) == n - 4 && LeadingSpace(s[n - 2..]) == 0
  {
    assert s[2..n - 2] == s[2..i] + s[i..n - 2];
    BlankAppend(s[2..i], s[i..n - 2]);
    assert s[2..][..n - 4] == s[2..n - 2];
    LeadingSpaceIs(s[2..], n - 4);
    LeadingSpaceIs(s[n - 2..], 0);
  }

  /** Where the paddings of a placeholder for a key not starting with white space end. */
  lemma PaddingKey(s: string, key: string, i: nat, n: nat)
    requires key != [] && !IsSpace(key[0]) && PlaceholderAt(s, key, i, n)
    ensures LeadingSpace(s[2..]) == i - 2 && LeadingSpace(s[i + |key|..]) == n - 2 - i - |key|
  {
    var e := i + |key|;
    assert LeadingSpace(s[2..]) == i - 2 by {
      assert s[2..][..i - 2] == s[2..i];
      assert s[i] == s[i..e][0];
      LeadingSpaceIs(s[2..], i - 2);
    }
    assert s[e..][..n - 2 - e] == s[e..n - 2];
    LeadingSpaceIs(s[e..], n - 2 - e);
  }

  /**
   * Every placeholder for a key that does not start with white space is
   * found by `KeyMatch`, with its exact length: the regex matches at the
   * start of `s` exactly when a prefix of `s` is such a placeholder.
   */
  lemma KeyMatchComplete(s: string, key: string, i: nat, n: nat)
    requires key == [] || !IsSpace(key[0])
    requires PlaceholderAt(s, key, i, n)
    ensures KeyMatch(s, key) == Some(n)
  {
    if key == [] {
      PaddingEmptyKey(s, i, n);
      KeyMatchAt(s, key, n - 2, n - 2);
    } else {
      PaddingKey(s, key, i, n);
      KeyMatchAt(s, key, i, n - 2);
    }
  }

  /**
   * `content.replace(regex, value)` with the global flag: every leftmost,
   * non-overlapping match of `{{\s*key\s*}}`, scanning left to right, is
   * replaced by `value`, which is inserted literally.
   */
  function ReplaceKey(s: string, key: string, value: string): string
    decreases |s|
  {
    if s == [] then []
    else match KeyMatch(s, key)
      case Some(n) => value + ReplaceKey(s[n..], key, value)
      case None => [s[0]] + ReplaceKey(s[1..], key, value)
  }

  /** A key whose placeholder occurs nowhere leaves the text unchanged. */
  lemma {:induction false} ReplaceNoMatch(s: string, key: string, value: string)
    requires forall i :: 0 <= i < |s| ==> KeyMatch(s[i..], key).None?
    ensures ReplaceKey(s, key, value) == s
  {
    if s != [] {
      assert s[0..] == s;
      forall i | 0 <= i < |s| - 1
        ensures KeyMatch(s[1..][i..], key).None?
      {
        assert s[1..][i..] == s[i + 1..];
      }
      ReplaceNoMatch(s[1..], key, value);
    }
  }

  // ---------------------------------------------------------------------
  // Object.keys: the order of an object's own string keys
  // ---------------------------------------------------------------------

  /** An object's entries as (name, value) pairs, in insertion order. */
  type Entries = seq<(string, string)>

  /** An array index: the canonical decimal form (no leading zero) of an integer below 2^32 - 1. */
  predicate IsArrayIndex(k: string) {
    |k| > 0 && AllDigits(k) && (k[0] == '0' ==> |k| == 1) && DecimalValue(k) < 0xFFFF_FFFF
  }

  /** The numeric value of a name, used to order array indices. */
  function IndexNumber(k: string): nat {
    if AllDigits(k) then DecimalValue(k) else 0
  }

  /** The entries named by array indices, in insertion order. */
  function IndexEntries(vars: Entries): Entries {
    if vars == [] then []
    else (if IsArrayIndex(vars[0].0) then [vars[0]] else []) + IndexEntries(vars[1..])
  }

  /** The other entries, in insertion order. */
  function NamedEntries(vars: Entries): Entries {
    if vars == [] then []
    else (if IsArrayIndex(vars[0].0) then [] else [vars[0]]) + NamedEntries(vars[1..])
  }

  /** `x` placed before the first entry whose index is not smaller than its own. */
  function InsertByIndex(x: (string, string), s: Entries): (r: Entries)
    ensures |r| == |s| + 1
  {
    if s == [] || IndexNumber(x.0) <= IndexNumber(s[0].0) then [x] + s
    else [s[0]] + InsertByIndex(x, s[1..])
  }

  /** Insertion sort on the index, stable: entries with equal indices keep their order. */
  function SortByIndex(s: Entries): (r: Entries)
    ensures |r| == |s|
  {
    if s == [] then [] else InsertByIndex(s[0], SortByIndex(s[1..]))
  }

  /**
   * The order in which `Object.keys` lists an ordinary object's entries:
   * array indices first, in ascending numeric order, then the other names
   * in the order they were first added.
   */
  function OwnKeyOrder(vars: Entries): Entries {
    SortByIndex(IndexEntries(vars)) + NamedEntries(vars)
  }

  /** Each entry's index is at least the one before it. */
  predicate Ascending(s: Entries) {
    forall i :: 0 < i < |s| ==> IndexNumber(s[i - 1].0) <= IndexNumber(s[i].0)
  }

  /** The entries named `k`, in order. */
  function KeyEntries(vars: Entries, k: string): Entries {
    if vars == [] then []
    else (if vars[0].0 == k then [vars[0]] else []) + KeyEntries(vars[1..], k)
  }

  lemma {:induction false} KeyEntriesAppend(a: Entries, b: Entries, k: string)
    ensures KeyEntries(a + b, k) == KeyEntries(a, k) + KeyEntries(b, k)
  {
    if a != [] {
      var head := if a[0].0 == k then [a[0]] else [];
      assert (a + b)[0] == a[0] && (a + b)[1..] == a[1..] + b;
      calc {
        KeyEntries(a + b, k);
        head + KeyEntries(a[1..] + b, k);
        { KeyEntriesAppend(a[1..], b, k); }
        head + (KeyEntries(a[1..], k) + KeyEntries(b, k));
        KeyEntries(a, k) + KeyEntries(b, k);
      }
    } else {
      assert a + b == b;
    }
  }

  /** Inserting keeps every entry. */
  lemma {:induction false} InsertKeeps(x: (string, string), s: Entries)
    ensures multiset(InsertByIndex(x, s)) == multiset(s) + multiset{x}
  {
    if !(s == [] || IndexNumber(x.0) <= IndexNumber(s[0].0)) {
      InsertKeeps(x, s[1..]);
      assert s == [s[0]] + s[1..];
    }
  }

  /** The inserted entry goes before the entries already there under its name; other names are untouched. */
  lemma {:induction false} InsertKeyEntries(x: (string, string), s: Entries, k: string)
    ensures KeyEntries(InsertByIndex(x, s), k) == KeyEntries([x], k) + KeyEntries(s, k)
  {
    if s == [] || IndexNumber(x.0) <= IndexNumber(s[0].0) {
      KeyEntriesAppend([x], s, k);
    } else {
      var t := InsertByIndex(x, s[1..]);
      assert InsertByIndex(x, s) == [s[0]] + t;
      KeyEntriesSingle(x, k);
      KeyEntriesSingle(s[0], k);
      calc {
        KeyEntries(InsertByIndex(x, s), k);
        { KeyEntriesAppend([s[0]], t, k); }
        KeyEntries([s[0]], k) + KeyEntries(t, k);
        { InsertKeyEntries(x, s[1..], k); }
        KeyEntries([s[0]], k) + (KeyEntries([x], k) + KeyEntries(s[1..], k));
        { assert KeyEntries([s[0]], k) == [] || KeyEntries([x], k) == []; }
        KeyEntries([x], k) + (KeyEntries([s[0]], k) + KeyEntries(s[1..], k));
        { KeyEntriesAppend([s[0]], s[1..], k); assert [s[0]] + s[1..] == s; }
        KeyEntries([x], k) + KeyEntries(s, k);
      }
    }
  }

  lemma KeyEntriesSingle(y: (string, string), k: string)
    ensures KeyEntries([y], k) == if y.0 == k then [y] else []
  {
    assert [y][1..] == [];
  }

  /** Inserting into an ascending sequence keeps it ascending. */
  lemma {:induction false} InsertAscending(x: (string, string), s: Entries)
    requires Ascending(s)
    ensures Ascending(InsertByIndex(x, s))
  {
    var r := InsertByIndex(x, s);
    if s == [] || IndexNumber(x.0) <= IndexNumber(s[0].0) {
      assert forall i :: 1 <= i < |r| ==> r[i] == s[i - 1];
    } else {
      var t := InsertByIndex(x, s[1..]);
      InsertAscending(x, s[1..]);
      assert r == [s[0]] + t;
      assert t[0] == x || t[0] == s[1];
      assert forall i :: 1 <= i < |r| ==> r[i] == t[i - 1];
    }
  }

  /** Sorting keeps every entry, keeps the order of the entries sharing a name, and sorts. */
  lemma {:induction false} SortByIndexSpec(s: Entries)
    ensures multiset(SortByIndex(s)) == multiset(s)
    ensures forall k :: KeyEntries(SortByIndex(s), k) == KeyEntries(s, k)
    ensures Ascending(SortByIndex(s))
  {
    if s != [] {
      var t := SortByIndex(s[1..]);
      SortByIndexSpec(s[1..]);
      InsertKeeps(s[0], t);
      InsertAscending(s[0], t);
      assert s == [s[0]] + s[1..];
      forall k
        ensures KeyEntries(SortByIndex(s), k) == KeyEntries(s, k)
      {
        InsertKeyEntries(s[0], t, k);
        KeyEntriesAppend([s[0]], s[1..], k);
      }
    }
  }

  /** The split into index entries and the others loses nothing. */
  lemma {:induction false} PartitionKeeps(vars: Entries)
    ensures multiset(IndexEntries(vars)) + multiset(NamedEntries(vars)) == multiset(vars)
  {
    if vars != [] {
      PartitionKeeps(vars[1..]);
      assert vars == [vars[0]] + vars[1..];
    }
  }

  /** Every entry of the first part is named by an array index, none of the second. */
  lemma {:induction false} PartitionNames(vars: Entries)
    ensures forall x :: x in IndexEntries(vars) ==> IsArrayIndex(x.0)
    ensures forall x :: x in NamedEntries(vars) ==> !IsArrayIndex(x.0)
  {
    if vars != [] {
      PartitionNames(vars[1..]);
    }
  }

  /** Each part holds all the entries of the names it takes, in order. */
  lemma {:induction false} PartitionKeyEntries(vars: Entries, k: string)
    ensures KeyEntries(IndexEntries(vars), k) == if IsArrayIndex(k) then KeyEntries(vars, k) else []
    ensures KeyEntries(NamedEntries(vars), k) == if IsArrayIndex(k) then [] else KeyEntries(vars, k)
  {
    if vars != [] {
      var x := vars[0];
      PartitionKeyEntries(vars[1..], k);
      KeyEntriesAppend(if IsArrayIndex(x.0) then [x] else [], IndexEntries(vars[1..]), k);
      KeyEntriesAppend(if IsArrayIndex(x.0) then [] else [x], NamedEntries(vars[1..]), k);
    }
  }

  /**
   * `Object.keys` order lists every entry once, array indices first in
   * ascending order and the other names after them in insertion order,
   * and it keeps the entries sharing a name in their order (so the first
   * entry for a name stays the first).
   */
  lemma OwnKeyOrderSpec(vars: Entries)
    ensures multiset(OwnKeyOrder(vars)) == multiset(vars)
    ensures forall k :: KeyEntries(OwnKeyOrder(vars), k) == KeyEntries(vars, k)
    ensures var r, n := OwnKeyOrder(vars), |IndexEntries(vars)|;
      && n <= |r|
      && (forall i :: 0 <= i < n ==> IsArrayIndex(r[i].0))
      && (forall i :: n <= i < |r| ==> !IsArrayIndex(r[i].0))
      && Ascending(r[..n])
      && r[n..] == NamedEntries(vars)
  {
    var a := IndexEntries(vars);
    var sorted := SortByIndex(a);
    PartitionKeeps(vars);
    PartitionNames(vars);
    SortByIndexSpec(a);
    var r := OwnKeyOrder(vars);
    assert r[..|a|] == sorted && r[|a|..] == NamedEntries(vars);
    forall i | 0 <= i < |a|
      ensures IsArrayIndex(r[i].0)
    {
      assert r[i] in multiset(a);
    }
    forall i | |a| <= i < |r|
      ensures !IsArrayIndex(r[i].0)
    {
      assert r[i] == NamedEntries(vars)[i - |a|];
    }
    forall k
      ensures KeyEntries(r, k) == KeyEntries(vars, k)
    {
      KeyEntriesAppend(sorted, NamedEntries(vars), k);
      PartitionKeyEntries(vars, k);
    }
  }

  /** An object without array-index names lists its entries in insertion order. */
  lemma {:induction false} OwnKeyOrderNoIndex(vars: Entries)
    requires forall i :: 0 <= i < |vars| ==> !IsArrayIndex(vars[i].0)
    ensures IndexEntries(vars) == [] && NamedEntries(vars) == vars
    ensures OwnKeyOrder(vars) == vars
  {
    if vars != [] {
      OwnKeyOrderNoIndex(vars[1..]);
    }
  }

  /** A variable named `2` is listed, and so replaced, before one named `name` that was added earlier. */
  lemma IndexNameFirst(v: string, w: string)
    ensures OwnKeyOrder([("name", v), ("2", w)]) == [("2", w), ("name", v)]
  {
    var vars := [("name", v), ("2", w)];
    var tail := vars[1..];
    assert tail == [("2", w)] && tail[1..] == [];
    assert !IsArrayIndex("name") by {
      assert !IsDigit("name"[0]);
    }
    assert IsArrayIndex("2") by {
      assert "2"[..0] == [];
      assert DecimalValue("2") == 2;
    }
    assert IndexEntries(tail) == [("2", w)] && NamedEntries(tail) == [];
    assert IndexEntries(vars) == [("2", w)] && NamedEntries(vars) == [("name", v)];
    assert SortByIndex([("2", w)]) == [("2", w)];
  }

  /** Array indices are ordered by value, not as text: `9` comes before `10`. */
  lemma IndexNamesByValue(v: string, w: string)
    ensures OwnKeyOrder([("10", v), ("9", w)]) == [("9", w), ("10", v)]
  {
    var vars := [("10", v), ("9", w)];
    var tail := vars[1..];
    assert tail == [("9", w)] && tail[1..] == [];
    assert IsArrayIndex("9") && IndexNumber("9") == 9 by {
      assert "9"[..0] == [];
      assert DecimalValue("9") == 9;
    }
    assert IsArrayIndex("10") && IndexNumber("10") == 10 by {
      assert "10"[..1] == "1" && "1"[..0] == [];
      assert DecimalValue("10") == 10;
    }
    assert IndexEntries(tail) == [("9", w)] && NamedEntries(tail) == [];
    assert IndexEntries(vars) == vars && NamedEntries(vars) == [];
    assert SortByIndex(tail) == tail;
    assert InsertByIndex(("10", v), tail) == [("9", w)] + InsertByIndex(("10", v), []);
  }

  /**
   * The text after replacing the keys of `vars` one after another, in
   * their order, each on the text the previous ones
   * produced.
   */
  function ApplyAll(content: string, vars: seq<(string, string)>): string
  {
    if vars == [] then content
    else ReplaceKey(ApplyAll(content, vars[..|vars| - 1]), vars[|vars| - 1].0, vars[|vars| - 1].1)
  }

  /**
   * `processPromptWithVariables`: reassigns the running text once per
   * variable, in `Object.keys` order.
   */
  method ProcessPromptWithVariables(content: string, variables: Entries) returns (processed: string)
    ensures processed == ApplyAll(content, OwnKeyOrder(variables))
  {
    var keys := OwnKeyOrder(variables);
    processed := content;
    for i := 0 to |keys|
      invariant processed == ApplyAll(content, keys[..i])
    {
      var (key, value) := keys[i];
      assert keys[..i + 1][..i] == keys[..i];
      processed := ReplaceKey(processed, key, value);
    }
    assert keys[..|keys|] == keys;
  }

  /** Keys that match nowhere in the content, or no keys at all, leave the content unchanged. */
  lemma {:induction false} ApplyAllNoMatch(content: string, vars: seq<(string, string)>)
    requires forall k, i :: 0 <= k < |vars| && 0 <= i < |content| ==> KeyMatch(content[i..], vars[k].0).None?
    ensures ApplyAll(content, vars) == content
  {
    if vars != [] {
      var p := vars[..|vars| - 1];
      forall k, i | 0 <= k < |p| && 0 <= i < |content|
        ensures KeyMatch(content[i..], p[k].0).None?
      {
        assert p[k] == vars[k];
      }
      ApplyAllNoMatch(content, p);
      var last := |vars| - 1;
      ReplaceNoMatch(content, vars[last].0, vars[last].1);
    }
  }

  /** `{{a}}` is replaced whole by the value for `a`. */
  lemma ReplaceExampleA(value: string)
    ensures ReplaceKey("{{a}}", "a", value) == value
  {
    var s := "{{a}}";
    KeyMatchComplete(s, "a", 2, 5);
    assert ReplaceKey(s, "a", value) == value + ReplaceKey(s[5..], "a", value);
  }

  /** White space inside the braces is part of the placeholder. */
  lemma ReplaceExampleB()
    ensures ReplaceKey("{{ b }}", "b", "x") == "x"
  {
    var t := "{{ b }}";
    assert PlaceholderAt(t, "b", 3, 7) by {
      assert t[2..3] == [' '] && t[3..4] == "b" && t[4..5] == [' '];
      assert IsSpace(' ');
    }
    KeyMatchComplete(t, "b", 3, 7);
    assert ReplaceKey(t, "b", "x") == "x" + ReplaceKey(t[7..], "b", "x");
  }

  /** `{{a}}` holds no placeholder for `b`. */
  lemma ReplaceExampleOther()
    ensures ReplaceKey("{{a}}", "b", "x") == "{{a}}"
  {
    var s := "{{a}}";
    forall i | 0 <= i < |s|
      ensures KeyMatch(s[i..], "b").None?
    {
      if i == 0 {
        assert s[0..] == s;
        assert s[2..][0] == 'a';
        assert LeadingSpace(s[2..]) == 0;
        assert s[2] != 'b';
      }
    }
    ReplaceNoMatch(s, "b", "x");
  }

  /** Replacements run in key order: a value holding a later key's placeholder is itself replaced. */
  lemma SequentialExample()
    ensures ApplyAll("{{a}}", [("a", "{{ b }}"), ("b", "x")]) == "x"
    ensures ApplyAll("{{a}}", [("b", "x"), ("a", "{{ b }}")]) == "{{ b }}"
  {
    var vs := [("a", "{{ b }}"), ("b", "x")];
    assert vs[..1][..0] == [] && vs[..1] == [("a", "{{ b }}")];
    calc {
      ApplyAll("{{a}}", vs);
      ReplaceKey(ApplyAll("{{a}}", [("a", "{{ b }}")]), "b", "x");
      ReplaceKey(ReplaceKey("{{a}}", "a", "{{ b }}"), "b", "x");
      { ReplaceExampleA("{{ b }}"); }
      ReplaceKey("{{ b }}", "b", "x");
      { ReplaceExampleB(); }
      "x";
    }
    var ws := [("b", "x"), ("a", "{{ b }}")];
    assert ws[..1][..0] == [] && ws[..1] == [("b", "x")];
    calc {
      ApplyAll("{{a}}", ws);
      ReplaceKey(ApplyAll("{{a}}", [("b", "x")]), "a", "{{ b }}");
      ReplaceKey(ReplaceKey("{{a}}", "b", "x"), "a", "{{ b }}");
      { ReplaceExampleOther(); }
      ReplaceKey("{{a}}", "a", "{{ b }}");
      { ReplaceExampleA("{{ b }}"); }
      "{{ b }}";
    }
  }

  lemma OpenOtherNoMatch(c: char, rest: string, key: string)
    requires c != '{' && !IsSpace(c) && key != [] && key[0] != c
    ensures KeyMatch(['{', '{', c] + rest, key).None?
  {
    var s := ['{', '{', c] + rest;
    assert LeadingSpace(s[2..]) == 0 by { assert s[2..][0] == c; }
    assert !OccursAt(s, key, 2) by { assert s[2] == c; }
  }

  /** `{{c` opens no placeholder for a key not starting with `c`, and copies through. */
  lemma OpenOtherCopied(c: char, rest: string, key: string, value: string)
    requires c != '{' && !IsSpace(c) && key != [] && key[0] != c
    ensures ReplaceKey(['{', '{', c] + rest, key, value) == ['{', '{', c] + ReplaceKey(rest, key, value)
  {
    var s := ['{', '{', c] + rest;
    assert s[0..] == s;
    OpenOtherNoMatch(c, rest, key);
    assert KeyMatch(s[1..], key).None? by { assert s[1..][1] == c; }
    assert KeyMatch(s[2..], key).None? by { assert s[2..][0] == c; }
    calc {
      ReplaceKey(s, key, value);
      { ReplaceCopy(s, 0, key, value); }
      [s[0]] + ReplaceKey(s[1..], key, value);
      { ReplaceCopy(s, 1, key, value); }
      [s[0]] + ([s[1]] + ReplaceKey(s[2..], key, value));
      { ReplaceCopy(s, 2, key, value); }
      [s[0]] + ([s[1]] + ([s[2]] + ReplaceKey(s[3..], key, value)));
      { assert s[3..] == rest; }
      ['{', '{', c] + ReplaceKey(rest, key, value);
    }
  }

  lemma OpenKeyOpenNoMatch(c: char, rest: string)
    requires c != '{' && !IsSpace(c)
    ensures KeyMatch(['{', '{', c, '{'] + rest, [c]).None?
  {
    var s := ['{', '{', c, '{'] + rest;
    assert LeadingSpace(s[2..]) == 0 by { assert s[2..][0] == c; }
    assert LeadingSpace(s[3..]) == 0 by { assert s[3..][0] == '{'; }
  }

  /** `{{c{` opens no placeholder for the key `c`: `}}` does not follow it. */
  lemma OpenKeyOpenCopied(c: char, rest: string, value: string)
    requires c != '{' && !IsSpace(c)
    ensures ReplaceKey(['{', '{', c, '{'] + rest, [c], value) == ['{', '{', c] + ReplaceKey(['{'] + rest, [c], value)
  {
    var s := ['{', '{', c, '{'] + rest;
    assert s[0..] == s;
    OpenKeyOpenNoMatch(c, rest);
    assert KeyMatch(s[1..], [c]).None? by { assert s[1..][1] == c; }
    assert KeyMatch(s[2..], [c]).None? by { assert s[2..][0] == c; }
    calc {
      ReplaceKey(s, [c], value);
      { ReplaceCopy(s, 0, [c], value); }
      [s[0]] + ReplaceKey(s[1..], [c], value);
      { ReplaceCopy(s, 1, [c], value); }
      [s[0]] + ([s[1]] + ReplaceKey(s[2..], [c], value));
      { ReplaceCopy(s, 2, [c], value); }
      [s[0]] + ([s[1]] + ([s[2]] + ReplaceKey(s[3..], [c], value)));
      { assert s[3..] == ['{'] + rest; }
      ['{', '{', c] + ReplaceKey(['{'] + rest, [c], value);
    }
  }

  /** Text without `{` holds no placeholder and is copied through. */
  lemma NoOpenCopied(t: string, key: string, value: string)
    requires NoOpenBrace(t)
    ensures ReplaceKey(t, key, value) == t
  {
    forall i | 0 <= i < |t|
      ensures KeyMatch(t[i..], key).None?
    {
      assert t[i..][0] == t[i];
    }
    ReplaceNoMatch(t, key, value);
  }

  /** `{{a{{b}}}}` holds no placeholder for `a`: after `{{a` comes `{{`, not `}}`. */
  lemma NestedHasNoA(a: char, b: char, x: string)
    requires PlainChar(a) && PlainChar(b) && a != b
    ensures ReplaceKey(['{', '{', a, '{', '{', b, '}', '}', '}', '}'], [a], x) == ['{', '{', a, '{', '{', b, '}', '}', '}', '}']
  {
    var closing := ['}', '}', '}', '}'];
    var inner := ['{', b] + closing;
    calc {
      ReplaceKey(['{', '{', a, '{', '{', b, '}', '}', '}', '}'], [a], x);
      { assert ['{', '{', a, '{', '{', b, '}', '}', '}', '}'] == ['{', '{', a, '{'] + inner; }
      ReplaceKey(['{', '{', a, '{'] + inner, [a], x);
      { OpenKeyOpenCopied(a, inner, x); }
      ['{', '{', a] + ReplaceKey(['{'] + inner, [a], x);
      { assert ['{'] + inner == ['{', '{', b] + closing; OpenOtherCopied(b, closing, [a], x); }
      ['{', '{', a] + (['{', '{', b] + ReplaceKey(closing, [a], x));
      { NoOpenCopied(closing, [a], x); }
      ['{', '{', a] + (['{', '{', b] + closing);
      ['{', '{', a, '{', '{', b, '}', '}', '}', '}'];
    }
  }

  /** Removing the inner `{{b}}` of `{{a{{b}}}}` leaves `{{a}}`. */
  lemma NestedDropsB(a: char, b: char)
    requires PlainChar(a) && PlainChar(b) && a != b
    ensures ReplaceKey(['{', '{', a, '{', '{', b, '}', '}', '}', '}'], [b], "") == ['{', '{', a, '}', '}']
  {
    var t := ['{', '{', b, '}', '}', '}', '}'];
    calc {
      ReplaceKey(['{', '{', a, '{', '{', b, '}', '}', '}', '}'], [b], "");
      { assert ['{', '{', a, '{', '{', b, '}', '}', '}', '}'] == ['{', '{', a] + t; }
      ReplaceKey(['{', '{', a] + t, [b], "");
      { OpenOtherCopied(a, t, [b], ""); }
      ['{', '{', a] + ReplaceKey(t, [b], "");
      { InnerDropped(b); }
      ['{', '{', a] + ['}', '}'];
      ['{', '{', a, '}', '}'];
    }
  }

  /** `{{b}}}}` loses its placeholder and keeps the braces after it. */
  lemma InnerDropped(b: char)
    requires PlainChar(b)
    ensures ReplaceKey(['{', '{', b, '}', '}', '}', '}'], [b], "") == ['}', '}']
  {
    var t := ['{', '{', b, '}', '}', '}', '}'];
    assert t[2..2] == [] && t[2..3] == [b] && t[3..3] == [];
    KeyMatchComplete(t, [b], 2, 5);
    assert t[5..] == ['}', '}'];
    NoOpenCopied(t[5..], [b], "");
  }

  /** `{{a}}` is a placeholder for `a`. */
  lemma ShortSlot(a: char)
    requires PlainChar(a)
    ensures KeyMatch(['{', '{', a, '}', '}'], [a]) == Some(5)
  {
    var out := ['{', '{', a, '}', '}'];
    assert out[2..2] == [] && out[2..3] == [a] && out[3..3] == [];
    KeyMatchComplete(out, [a], 2, 5);
  }

  /**
   * Replacing one key can create a placeholder for a key already done:
   * with values for `a` then `b`, `{{a{{b}}}}` has no placeholder for
   * `a` when `a` is replaced, and removing `{{b}}` then leaves the
   * placeholder `{{a}}`, although `a` was supplied and no value holds `{`.
   */
  lemma NestedPlaceholderSurvives(a: char, b: char, x: string)
    requires PlainChar(a) && PlainChar(b) && a != b
    ensures ApplyAll(['{', '{', a, '{', '{', b, '}', '}', '}', '}'], [([a], x), ([b], "")]) == ['{', '{', a, '}', '}']
    ensures KeyMatch(['{', '{', a, '}', '}'], [a]) == Some(5)
  {
    var s := ['{', '{', a, '{', '{', b, '}', '}', '}', '}'];
    var vs := [([a], x), ([b], "")];
    calc {
      ApplyAll(s, vs);
      { assert vs[..1] == [([a], x)] && vs[1] == ([b], ""); }
      ReplaceKey(ApplyAll(s, [([a], x)]), [b], "");
      { assert [([a], x)][..0] == []; }
      ReplaceKey(ReplaceKey(s, [a], x), [b], "");
      { NestedHasNoA(a, b, x); }
      ReplaceKey(s, [b], "");
      { NestedDropsB(a, b); }
      ['{', '{', a, '}', '}'];
    }
    ShortSlot(a);
  }

  // ---------------------------------------------------------------------
  // Well-formed templates: plain text and placeholders
  // ---------------------------------------------------------------------

  /** A piece of a template: plain text, or a placeholder `{{ lead name trail }}`. */
  datatype Segment = Text(text: string) | Slot(lead: string, name: string, trail: string)

  function RenderSegment(g: Segment): string {
    match g
    case Text(t) => t
    case Slot(l, n, r) => "{{" + l + n + r + "}}"
  }

  /** The content a sequence of segments spells. */
  function Render(segs: seq<Segment>): string {
    if segs == [] then [] else RenderSegment(segs[0]) + Render(segs[1..])
  }

  /** A character a variable name may hold: no white space and no brace. */
  predicate PlainChar(c: char) { !IsSpace(c) && c != '{' && c != '}' }

  predicate PlainChars(k: string) { forall i :: 0 <= i < |k| ==> PlainChar(k[i]) }

  predicate NoOpenBrace(t: string) { forall i :: 0 <= i < |t| ==> t[i] != '{' }

  /** Text holds no `{`; a placeholder is padded with white space around a non-empty plain name. */
  predicate WellFormedSegment(g: Segment) {
    match g
    case Text(t) => NoOpenBrace(t)
    case Slot(l, n, r) => IsBlank(l) && IsBlank(r) && n != [] && PlainChars(n)
  }

  predicate WellFormed(segs: seq<Segment>) {
    forall i :: 0 <= i < |segs| ==> WellFormedSegment(segs[i])
  }

  /** The names of the placeholders, in order. */
  function SlotNames(segs: seq<Segment>): seq<string> {
    if segs == [] then []
    else (if segs[0].Slot? then [segs[0].name] else []) + SlotNames(segs[1..])
  }

  /** Every placeholder named `key` becomes the text `value`. */
  function Fill(segs: seq<Segment>, key: string, value: string): (r: seq<Segment>)
    ensures |r| == |segs|
  {
    if segs == [] then []
    else [if segs[0].Slot? && segs[0].name == key then Text(value) else segs[0]] + Fill(segs[1..], key, value)
  }

  /** `Fill` for each variable in turn. */
  function FillAll(segs: seq<Segment>, vars: seq<(string, string)>): seq<Segment> {
    if vars == [] then segs
    else Fill(FillAll(segs, vars[..|vars| - 1]), vars[|vars| - 1].0, vars[|vars| - 1].1)
  }

  /** Where no placeholder for the key starts at `k`, `s[k]` is copied through. */
  lemma ReplaceCopy(s: string, k: nat, key: string, value: string)
    requires k < |s| && KeyMatch(s[k..], key).None?
    ensures ReplaceKey(s[k..], key, value) == [s[k]] + ReplaceKey(s[k + 1..], key, value)
  {
    assert s[k..][1..] == s[k + 1..];
  }

  /** No placeholder for the key starts at any position in `[k, j)`. */
  predicate NoKeyMatchIn(s: string, k: nat, j: nat, key: string)
    requires j <= |s|
    decreases (j as int) - (k as int)
  {
    k >= j || (KeyMatch(s[k..], key).None? && NoKeyMatchIn(s, k + 1, j, key))
  }

  /** `NoKeyMatchIn` holds where every position in `[k, j)` has no match. */
  lemma {:induction false} NoKeyMatchInAll(s: string, k: nat, j: nat, key: string)
    requires k <= j <= |s|
    requires forall i :: k <= i < j ==> KeyMatch(s[i..], key).None?
    ensures NoKeyMatchIn(s, k, j, key)
    decreases (j as int) - (k as int)
  {
    if k < j {
      NoKeyMatchInAll(s, k + 1, j, key);
    }
  }

  /** Where no placeholder for the key starts in `[k, j)`, `s[k..j]` is copied through. */
  lemma {:induction false} ReplaceCopiedFrom(s: string, k: nat, j: nat, key: string, value: string)
    requires k <= j <= |s| && NoKeyMatchIn(s, k, j, key)
    ensures ReplaceKey(s[k..], key, value) == s[k..j] + ReplaceKey(s[j..], key, value)
    decreases (j as int) - (k as int)
  {
    if k < j {
      assert KeyMatch(s[k..], key).None? && NoKeyMatchIn(s, k + 1, j, key);
      calc {
        ReplaceKey(s[k..], key, value);
        { ReplaceCopy(s, k, key, value); }
        [s[k]] + ReplaceKey(s[k + 1..], key, value);
        { ReplaceCopiedFrom(s, k + 1, j, key, value); }
        [s[k]] + (s[k + 1..j] + ReplaceKey(s[j..], key, value));
        { assert s[k..j] == [s[k]] + s[k + 1..j]; }
        s[k..j] + ReplaceKey(s[j..], key, value);
      }
    } else {
      assert s[k..j] == [];
    }
  }

  /** Text at whose every position no placeholder for the key starts is copied through. */
  lemma ReplaceCopied(t: string, r: string, key: string, value: string)
    requires forall i :: 0 <= i < |t| ==> KeyMatch((t + r)[i..], key).None?
    ensures ReplaceKey(t + r, key, value) == t + ReplaceKey(r, key, value)
  {
    var s := t + r;
    NoKeyMatchInAll(s, 0, |t|, key);
    ReplaceCopiedFrom(s, 0, |t|, key, value);
    assert s[0..] == s && s[0..|t|] == t && s[|t|..] == r;
  }

  /** The characters of `s[i..j]` are all plain. */
  lemma PlainSlice(s: string, k: string, i: nat)
    requires OccursAt(s, k, i) && PlainChars(k)
    ensures forall j :: i <= j < i + |k| ==> PlainChar(s[j])
  {
    forall j | i <= j < i + |k|
      ensures PlainChar(s[j])
    {
      assert s[j] == s[i..i + |k|][j - i];
    }
  }

  /** Where the padding and the name between the braces of a placeholder sit. */
  lemma InnerParts(s: string, l: string, n: string, tr: string)
    requires 4 + |l| + |n| + |tr| <= |s| && s[2..2 + |l| + |n| + |tr|] == l + n + tr
    ensures s[2..][..|l|] == l && s[2 + |l|..2 + |l| + |n|] == n && s[2 + |l| + |n|..][..|tr|] == tr
  {
    var inner := l + n + tr;
    var a, e := 2 + |l|, 2 + |l| + |n|;
    forall j | 0 <= j < |inner|
      ensures s[2 + j] == inner[j]
    {
      assert s[2..2 + |inner|][j] == s[2 + j];
    }
    assert s[2..][..|l|] == l by {
      forall j | 0 <= j < |l|
        ensures s[2..][..|l|][j] == l[j]
      {
        assert inner[j] == l[j];
      }
    }
    assert s[a..e] == n by {
      forall j | 0 <= j < |n|
        ensures s[a..e][j] == n[j]
      {
        assert inner[|l| + j] == n[j];
      }
    }
    forall j | 0 <= j < |tr|
      ensures s[e..][..|tr|][j] == tr[j]
    {
      assert inner[|l| + |n| + j] == tr[j];
    }
  }

  /** A rendered placeholder followed by `r` is laid out as `SlotLaidOut` describes. */
  lemma SlotLayout(l: string, n: string, tr: string, r: string)
    ensures SlotLaidOut(RenderSegment(Slot(l, n, tr)) + r, l, n, tr)
  {
    var g := RenderSegment(Slot(l, n, tr));
    var s := g + r;
    assert s[0..|g|] == g;
    SlotAt(s, 0, |g|, l, n, tr);
    InnerParts(s, l, n, tr);
  }

  /**
   * A plain key other than the name does not match at a placeholder: it
   * cannot run past the name into the padding or `}}`, so it stops inside
   * the name, before a character that is neither white space nor `}`.
   */
  lemma SlotOtherKey(s: string, a: nat, n: string, key: string)
    requires a + |n| < |s| && s[a..a + |n|] == n && !PlainChar(s[a + |n|])
    requires n != key && PlainChars(n) && PlainChars(key) && OccursAt(s, key, a)
    ensures var k := a + |key|; k < a + |n| && !ClosesAt(s, k + LeadingSpace(s[k..]))
  {
    PlainSlice(s, key, a);
    var k := a + |key|;
    assert k <= a + |n|;
    assert k != a + |n| by {
      assert s[a..k] == key;
    }
    assert s[k] == n[|key|] by {
      assert s[a..a + |n|][|key|] == s[k];
    }
    assert s[k..][0] == s[k];
    LeadingSpaceIs(s[k..], 0);
  }

  /** The layout of a placeholder `{{ l n tr }}` at the start of `s`. */
  predicate SlotLaidOut(s: string, l: string, n: string, tr: string) {
    var a, e := 2 + |l|, 2 + |l| + |n|;
    |l| + |n| + |tr| + 4 <= |s| && OpensAt(s, 0) && ClosesAt(s, e + |tr|)
    && s[2..][..|l|] == l && s[a..e] == n && s[e..][..|tr|] == tr
  }

  /** The first `\s*` of the pattern takes exactly the placeholder's leading padding. */
  lemma SlotLead(s: string, l: string, n: string, tr: string)
    requires WellFormedSegment(Slot(l, n, tr)) && SlotLaidOut(s, l, n, tr)
    ensures 2 + LeadingSpace(s[2..]) == 2 + |l|
  {
    assert s[2..][|l|] == n[0] by {
      assert s[2 + |l|..2 + |l| + |n|][0] == n[0];
    }
    LeadingSpaceIs(s[2..], |l|);
  }

  /** The second `\\s*` of the pattern, after the name, takes exactly the trailing padding. */
  lemma SlotTrail(s: string, l: string, n: string, tr: string)
    requires WellFormedSegment(Slot(l, n, tr)) && SlotLaidOut(s, l, n, tr)
    ensures 2 + |l| + |n| + LeadingSpace(s[2 + |l| + |n|..]) == 2 + |l| + |n| + |tr|
  {
    var e := 2 + |l| + |n|;
    assert s[e..][|tr|] == '}';
    LeadingSpaceIs(s[e..], |tr|);
  }

  /** At a well-formed placeholder, `KeyMatch` succeeds for its own name, spanning it whole. */
  lemma SlotOwnKey(s: string, l: string, n: string, tr: string)
    requires WellFormedSegment(Slot(l, n, tr)) && SlotLaidOut(s, l, n, tr)
    ensures KeyMatch(s, n) == Some(|l| + |n| + |tr| + 4)
  {
    var a := 2 + |l|;
    SlotLead(s, l, n, tr);
    SlotTrail(s, l, n, tr);
    assert OccursAt(s, n, a);
    KeyMatchAt(s, n, a, a + |n| + |tr|);
    assert a + |n| + |tr| + 2 == |l| + |n| + |tr| + 4;
  }

  /** At a well-formed placeholder, `KeyMatch` fails for every other plain key. */
  lemma SlotForeignKey(s: string, l: string, n: string, tr: string, key: string)
    requires WellFormedSegment(Slot(l, n, tr)) && PlainChars(key) && SlotLaidOut(s, l, n, tr) && n != key
    ensures KeyMatch(s, key).None?
  {
    var a := 2 + |l|;
    var e := a + |n|;
    SlotLead(s, l, n, tr);
    if OccursAt(s, key, a) {
      assert !PlainChar(s[e]) by {
        if tr != [] {
          assert s[e] == s[e..][..|tr|][0];
        }
      }
      SlotOtherKey(s, a, n, key);
    }
    KeyMatchFails(s, key, a);
  }

  /** `SlotKeyMatchAt` for a rendered placeholder followed by any text. */
  lemma SlotKeyMatch(l: string, n: string, tr: string, r: string, key: string)
    requires WellFormedSegment(Slot(l, n, tr)) && PlainChars(key)
    ensures n == key ==> KeyMatch(RenderSegment(Slot(l, n, tr)) + r, key) == Some(|l| + |n| + |tr| + 4)
    ensures n != key ==> KeyMatch(RenderSegment(Slot(l, n, tr)) + r, key).None?
  {
    var s := RenderSegment(Slot(l, n, tr)) + r;
    SlotLayout(l, n, tr, r);
    if n == key {
      SlotOwnKey(s, l, n, tr);
    } else {
      SlotForeignKey(s, l, n, tr, key);
    }
  }

  /** Between the braces of a well-formed placeholder there is no `{`. */
  lemma SlotBodyNoBrace(l: string, n: string, tr: string)
    requires WellFormedSegment(Slot(l, n, tr))
    ensures NoOpenBrace(l + n + tr + "}}")
  {
    var body := l + n + tr + "}}";
    forall i | 0 <= i < |body|
      ensures body[i] != '{'
    {
      if i < |l| {
        assert body[i] == l[i];
      } else if i < |l| + |n| {
        assert body[i] == n[i - |l|];
      } else if i < |l| + |n| + |tr| {
        assert body[i] == tr[i - |l| - |n|];
      }
    }
  }

  /** Where the key's placeholder spans `s[..m]`, it becomes the value. */
  lemma ReplaceAt(s: string, key: string, value: string, m: nat)
    requires KeyMatch(s, key) == Some(m)
    ensures ReplaceKey(s, key, value) == value + ReplaceKey(s[m..], key, value)
  {
    assert s != [];
  }

  /** A well-formed placeholder named by the key is replaced by the value. */
  lemma ReplaceOwnSlot(l: string, n: string, tr: string, r: string, value: string)
    requires WellFormedSegment(Slot(l, n, tr))
    ensures ReplaceKey(RenderSegment(Slot(l, n, tr)) + r, n, value) == value + ReplaceKey(r, n, value)
  {
    var g := RenderSegment(Slot(l, n, tr));
    var s := g + r;
    SlotKeyMatch(l, n, tr, r, n);
    ReplaceAt(s, n, value, |g|);
    assert s[|g|..] == r;
  }

  /**
   * On a well-formed template, replacing a plain key's placeholders is
   * filling the placeholders of that name with the value.
   */
  lemma {:induction false} ReplaceRendered(segs: seq<Segment>, key: string, value: string)
    requires WellFormed(segs) && PlainChars(key)
    ensures ReplaceKey(Render(segs), key, value) == Render(Fill(segs, key, value))
  {
    if segs != [] {
      var g := segs[0];
      var rest := segs[1..];
      assert WellFormedSegment(g);
      ReplaceRendered(rest, key, value);
      var f := Fill(segs, key, value);
      assert f[1..] == Fill(rest, key, value);
      if g.Slot? && g.name == key {
        ReplaceOwnSlot(g.lead, g.name, g.trail, Render(rest), value);
      } else {
        forall i | 0 <= i < |RenderSegment(g)|
          ensures KeyMatch((RenderSegment(g) + Render(rest))[i..], key).None?
        {
          SegmentNoMatch(g, Render(rest), key, i);
        }
        ReplaceCopied(RenderSegment(g), Render(rest), key, value);
      }
    }
  }

  /** The keys of `vars`, in order. */
  function Keys(vars: seq<(string, string)>): (ks: seq<string>)
    ensures |ks| == |vars| && forall k :: 0 <= k < |vars| ==> ks[k] == vars[k].0
  {
    if vars == [] then [] else Keys(vars[..|vars| - 1]) + [vars[|vars| - 1].0]
  }

  /**
   * Filling with a value without `{` keeps a template well formed, and
   * removes exactly the placeholders of that name.
   */
  lemma {:induction false} FillSpec(segs: seq<Segment>, key: string, value: string)
    requires WellFormed(segs) && NoOpenBrace(value)
    ensures WellFormed(Fill(segs, key, value))
    ensures forall x :: x in SlotNames(Fill(segs, key, value)) <==> x in SlotNames(segs) && x != key
  {
    if segs != [] {
      var f := Fill(segs, key, value);
      FillSpec(segs[1..], key, value);
      assert f[1..] == Fill(segs[1..], key, value);
      assert f == [f[0]] + f[1..];
      assert WellFormedSegment(segs[0]);
    }
  }

  /**
   * Processing a well-formed template with plain keys and values without
   * `{` fills the named placeholders one variable after another; the
   * result is again well formed and keeps exactly the placeholders whose
   * names are not keys.
   */
  lemma {:induction false} ApplyRendered(segs: seq<Segment>, vars: seq<(string, string)>)
    requires WellFormed(segs)
    requires forall k :: 0 <= k < |vars| ==> PlainChars(vars[k].0) && NoOpenBrace(vars[k].1)
    ensures ApplyAll(Render(segs), vars) == Render(FillAll(segs, vars))
    ensures WellFormed(FillAll(segs, vars))
    ensures forall x :: x in SlotNames(FillAll(segs, vars)) <==> x in SlotNames(segs) && x !in Keys(vars)
  {
    if vars != [] {
      var p := vars[..|vars| - 1];
      var (key, value) := vars[|vars| - 1];
      ApplyRendered(segs, p);
      var mid := FillAll(segs, p);
      ReplaceRendered(mid, key, value);
      FillSpec(mid, key, value);
      assert Keys(vars) == Keys(p) + [key];
    }
  }

  /** No match starts at `i` unless `{{` does. */
  lemma NoOpenNoMatch(s: string, i: nat, key: string)
    requires i < |s| && (s[i] != '{' || (i + 1 < |s| && s[i + 1] != '{'))
    ensures KeyMatch(s[i..], key).None?
  {
    assert s[i..][0] == s[i];
    if i + 1 < |s| {
      assert s[i..][1] == s[i + 1];
    }
  }

  /** No match starts past the first character of a well-formed placeholder. */
  lemma {:induction false} SlotInnerNoMatch(l: string, n: string, tr: string, y: string, key: string, i: nat)
    requires WellFormedSegment(Slot(l, n, tr))
    requires 1 <= i < |RenderSegment(Slot(l, n, tr))|
    ensures KeyMatch((RenderSegment(Slot(l, n, tr)) + y)[i..], key).None?
  {
    var s := RenderSegment(Slot(l, n, tr)) + y;
    assert i < |s| && (s[i] != '{' || (i + 1 < |s| && s[i + 1] != '{')) by {
      var body := l + n + tr + "}}";
      SlotBodyNoBrace(l, n, tr);
      assert s == "{{" + body + y;
      if i == 1 {
        assert s[2] == body[0];
      } else {
        assert s[i] == body[i - 2];
      }
    }
    NoOpenNoMatch(s, i, key);
  }

  /** No match of a key starts inside a well-formed segment that is not its placeholder. */
  lemma SegmentNoMatch(g: Segment, y: string, key: string, i: nat)
    requires WellFormedSegment(g) && PlainChars(key) && !(g.Slot? && g.name == key)
    requires i < |RenderSegment(g)|
    ensures KeyMatch((RenderSegment(g) + y)[i..], key).None?
  {
    if g.Text? {
      var s := g.text + y;
      assert s[i] == g.text[i];
      NoOpenNoMatch(s, i, key);
    } else if i == 0 {
      var s := RenderSegment(g) + y;
      assert s[0..] == s;
      SlotKeyMatch(g.lead, g.name, g.trail, y, key);
    } else {
      SlotInnerNoMatch(g.lead, g.name, g.trail, y, key, i);
    }
  }

  /**
   * A well-formed template without a placeholder named `key` holds no
   * match of `{{\s*key\s*}}` at any position.
   */
  lemma {:induction false} NoPlaceholderLeft(segs: seq<Segment>, key: string)
    requires WellFormed(segs) && PlainChars(key) && key !in SlotNames(segs)
    ensures forall i :: 0 <= i <= |Render(segs)| ==> KeyMatch(Render(segs)[i..], key).None?
  {
    if segs != [] {
      var g := segs[0];
      var rest := Render(segs[1..]);
      assert WellFormedSegment(g);
      NoPlaceholderLeft(segs[1..], key);
      var s := Render(segs);
      forall i | 0 <= i <= |s|
        ensures KeyMatch(s[i..], key).None?
      {
        if i < |RenderSegment(g)| {
          SegmentNoMatch(g, rest, key, i);
        } else {
          assert s[i..] == rest[i - |RenderSegment(g)|..];
        }
      }
    }
  }

  /**
   * Processing a well-formed template with plain keys and values without
   * `{` leaves no placeholder for any of the keys, and processing the
   * result again changes nothing.
   */
  lemma ProcessRemovesPlaceholders(segs: seq<Segment>, vars: seq<(string, string)>)
    requires WellFormed(segs)
    requires forall k :: 0 <= k < |vars| ==> PlainChars(vars[k].0) && NoOpenBrace(vars[k].1)
    ensures var out := ApplyAll(Render(segs), vars);
      forall k, i :: 0 <= k < |vars| && 0 <= i <= |out| ==> KeyMatch(out[i..], vars[k].0).None?
    ensures ApplyAll(ApplyAll(Render(segs), vars), vars) == ApplyAll(Render(segs), vars)
  {
    ApplyRendered(segs, vars);
    var out := ApplyAll(Render(segs), vars);
    forall k | 0 <= k < |vars|
      ensures forall i :: 0 <= i <= |out| ==> KeyMatch(out[i..], vars[k].0).None?
    {
      assert Keys(vars)[k] == vars[k].0;
      NoPlaceholderLeft(FillAll(segs, vars), vars[k].0);
    }
    ApplyAllNoMatch(out, vars);
  }

  // ---------------------------------------------------------------------
  // extractVariables on well-formed templates
  // ---------------------------------------------------------------------

  predicate NoLineBreak(t: string) { forall i :: 0 <= i < |t| ==> !IsLineTerminator(t[i]) }

  /** Placeholders whose padding stays on one line, which `.` in `/{{(.*?)}}/` requires. */
  predicate InlineSlots(segs: seq<Segment>) {
    forall i :: 0 <= i < |segs| && segs[i].Slot? ==> NoLineBreak(segs[i].lead) && NoLineBreak(segs[i].trail)
  }

  /** `exec` skips text where no `{` occurs. */
  lemma {:induction false} ExecSkip(s: string, from: nat, to: nat)
    requires from <= to <= |s|
    requires forall i :: from <= i < to ==> s[i] != '{'
    ensures Exec(s, from) == Exec(s, to)
    decreases (to as int) - (from as int)
  {
    if from < to {
      ExecSkip(s, from + 1, to);
    }
  }

  /** The lazy body stops at the first `}}` when no `}` or line terminator comes before it. */
  lemma {:induction false} CloseFromRun(s: string, k: nat, c: nat)
    requires k <= c && ClosesAt(s, c)
    requires forall m :: k <= m < c ==> s[m] != '}' && !IsLineTerminator(s[m])
    ensures CloseFrom(s, k) == Some(c)
    decreases (c as int) - (k as int)
  {
    if k < c {
      CloseFromRun(s, k + 1, c);
    }
  }

  /** The characters between the braces of an inline well-formed placeholder. */
  lemma InnerChars(l: string, n: string, tr: string)
    requires WellFormedSegment(Slot(l, n, tr)) && NoLineBreak(l) && NoLineBreak(tr)
    ensures forall j :: 0 <= j < |l + n + tr| ==> (l + n + tr)[j] != '}' && !IsLineTerminator((l + n + tr)[j])
  {
    var inner := l + n + tr;
    forall j | 0 <= j < |inner|
      ensures inner[j] != '}' && !IsLineTerminator(inner[j])
    {
      if j < |l| {
        assert inner[j] == l[j];
      } else if j < |l| + |n| {
        assert inner[j] == n[j - |l|];
      } else {
        assert inner[j] == tr[j - |l| - |n|];
      }
    }
  }

  /** `exec` from a well-formed inline placeholder at `p` matches it, and its trimmed text is the name. */
  lemma SlotExecAt(s: string, p: nat, l: string, n: string, tr: string, q: nat)
    requires WellFormedSegment(Slot(l, n, tr)) && NoLineBreak(l) && NoLineBreak(tr)
    requires q == p + 4 + |l| + |n| + |tr| && q <= |s|
    requires OpensAt(s, p) && ClosesAt(s, q - 2) && s[p + 2..q - 2] == l + n + tr
    ensures Exec(s, p) == Match(p, q - 2) && Trim(s[p + 2..q - 2]) == n
  {
    var c := q - 2;
    assert Exec(s, p) == Match(p, c) by {
      InnerChars(l, n, tr);
      forall m | p + 2 <= m < c
        ensures s[m] != '}' && !IsLineTerminator(s[m])
      {
        assert s[m] == s[p + 2..c][m - p - 2];
      }
      CloseFromRun(s, p + 2, c);
    }
    TrimPadded(l, n, tr);
  }

  /** The names a segment contributes to `SlotNames`. */
  function SegmentNames(g: Segment): seq<string> {
    if g.Slot? then [g.name] else []
  }

  /** A segment that is well formed and, if a placeholder, padded on one line. */
  predicate InlineSegment(g: Segment) {
    WellFormedSegment(g) && (g.Slot? ==> NoLineBreak(g.lead) && NoLineBreak(g.trail))
  }

  /** A rendered suffix starts with its first segment, followed by the rest rendered. */
  lemma RenderedSplit(s: string, p: nat, segs: seq<Segment>) returns (q: nat)
    requires segs != [] && p <= |s| && s[p..] == Render(segs)
    ensures q == p + |RenderSegment(segs[0])| && q <= |s|
    ensures s[p..q] == RenderSegment(segs[0]) && s[q..] == Render(segs[1..])
  {
    q := p + |RenderSegment(segs[0])|;
    assert s[p..] == RenderSegment(segs[0]) + Render(segs[1..]);
    assert s[p..q] == s[p..][..q - p];
    assert s[q..] == s[p..][q - p..];
  }

  /** `exec` skips plain text written at `p`. */
  lemma TextExecAt(s: string, p: nat, q: nat, t: string)
    requires p <= q <= |s| && s[p..q] == t && NoOpenBrace(t)
    ensures Exec(s, p) == Exec(s, q)
  {
    forall i | p <= i < q
      ensures s[i] != '{'
    {
      assert s[i] == t[i - p];
    }
    ExecSkip(s, p, q);
  }

  /** A placeholder written at `p`: its braces and its inner text. */
  lemma SlotAt(s: string, p: nat, q: nat, l: string, n: string, tr: string)
    requires p <= q <= |s| && s[p..q] == RenderSegment(Slot(l, n, tr))
    ensures q == p + 4 + |l| + |n| + |tr|
    ensures OpensAt(s, p) && ClosesAt(s, q - 2) && s[p + 2..q - 2] == l + n + tr
  {
    var w := s[p..q];
    var inner := l + n + tr;
    assert w == "{{" + inner + "}}" by {
      assert "{{" + l + n + tr == "{{" + inner;
    }
    assert s[p] == w[0] && s[p + 1] == w[1];
    assert s[q - 2] == w[|w| - 2] && s[q - 1] == w[|w| - 1];
    assert w[..|w| - 2] == "{{" + inner;
    assert w[2..|w| - 2] == inner by {
      assert w[2..|w| - 2] == w[..|w| - 2][2..];
    }
    var a, b := s[p + 2..q - 2], w[2..|w| - 2];
    forall j | 0 <= j < |a|
      ensures a[j] == b[j]
    {
      assert w[2 + j] == s[p + 2 + j];
    }
  }

  /**
   * `exec` at the start of the first segment of a rendered suffix: past
   * plain text it behaves as from the next segment, and at a placeholder
   * it matches that placeholder.
   */
  lemma SegmentExecAt(s: string, p: nat, segs: seq<Segment>) returns (q: nat)
    requires segs != [] && InlineSegment(segs[0])
    requires p <= |s| && s[p..] == Render(segs)
    ensures q == p + |RenderSegment(segs[0])| && q <= |s| && s[q..] == Render(segs[1..])
    ensures segs[0].Text? ==> Exec(s, p) == Exec(s, q)
    ensures segs[0].Slot? ==> p + 4 <= q && Exec(s, p) == Match(p, q - 2) && Trim(s[p + 2..q - 2]) == segs[0].name
  {
    q := RenderedSplit(s, p, segs);
    match segs[0]
    case Text(t) =>
      TextExecAt(s, p, q, t);
    case Slot(l, n, tr) =>
      SlotAt(s, p, q, l, n, tr);
      SlotExecAt(s, p, l, n, tr, q);
  }

  /** Where `exec` gives the same result, the scans agree. */
  lemma ScanSkip(s: string, p: nat, q: nat)
    requires Exec(s, p) == Exec(s, q)
    ensures ScanFrom(s, p) == ScanFrom(s, q)
  {
    assert ScanFrom(s, p) == ScanAfter(s, Exec(s, p));
  }

  /** The scan from a match at `p` whose trimmed inner text is `n`. */
  lemma ScanSlot(s: string, p: nat, q: nat, n: string)
    requires p + 4 <= q && Exec(s, p) == Match(p, q - 2) && Trim(s[p + 2..q - 2]) == n
    ensures ScanFrom(s, p) == [n] + ScanFrom(s, q)
  {
    var c := q - 2;
    ScanMatch(s, p, p, c);
    assert c + 2 == q;
  }

  /** The scan across one segment, from what `exec` does at its start. */
  lemma ScanSegment(s: string, p: nat, q: nat, g: Segment)
    requires p <= q <= |s|
    requires g.Text? ==> Exec(s, p) == Exec(s, q)
    requires g.Slot? ==> p + 4 <= q && Exec(s, p) == Match(p, q - 2) && Trim(s[p + 2..q - 2]) == g.name
    ensures ScanFrom(s, p) == SegmentNames(g) + ScanFrom(s, q)
  {
    if g.Slot? {
      ScanSlot(s, p, q, g.name);
    } else {
      ScanSkip(s, p, q);
    }
  }

  /**
   * From where a well-formed template with inline placeholders starts,
   * the scan collects exactly the placeholder names, in order.
   */
  lemma {:induction false} ScanRenderedAt(s: string, p: nat, segs: seq<Segment>)
    requires WellFormed(segs) && InlineSlots(segs)
    requires p <= |s| && s[p..] == Render(segs)
    ensures ScanFrom(s, p) == SlotNames(segs)
    decreases |segs|
  {
    if segs == [] {
      assert ScanFrom(s, p) == ScanAfter(s, Exec(s, p));
    } else {
      assert InlineSegment(segs[0]);
      var q := SegmentExecAt(s, p, segs);
      ScanSegment(s, p, q, segs[0]);
      ScanRenderedAt(s, q, segs[1..]);
    }
  }

  /** `extractVariables` on a well-formed template: the placeholder names, without repeats, in first-occurrence order. */
  lemma ExtractRendered(segs: seq<Segment>)
    requires WellFormed(segs) && InlineSlots(segs)
    ensures Placeholders(Render(segs)) == SlotNames(segs)
  {
    assert Render(segs)[0..] == Render(segs);
    ScanRenderedAt(Render(segs), 0, segs);
  }

  /** A well-formed template without placeholders holds no `{`. */
  lemma {:induction false} RenderNoBrace(segs: seq<Segment>)
    requires WellFormed(segs) && SlotNames(segs) == []
    ensures NoOpenBrace(Render(segs))
  {
    if segs != [] {
      assert WellFormedSegment(segs[0]);
      assert segs[0].Text?;
      RenderNoBrace(segs[1..]);
      var s := Render(segs);
      forall i | 0 <= i < |s|
        ensures s[i] != '{'
      {
        if i < |segs[0].text| {
          assert s[i] == segs[0].text[i];
        } else {
          assert s[i] == Render(segs[1..])[i - |segs[0].text|];
        }
      }
    }
  }

  /**
   * Extracting the variables of a well-formed template, then processing it
   * with a plain value without `{` for every one of them, leaves nothing
   * to extract.
   */
  lemma FilledTemplateHasNoVariables(segs: seq<Segment>, vars: seq<(string, string)>)
    requires WellFormed(segs)
    requires forall k :: 0 <= k < |vars| ==> PlainChars(vars[k].0) && NoOpenBrace(vars[k].1)
    requires forall x :: x in SlotNames(segs) ==> x in Keys(vars)
    ensures Placeholders(ApplyAll(Render(segs), vars)) == []
  {
    ApplyRendered(segs, vars);
    var filled := FillAll(segs, vars);
    assert SlotNames(filled) == [] || SlotNames(filled)[0] in SlotNames(filled);
    RenderNoBrace(filled);
    var out := Render(filled);
    forall i | 0 <= i < |out|
      ensures !OpensAt(out, i)
    {
    }
    NoOpeningNoPlaceholders(out);
  }
}

=== FILE: wrappers.dfy ===
/** Option and Result values shared by every module of the model. */
module Wrappers {

  /** A value that may be absent (JavaScript `null`/`undefined`, Python `None`). */
  datatype Option<+T> = None | Some(value: T) {
    function GetOr(default: T): T {
      match this
      case Some(v) => v
      case None => default
    }
  }

  /** The outcome of an operation that may throw: `Err` carries the thrown message. */
  datatype Result<+T, +E> = Ok(value: T) | Err(error: E)
}
